=== FILE: README.md ===
# picam control surface, modelled in Dafny

This project models the deterministic core of picam, an on-camera control system for a Raspberry Pi camera. The core has a touchscreen status overlay, a DRM display compositor, an INI configuration, an EDID probe and a small Go API process. Each part becomes a module with immutable datatypes and pure functions. Hardware and I/O are replaced by parameters.

- `StateNumbers`: the `StateNumber` change tracker (one value, one last value, one shared "changed" flag). It is defined identically in `mycam/toolkit.py` and `mycam/user_interface.py`, so it is modelled once.
- `Toolkit`: the widgets and the six-bar `Layout` of `mycam/toolkit.py`. It covers tap events, `compute` placement, `render` gating and `tap` hit-testing.
- `UserInterface`: the main status screen of `mycam/user_interface.py`. It covers which regions `render_main_screen` repaints and how `update_state` feeds them.
- `Framebuffers`: vocabulary shared by both DRM previews. It covers the `FMT_MAP` format table, packed and planar 4:2:0 framebuffer layouts, plane placements and the camera-side records.
- `FrameOwnership`: the acquire/release discipline of `render_request` and `stop`. It holds an extra reference on the displayed frame only with more than one camera buffer.
- `MultiPreview`: `mycam/multipreview.py`. It covers the `DrmManager` use count, the letter- and pillar-box fit, plane reservation, the framebuffer cache, the overlay selection of `render_drm`, `set_overlay`, `render_request` and `stop`. Every `commit_sync` is appended to a commit log.
- `DrmOutput`: `mycam/drmoutput.py`. It covers connectors with overlay layers and dirty flags, `configure`, `start`, `overlay_position`, `use_output`, `render_drm`, `set_overlay` (reuse or reallocate the layer buffer) and `render_request`.
- `PyInts`: the Python built-ins the configuration relies on: `int(text, base)` (whitespace stripping, sign, underscores), `str(n)` and `"{0:02x}".format(n)`.
- `Configuration`: `mycam/config.py`. It covers type-directed coercion of INI strings, the key-name mapping, the save format, the encoder framerate clamp and opening a configuration file.
- `Edid`: `mycam/edid.py`. It covers the manufacturer-id decoder as written (4-bit masks on the first two letters), compared against the 5-bit layout of section 3.4.1 of VESA E-EDID, and `check_edid` over the EDID bytes.
- `LittleEndian`, `IpcClient`, `ApiState`, `ApiDispatch`: the Go side. They cover the command packets of `lib/ipc/client.go`, the packet loop of `cmd/mncam_api/main.go`, and the state updates of `lib/api/state.go` with their broadcast events as an append-only outbox.

A Python exception or a Go panic becomes an `Err` value of a `Result`. The state an exception would leave half-updated is not kept.

Some behaviour of the code is easy to misread, so it is stated here:
- A `StateNumber` has one shared flag, not a flag per observer. Two widgets bound to the same holder see one change between them, and only the first one drawn repaints.
- `DRMOutput.render_drm` never clears a layer's dirty flag, so a dirty layer is re-sent on every later commit.
- Every `render_drm` issues a commit, even one with no planes.
- There is no double-tap, slider, radio row, container or page attachment.
- `Layout.tap` does not translate coordinates into the widget's space.

## Model

| member | source | states |
|---|---|---|
| StateNumbers.New | mycam/toolkit.py:8-15 | a holder built with a value other than None holds it and starts changed; built with None it starts unchanged; the last value is None either way |
| StateNumbers.Set | mycam/toolkit.py:17-21 | `set` always stores the value; a value that differs from the last value under Python `==` becomes the last value and raises the flag; an equal one leaves the last value and the flag as they were |
| StateNumbers.Once | mycam/toolkit.py:23-26 | `once` reports the flag and clears it, keeping the value and the last value |
| StateNumbers.PyEqIsEquivalence | mycam/toolkit.py:19 | the comparison `set` uses is reflexive, symmetric and transitive on the values the screen stores |
| StateNumbers.PyEqIdentifiesBoolAndInt | mycam/toolkit.py:19 | `True` compares equal to 1 and `False` to 0, so such a `set` is not a change though the value differs |
| StateNumbers.SetRemembers | mycam/toolkit.py:17-21 | after `set(v)` the last value equals `v` |
| StateNumbers.SetIdempotent | mycam/toolkit.py:17-21 | setting the same value twice in a row leaves the holder as setting it once |
| StateNumbers.OnceConsumes | mycam/toolkit.py:23-26 | a second `once` with no set in between reports false |
| StateNumbers.RepeatedSetNotReported | mycam/user_interface.py:17-26 | once a change has been consumed, setting the same value again is not reported |
| StateNumbers.FirstSetAfterNewIsChange | mycam/toolkit.py:8-21 | because the last value starts as None, the first set of any value other than None after construction is reported, even the initial value |
| StateNumbers.ReportsBoundedByChanges | mycam/toolkit.py:17-26 | over any run of sets and `once` calls, `once` reports true at most once per actual change, plus once for a change pending at the start |
| Toolkit.MakeTapEvent | mycam/toolkit.py:32-35 | a tap event stores its coordinates swapped |
| Toolkit.TapEventSwap | mycam/toolkit.py:32-35 | building an event from another's fields swaps them back, and an event equals the unswapped one iff both coordinates agree |
| Toolkit.NewLayout | mycam/toolkit.py:141-148 | a new layout has the given size and six empty bars |
| Toolkit.AddWidget | mycam/toolkit.py:150-157 | adding appends the widget to the named bar only; an attachment outside 0..5 fails with a key error |
| Toolkit.AddedWidgetPlaced | mycam/toolkit.py:150-192 | after adding a widget and computing, it is last in its bar, as wide as declared and 10 after its neighbour. A right bar then ends with it 10 before the layout's width. A left bar keeps its earlier widgets where they were, and every other bar is placed as before |
| Toolkit.PlaceBarAppendLeft | mycam/toolkit.py:159-192 | in a left bar, adding a widget leaves the earlier ones where they were |
| Toolkit.PackAppend | mycam/toolkit.py:170-178 | packing one more widget leaves the earlier ones where they were |
| Toolkit.ComputeBarOf | mycam/toolkit.py:166-192 | `compute` places each bar from that bar's own widgets |
| Toolkit.PackPlaced | mycam/toolkit.py:170-178 | the packing loop lays a bar's widgets side by side from the offset, each as wide as declared and 64 high, 10 apart; the last one ends at offset plus the total |
| Toolkit.Shift | mycam/toolkit.py:159-164 | `_offset` moves every corner of every widget of a bar by the same amount and changes nothing else |
| Toolkit.ComputeBar | mycam/toolkit.py:166-192 | one bar after `compute` satisfies `BarPlaced` (see `Toolkit.Compute`) |
| Toolkit.Compute | mycam/toolkit.py:166-192 | after `compute`, every widget is as wide as declared and 64 high, and neighbours are 10 apart; left bars start at 10, right bars end 10 before the layout width, middle bars are centred, bottom bars sit at height − 64; widths, states and handlers are kept |
| Toolkit.PackIgnoresOldGeometry | mycam/toolkit.py:170-178 | packing depends on the widths alone, never on earlier coordinates |
| Toolkit.ComputeIdempotent | mycam/toolkit.py:166-192 | running `compute` twice gives the same layout as running it once |
| Toolkit.RenderAll | mycam/toolkit.py:194-199 | rendering the widgets in order repaints exactly the widgets whose state reports a change and that no earlier widget on the same state has consumed; every state bound to a widget ends unchanged, every other state keeps its flag, and all values are kept |
| Toolkit.Render | mycam/toolkit.py:194-202 | `Layout.render` returns a buffer iff at least one widget drew, and the buffer's repainted set is exactly the widgets that drew |
| Toolkit.RenderQuiet | mycam/toolkit.py:194-202 | with no change pending, render returns None |
| Toolkit.RenderTwiceQuiet | mycam/toolkit.py:194-202 | a second render right after a first returns None |
| Toolkit.ButtonTap | mycam/toolkit.py:83-90 | a tap calls the handler iff there is one, with the negated value when the state holds a bool and with None otherwise |
| Toolkit.ToggleTwiceRestores | mycam/toolkit.py:83-88 | for a bool state whose handler stores its argument, one tap flips the value and a second tap restores it |
| Toolkit.FirstHit | mycam/toolkit.py:206-209 | the inner loop of `tap` stops at the first widget of the bar whose closed rectangle contains the point, and runs to the end iff none does |
| Toolkit.Tap | mycam/toolkit.py:204-209 | `Layout.tap` fires at most one widget per bar, in bar order: the first whose closed rectangle contains the point; a bar fires iff any of its widgets contains the point |
| Toolkit.ComputedTapReachesWidget | mycam/toolkit.py:204-209 | after `compute`, with non-negative widths, a tap inside a widget's rectangle reaches that widget |
| Toolkit.BarIsIncreasing | mycam/toolkit.py:170-178 | in a packed bar with non-negative widths, every widget ends before any later one begins |
| UserInterface.NewUI | mycam/user_interface.py:47-56 | a new screen shows 60 fps; zebra, focus assist and false colour (False) and guides ("thirds") start changed; shutter, gain, timecode and camera id start empty and unchanged |
| UserInterface.RenderMainScreen | mycam/user_interface.py:100-131 | the FPS value is always drawn first, so the screen is always painted; afterwards no holder reports a change, and every value and every other field is kept |
| UserInterface.RedrawnValues | mycam/user_interface.py:104-113 | the shutter, gain, timecode and camera-id boxes are redrawn exactly when their holder reports a change |
| UserInterface.RedrawnButtons | mycam/user_interface.py:115-128 | each button is redrawn exactly when its holder reports a change; the guides button is highlighted iff its value is not "none"; the thirds grid is drawn iff guides are redrawn and equal "thirds" |
| UserInterface.FirstRenderOfNewUI | mycam/user_interface.py:100-128 | the first render of a new screen draws FPS, three unhighlighted toggles, the highlighted guides button and the thirds grid, in that order |
| UserInterface.UpdateState | mycam/user_interface.py:133-139 | `update_state` fails on an exposure time of 0; otherwise it stores the shutter as `int(1000000 / ExposureTime)`, the timecode and the gain, and renders. The shutter, gain and timecode boxes are repainted, with the new values, iff the new value differs under Python `==` from the last one reported or a change was already pending; the camera id and the buttons are repainted iff a change was pending; afterwards nothing is pending |
| UserInterface.RepeatedMetadataRedrawsOnlyFps | mycam/user_interface.py:133-139 | feeding the same metadata twice redraws only the FPS value the second time |
| FrameOwnership.Replace | mycam/multipreview.py:96-101 | after a frame is committed, the previous frame is released iff it was owned, releases come before the acquire, and the new frame is held (and acquired) iff the camera has more than one buffer |
| FrameOwnership.Drop | mycam/multipreview.py:274-276 | stopping releases the displayed frame iff it was owned and leaves no frame |
| FrameOwnership.ReplaceKeepsCountsExact | mycam/multipreview.py:92-101 | with counts consistent before, after `render_request` exactly the displayed owned frame holds one extra reference and every other frame none |
| FrameOwnership.DropReleasesEverything | mycam/multipreview.py:271-276 | after `stop` no frame holds an extra reference |
| FrameOwnership.ReleaseOnlyWhatIsHeld | mycam/multipreview.py:96-97 | a release is only issued for a frame that holds an extra reference |
| Framebuffers.FormatFor | mycam/multipreview.py:52-62 | the format table knows exactly seven camera formats; MJPEG shows as BGR888 |
| Framebuffers.FormatForNames | mycam/multipreview.py:52-62 | every display format but the overlay's ABGR8888 is found under its own name |
| Framebuffers.PackedLayout | mycam/multipreview.py:244 | a packed frame is one plane: the buffer's descriptor, the stride, offset 0 |
| Framebuffers.PlanarLayout | mycam/multipreview.py:235-242 | a 4:2:0 frame is three planes on one descriptor, with strides `[stride, stride div 2, stride div 2]` and offsets `[0, height*stride, height*stride + (height div 2)*(stride div 2)]` |
| Framebuffers.PlanarPlanesDisjoint | mycam/multipreview.py:235-242 | every byte of a planar frame's plane lies at or after that plane's offset and before the next plane's offset, so the planes do not overlap |
| MultiPreview.Add | mycam/multipreview.py:24-36 | `add` raises the use count by one, creates a card only when the count was 0, records the CRTC, and gives the preview the card and CRTC; it fails only when the count is not 0 and there is no card |
| MultiPreview.Remove | mycam/multipreview.py:38-48 | `remove` lowers the use count by one and clears the preview's card and CRTC; the last user deletes the CRTC entry, failing with a key error when it is absent; the card is kept |
| MultiPreview.AddKeepsManagerOk | mycam/multipreview.py:24-32 | on a consistent manager `add` succeeds and keeps it consistent |
| MultiPreview.AspectFit | mycam/multipreview.py:159-168 | when `width*h > w*height` the width is kept and the new height is centred vertically with floor division; otherwise the height is kept and the new width is centred horizontally; a zero divisor raises |
| MultiPreview.AspectFitKeepsRatio | mycam/multipreview.py:161-168 | the free side is the largest whole number of pixels that does not exceed the image's proportion |
| MultiPreview.AspectFitInside | mycam/multipreview.py:161-168 | the fitted rectangle lies inside the window, with the spare space split evenly and the odd pixel on the far side |
| MultiPreview.AspectFitSameRatio | mycam/multipreview.py:161-168 | an image with the window's aspect ratio fills the whole window |
| MultiPreview.ReserveOne | mycam/multipreview.py:175-182 | an output gets the overlay plane for the format, else the primary plane, else reservation fails; its overlay-image plane may be missing |
| MultiPreview.Reserve | mycam/multipreview.py:170-182 | the first render rejects a format not in the table; it succeeds exactly when both outputs have a CRTC and are offered an overlay or a primary plane for the format, and then each output's plane is its overlay plane when offered, else its primary plane, with the ABGR8888 overlay plane (possibly none) for the overlay image |
| MultiPreview.CacheFb | mycam/multipreview.py:228-245 | a new camera buffer gets a framebuffer in the stream's format, planar for YUV420 and YVU420 and packed otherwise; a camera restart (a changed stop count) empties the cache first |
| MultiPreview.CameraPlacements | mycam/multipreview.py:212-252 | a frame is placed at the fitted rectangle on HDMI and at 720x405 from the fitted origin on DSI; MJPEG without a decode buffer fails; the rectangle passed on to the overlays is the DSI one |
| MultiPreview.OverlayStep | mycam/multipreview.py:254-265 | an output's pending overlay becomes current whenever it differs, and a plane is added iff it is due: set, not None, and different from what is shown |
| MultiPreview.Overlays | mycam/multipreview.py:254-265 | one overlay plane per due output, in output order, each with its pending image; afterwards nothing is due |
| MultiPreview.Prepare | mycam/multipreview.py:146-182 | `render_drm` picks the display stream (failing when none is known), fits it, reserves planes on the first call exactly as `Reserve` would (so it fails when `Reserve` does) and keeps them on later calls, and, when there is a request, places the request's framebuffer on the reserved HDMI plane and CRTC over the fitted rectangle and on the reserved DSI plane and CRTC over 720x405, both from the whole stream |
| MultiPreview.RenderDrm | mycam/multipreview.py:146-269 | `render_drm` succeeds iff choosing, fitting and reserving succeed and the overlay stage does; it appends exactly one commit and keeps the earlier ones. The commit holds two camera planes when there is a request and none otherwise, then one plane per overlay that was due: the HDMI one first, each carrying its pending image. The two camera planes are exactly the request's framebuffer on the reserved HDMI and DSI planes and CRTCs; each overlay plane is that output's overlay plane on its CRTC, showing the whole image. Afterwards no overlay is due |
| MultiPreview.StagesLayout | mycam/multipreview.py:247-265 | joining the camera planes of the first stage with the overlay stage's planes gives a commit whose camera part comes first and whose overlay planes are each due output's overlay plane, CRTC and pending image |
| MultiPreview.RenderDrmState | mycam/multipreview.py:254-265 | after `render_drm` no overlay is due; pending images, frame ownership, window and CRTCs are untouched; the stream shown is remembered |
| MultiPreview.RenderDrmRectangles | mycam/multipreview.py:248-265 | the camera frame goes to the fitted rectangle on HDMI and to 720x405 on DSI; overlays use the DSI rectangle when there is a frame and the fitted one otherwise |
| MultiPreview.PrepareAgain | mycam/multipreview.py:146-245 | once the first stage of `render_drm` has succeeded, it succeeds again on its own result, whatever overlays are on screen and whatever was committed |
| MultiPreview.RepeatedRenderAddsNoOverlays | mycam/multipreview.py:254-265 | a second `render_drm` with nothing new commits the camera frame alone |
| MultiPreview.NewPreview | mycam/multipreview.py:106-120 | a new preview adds both outputs to the manager (use count + 2) and starts with no planes, overlays, frame or commits |
| MultiPreview.SetOverlay | mycam/multipreview.py:122-144 | `set_overlay` fails when the camera is not started, not configured or has fewer than two buffers; the output defaults to DSI-1; the image (or None) becomes the pending overlay in a new framebuffer, and it is rendered at once iff the camera has a display stream |
| MultiPreview.StageOverlay | mycam/multipreview.py:132-140 | an image is staged in a newly allocated framebuffer, None is staged as None, and nothing else changes |
| MultiPreview.SetOverlayShowsImage | mycam/multipreview.py:122-144 | with a display stream, a new overlay image is on the commit `set_overlay` makes |
| MultiPreview.FirstRenderPlanes | mycam/multipreview.py:170-182 | the first render of a request shows the camera frame on the plane the hardware offered for each output: the overlay plane for the stream's format when there is one, else the primary plane |
| MultiPreview.RenderRequest | mycam/multipreview.py:92-101 | `render_request` succeeds exactly when `render_drm` does; its result is the rendered preview, with the displayed frame then replaced by the ownership rule |
| MultiPreview.Stop | mycam/multipreview.py:271-288 | `stop` releases the owned frame, forgets every plane, framebuffer and overlay, and leaves the manager for both outputs |
| MultiPreview.RenderRequestKeepsCountsExact | mycam/multipreview.py:92-101 | reference counts stay exact over `render_request` |
| MultiPreview.SessionIsBalanced | mycam/multipreview.py:24-48 | a preview created on a consistent manager can be stopped, and stopping restores the manager's use count |
| MultiPreview.StopReleasesEverything | mycam/multipreview.py:271-276 | after `stop` no frame holds an extra reference |
| DrmOutput.Configure | mycam/drmoutput.py:32-40 | `configure` records the layer count, the CRTC and the size, and appends one full-screen `(0, 0, width, height)` position per layer |
| DrmOutput.StartFormat | mycam/drmoutput.py:49-54 | `start` knows XBGR8888 and YUV420 and maps every other format to None |
| DrmOutput.ReserveLayers | mycam/drmoutput.py:56-60 | the overlay layers are reserved in order, and reservation fails iff a layer is not offered |
| DrmOutput.Clear | mycam/drmoutput.py:61 | start marks every layer in range as not dirty and keeps the other flags |
| DrmOutput.Start | mycam/drmoutput.py:49-62 | `start` reserves the camera plane and one plane per layer, marks every layer clean and the connector ready, and changes nothing else |
| DrmOutput.ListIndex | mycam/drmoutput.py:65 | Python list indexing: negative indices count from the end, and indices outside the list raise |
| DrmOutput.OverlayPosition | mycam/drmoutput.py:64-67 | `overlay_position` always stores the rectangle, and marks the layer dirty iff it holds a framebuffer |
| DrmOutput.Find | mycam/drmoutput.py:162 | a connector is found by name iff one has that name, and the first such one is returned |
| DrmOutput.UseOutput | mycam/drmoutput.py:91-95 | `use_output` builds a fresh connector that is not ready, with one position per layer. It replaces the connector with the same name in place, or is appended; nothing else changes |
| DrmOutput.UseOutputKeepsOutputOk | mycam/drmoutput.py:91-95 | `use_output` keeps every connector's layers consistent, the fresh one included |
| DrmOutput.NewOutputOk | mycam/drmoutput.py:75-86 | a new output has no connectors and so is consistent |
| DrmOutput.StartAll | mycam/drmoutput.py:121-123 | every connector that is not ready is started, in order, and a ready one is left alone; a failure comes from starting one that was not ready |
| DrmOutput.DirtyLayers | mycam/drmoutput.py:150-151 | the listed layers are dirty and in range (see `DirtyLayersExact` for the converse) |
| DrmOutput.DirtyLayersExact | mycam/drmoutput.py:150-151 | a layer is listed iff it is in range and dirty |
| DrmOutput.LayerPlacement | mycam/drmoutput.py:152-154 | a dirty layer is placed with its own plane and framebuffer at its stored position, and fails when either is missing |
| DrmOutput.LayerPlacements | mycam/drmoutput.py:148-154 | a connector adds one plane per dirty layer, in layer order |
| DrmOutput.AllLayerPlacements | mycam/drmoutput.py:148-154 | over all connectors, in connector order, the overlay planes are exactly one per dirty layer in layer order. The k-th plane of a connector is its k-th dirty layer's own plane, framebuffer and stored position on that connector's CRTC; every plane carries an overlay image |
| DrmOutput.LayerPlanesCons | mycam/drmoutput.py:148-154 | the first connector's layer planes followed by the planes of the others are the planes of all connectors, at the offsets the loop order gives |
| DrmOutput.VideoPlacements | mycam/drmoutput.py:144-146 | the camera frame is placed full-screen on every connector, in connector order |
| DrmOutput.FrameLayout | mycam/drmoutput.py:130-138 | a frame is packed for XBGR8888 and planar for YUV420; any other format has no framebuffer |
| DrmOutput.RenderDrm | mycam/drmoutput.py:108-157 | `render_drm` succeeds exactly when there is a display stream, every connector that is not ready starts on the offered hardware, the frame's format has a layout (when there is a request) and every layer has a dirty flag, with each dirty one having a framebuffer, a reserved plane slot and a position. The connectors afterwards are those `StartAll` gives for that hardware, so the started ones are kept. It caches the frame's framebuffer (packed or planar by format) under its buffer, and appends one commit: the camera frame full-screen on every connector with that framebuffer when there is a request, then exactly the planes of every dirty layer. Frame ownership is untouched |
| DrmOutput.SetOverlay | mycam/drmoutput.py:159-185 | `set_overlay` fails on an unknown output (defaulting to DSI-1); a new buffer is allocated iff the layer has none or its size differs; the layer is always marked dirty; nothing else changes |
| DrmOutput.SetOverlayReuse | mycam/drmoutput.py:170-177 | after `set_overlay` the layer holds a buffer of the image's size, and the buffer map is unchanged iff a buffer of that size was already there |
| DrmOutput.SetOverlayKeepsLayersOk | mycam/drmoutput.py:159-185 | `set_overlay` keeps the layers consistent: every dirty layer has a framebuffer |
| DrmOutput.OverlayPositionKeepsLayersOk | mycam/drmoutput.py:64-67 | `overlay_position` keeps the layers consistent |
| DrmOutput.StartKeepsLayersOk | mycam/drmoutput.py:49-62 | `start` keeps the layers consistent |
| DrmOutput.LayersRender | mycam/drmoutput.py:148-154 | on consistent, started connectors the overlay loop cannot fail |
| DrmOutput.LayerPlacementsOk | mycam/drmoutput.py:148-154 | on a consistent, started connector the layer loop cannot fail |
| DrmOutput.RenderSucceeds | mycam/drmoutput.py:108-157 | a consistent output renders every frame in a format it knows, provided every connector not yet started has all its layers offered; this covers the first render after `use_output` |
| DrmOutput.StartAllOk | mycam/drmoutput.py:121-123 | starting fails only on a connector whose layers are not all offered |
| DrmOutput.StartAllKeepsLayersOk | mycam/drmoutput.py:121-123 | starting the connectors keeps each one's layers consistent |
| DrmOutput.RenderKeepsOutputOk | mycam/drmoutput.py:108-157 | `render_drm` keeps the output consistent, so renders can be chained |
| DrmOutput.RenderKeepsDirtyLayers | mycam/drmoutput.py:148-157 | `render_drm` never clears a dirty flag, so a second render sends the same number of overlay planes again |
| DrmOutput.StartAllReady | mycam/drmoutput.py:121-123 | starting connectors that are all ready changes nothing |
| DrmOutput.RenderRequest | mycam/drmoutput.py:97-106 | `render_request` succeeds exactly when `render_drm` does; its result is the rendered output with one new commit, with the displayed frame then replaced by the ownership rule |
| DrmOutput.RenderRequestKeepsCountsExact | mycam/drmoutput.py:97-106 | reference counts stay exact over `render_request` |
| PyInts.Strip | mycam/config.py:78 | `int()` ignores the whitespace around a number: the stripped text is a slice with no whitespace at either end |
| PyInts.ParseIntRejects | mycam/config.py:78 | text whose first non-space character is neither a sign nor a digit is rejected |
| PyInts.IntToString | mycam/config.py:108 | `str(n)` is digits, led by '-' exactly for negative numbers |
| PyInts.ParseIntToString | mycam/config.py:77-78 | `int(str(n)) == n` for every integer |
| PyInts.Hex2 | mycam/config.py:107 | `{0:02x}` gives at least two characters, exactly two for 0..255, and no sign for a non-negative number |
| PyInts.Hex2ReadsBack | mycam/config.py:107 | the two hex digits written for 0..255 read back with `int(_, 16)` as the number |
| Configuration.AttrOfKeyOf | mycam/config.py:69-101 | mapping an attribute name to a key and back gives the name iff it contains no '-' |
| Configuration.Split | mycam/config.py:83 | splitting gives at least one piece, and no piece contains the separator |
| Configuration.JoinSplit | mycam/config.py:83 | the pieces joined by the separator give the text back |
| Configuration.SplitPair | mycam/config.py:83 | "AxB" with no 'x' in A or B splits into exactly A and B |
| Configuration.Slice | mycam/config.py:86 | slicing clamps to the end of the text |
| Configuration.IntOfReadsBack | mycam/config.py:77-78 | `int()` reads back `str(n)` as n for every integer, and reads the two hex digits written for 0..255 in base 16 as the number |
| Configuration.IntOfRejects | mycam/config.py:78 | `int()` raises `ValueError` on text whose first non-space character is neither a sign nor an ASCII digit of the base |
| Configuration.Coerce | mycam/config.py:71-87 | the new value keeps the kind of the current one; a string is taken as it is; a bool is true iff the text is "True", "true" or "yes"; an int, a size or a colour succeeds exactly when its parts parse (decimal for an int and a size, two hex digits per colour component), and the result holds the parsed values |
| Configuration.CoerceFormat | mycam/config.py:73-108 | save-then-load gives back every string, bool, int and size value |
| Configuration.SavedColourFails | mycam/config.py:86-107 | a colour saved as "#rrggbb" does not load back |
| Configuration.BareHexColourReads | mycam/config.py:86 | a colour written as six hex digits without '#' loads as its three components |
| Configuration.Lookup | mycam/config.py:70-71 | an attribute is found iff the section has it |
| Configuration.LookupAt | mycam/config.py:70-87 | with distinct names, reading field k gives its value and setting it replaces it in place |
| Configuration.AssignKeepsShape | mycam/config.py:87 | setting an attribute to a value of its own kind keeps the section's shape |
| Configuration.LookupAssign | mycam/config.py:87 | after setting an attribute, it reads back the new value and every other attribute is unchanged |
| Configuration.LoadKey | mycam/config.py:68-87 | a key keeps the section's shape; a key that names no attribute is ignored, except `bitrate_int`, which cannot be set |
| Configuration.LoadKeys | mycam/config.py:68-87 | loading a section's keys keeps its shape |
| Configuration.LoadSection | mycam/config.py:65-87 | a section that names no object of the configuration is ignored, and a known one keeps its shape |
| Configuration.LoadSections | mycam/config.py:65-87 | loading every section keeps the configuration's shape |
| Configuration.Clamp | mycam/config.py:89-91 | the clamp changes only the sensor section and keeps every shape |
| Configuration.Load | mycam/config.py:61-91 | `load_config` keeps the configuration's shape |
| Configuration.SaveFieldsReadsBack | mycam/config.py:68-108 | loading a section's saved keys over a section of the same shape gives the saved section back |
| Configuration.SaveInjective | mycam/config.py:93-108 | two well-formed configurations that save to the same file are equal |
| Configuration.LoadSectionsSaved | mycam/config.py:61-108 | loading the sections of a saved configuration over any well-formed one gives the saved configuration, before the clamp |
| Configuration.Open | mycam/config.py:41-53 | the configuration opened is well formed and already satisfies the framerate rule; without a file it is the defaults; the file written back is always the save of the result |
| Configuration.SaveLoad | mycam/config.py:61-108 | loading a saved configuration over any well-formed one gives the saved configuration, clamped |
| Configuration.ClampRule | mycam/config.py:89-91 | with the encoder disabled the clamp changes nothing; with it enabled the sensor framerate becomes min(30, framerate); clamping twice equals clamping once |
| Configuration.DefaultsWellFormed | mycam/config.py:7-38 | the defaults are well formed and already satisfy the framerate rule |
| Configuration.LoadClamped | mycam/config.py:89-91 | a loaded configuration is well formed and already clamped |
| Configuration.OpenIsStable | mycam/config.py:41-53 | opening the file that opening wrote gives the same configuration and the same file |
| Configuration.SaveLoadClamps | mycam/config.py:89-108 | a saved sensor framerate of 60 with the encoder enabled loads as 30, so save-then-load is not always the identity |
| Configuration.UnknownSectionsIgnored | mycam/config.py:65-66 | a file of unknown sections changes nothing |
| Configuration.UnknownKeysIgnored | mycam/config.py:68-70 | keys that name no attribute change nothing |
| Configuration.LoadCapsFramerate | mycam/config.py:89-91 | after a load, an enabled encoder means a sensor framerate of at most 30 |
| Edid.Letter | mycam/edid.py:19 | every 5-bit code becomes a printable character from '@' to '_' |
| Edid.StrCode | mycam/edid.py:12-20 | `edid_strcode` always gives three characters from '@' to '_' |
| Edid.StrCodeRoundTrip | mycam/edid.py:12-20 | a manufacturer id stored by the standard's layout reads back iff neither of its first two letters lies after 'O' |
| Edid.StrCodeMatchesVesa | mycam/edid.py:14-18 | the source's decoder agrees with the standard's on two bytes iff bits 9 and 14 of the word are clear |
| Edid.SamsungReadsAsCam | mycam/edid.py:12-20 | Samsung's id "SAM", stored as 0x4C 0x2D, reads as "CAM" |
| Edid.CheckEdid | mycam/edid.py:23-47 | no EDID gives None and an empty one gives an empty info; otherwise the vendor is read from bytes 8-9; the CEC byte and the camera id (its high nibble, below 16) are set only with one extension block and vendor "HHA"; 10 to 126 bytes raise an index error at byte 0x7e, and up to 154 bytes one at 0x9a exactly when the camera test passes; a full EDID always succeeds and has a camera id iff the vendor reads "HHA" and byte 0x7e is 1 |
| Edid.XhaReadsAsHha | mycam/edid.py:12-45 | the bytes 0x61 0x01 spell "XHA" under the three-letter code, yet the reader's decoding gives "HHA", so such a monitor with one extension is taken for the camera's own |
| Edid.CameraIdReported | mycam/edid.py:34-45 | for a full EDID holding a readable vendor id, the camera id is reported iff the vendor is "HHA" and byte 0x7e is 1 |
| LittleEndian.Encode | lib/ipc/client.go:87-93 | `binary.Write` of a k-byte integer writes exactly k bytes |
| LittleEndian.Decode | cmd/mncam_api/main.go:36-39 | `binary.Read` of k bytes gives a number below 256^k |
| LittleEndian.DecodeEncode | cmd/mncam_api/main.go:36-39 | reading what was written gives the number back |
| LittleEndian.EncodeDecode | lib/ipc/client.go:87-93 | writing what was read gives the bytes back |
| IpcClient.Payload | lib/ipc/client.go:38-106 | each command writes its opcode, then one byte for a flag, tally, gain or fps (1 or 0 for a flag), two bytes for the shutter, four for the exposure compensation, and nothing for a request |
| IpcClient.Parse | lib/ipc/client.go:38-106 | a reference decoder with no counterpart in the client (the process reading these commands is not part of this model): a known opcode followed by an argument of exactly that opcode's size, flags as 0 or 1; it is the partner `Payload` is checked against |
| IpcClient.ParsePayload | lib/ipc/client.go:38-106 | every command's packet reads back as that command |
| IpcClient.PayloadOfParse | lib/ipc/client.go:38-106 | every packet the reader accepts is the packet of the command it reads |
| IpcClient.PayloadInjective | lib/ipc/client.go:38-106 | different commands never write the same packet |
| ApiState.SetSensorState | lib/api/state.go:58-97 | a report panics with a division by zero iff the exposure is 0, and otherwise panics in `json.Marshal` iff the gain is a NaN or an infinity. On success the gain and white balance take the values given and the shutter speed is 1000000 div exposure; nothing else changes; events for gain, shutter and white balance are broadcast, in that order |
| ApiState.FiniteBits | lib/api/state.go:58-62 | the quiet NaN and both infinities are refused by `json.Marshal`; the largest finite single, 1.0 and 0 are not |
| ApiState.SetControls | lib/api/state.go:99-114 | the auto-exposure mode becomes "Continuous" iff enabled and "Off" otherwise; the type and the rest of the state are kept; one event is broadcast |
| ApiState.SetControlsIdempotent | lib/api/state.go:99-114 | setting the controls twice leaves the state of setting them once, with two events |
| ApiState.SetSensorStateIdempotent | lib/api/state.go:66-97 | a repeated report changes no state, though it broadcasts again |
| ApiDispatch.Field32 | cmd/mncam_api/main.go:32-39 | when the payload holds field k in full, the field's four bytes are the little-endian encoding of the value read; otherwise the value is 0 |
| ApiDispatch.Dispatch | cmd/mncam_api/main.go:28-50 | an empty packet panics and a packet with an unknown opcode changes nothing |
| ApiDispatch.DispatchSensorPacket | cmd/mncam_api/main.go:30-40 | a full sensor report reaches `SetSensorState` with the values sent |
| ApiDispatch.DispatchControlsPacket | cmd/mncam_api/main.go:43-49 | a controls message reaches `SetControls` with the flags sent |
| ApiDispatch.ShortSensorReportPanics | cmd/mncam_api/main.go:36-40 | a sensor report too short to hold the exposure reads it as 0 and panics |
| ApiDispatch.NanGainBytes | cmd/mncam_api/main.go:36 | the quiet NaN travels as the bytes 00 00 c0 7f |
| ApiDispatch.NanGainPanics | cmd/mncam_api/main.go:30-40 | a sensor report with a NaN gain and a valid exposure time kills the API process |
| ApiDispatch.DispatchAppends | cmd/mncam_api/main.go:28-50 | a packet appends three events for a sensor report, one for controls and none otherwise, keeping the earlier ones |
| ApiDispatch.DispatchAllAppends | cmd/mncam_api/main.go:23-51 | over a run of packets the outbox only grows, and what was sent stays in place |

## Left out

- Drawing: fonts, text metrics, fills and lines (PIL). A render is the set of regions or widgets repainted; `GuidesButton`'s title-casing and grid are abstracted the same way.
- Hardware: pykms cards, planes, CRTCs, modes, `set_prop`, `mmap` writes and `commit_sync`. These are opaque handles, the offers of a `Hardware` parameter, and an append-only commit log. `overlay_opacity` is float arithmetic on a hardware property. A plane the resource manager does not offer is recorded as a `None` plane in the commit rather than as a failure; what pykms does with it is hardware behaviour.
- Threads and locks: `_input_thread`, `HandleInputs`, the locks of `DrmManager`, `MultiPreview` and `DRMOutput`, and the Go hub. Every operation is modelled as atomic.
- Floating point: the gain's `log10` and the timecode formatting in `update_state` are parameters; gain and exposure compensation are kept as float32 bits; the shutter angle and the colour-correction fields of the API state are not written by any operation modelled.
- State after an exception: a raised error is an `Err`, and the partial updates made before it are not kept.
- MultiPreview.NewPreview: the MJPEG decode buffer allocation (the try/except on "XB24" and "XR24") is a parameter, the decode buffer's descriptor or none.
- MultiPreview.Prepare: the stream configuration that `stream_map` yields is a parameter; the picamera2 objects hold only the fields the preview reads.
- The DRM manager's connectors and `gc.collect` are not modelled; only the card, the CRTC map and the use count are.
- Configuration: the configparser text layer (comments, key lower-casing, interpolation, the DEFAULT section, whitespace around values) is out of scope. The parsed file is a list of sections with key/value pairs, and the written file is the same structure.
- Configuration.IntOf: digits are the ASCII ones only (see `IntOfRejects`). Python's `int()` also accepts other Unicode decimal digits, and fullwidth or Arabic-Indic digits in the file are not modelled.
- Configuration: `os.path.isfile`, the file read and write, and `_has_dsi`'s sysfs probe are parameters (`file`, `hasDsi`).
- Configuration: keys that name dunder attributes or methods of the config objects, and section names that name other attributes of `Config`, are not modelled. Only the four sections and their declared fields exist.
- Configuration.Coerce: the float branch is not modelled, because no default is a float. The three-component colour branch is modelled, but no default is a colour.
- Configuration.LoadKey: `humanfriendly.parse_size` is not modelled; the read-only `bitrate_int` key is an error.
- Edid.CheckEdid: the sysfs glob and the file read are the `edid` parameter (`None` when no file matches).
- IpcClient: sockets, `ipc.New` and its connection handling, and `Read` are not modelled; `SetExposureCompensation` takes the float32 bits rather than the float.
- Websocket, HTTP and JSON marshalling (`lib/api/websocket.go`, `server.go`, `system.go`, `video.go`) are not part of this model; a broadcast is an event appended to the outbox.
- The process entry point and polling loop in `mycam/__main__.py` are not part of this model.
- Toolkit.Tap: the handlers themselves are recorded as calls, not run.
- MultiPreview.RenderDrm: `display_stream_name` is read from the preview's own field, which starts as None. The rotation property and the HDMI mode setting are hardware.

=== FILE: api_dispatch.dfy ===
/** cmd/mncam_api/main.go: the loop that reads packets from the sensor
    control socket and updates the API state. The first byte selects the
    message. A 0x01 sensor report carries four 4-byte fields: analogue gain
    and digital gain (float32 bits), exposure time and colour temperature.
    A 0x02 controls message carries two flag bytes. */
module ApiDispatch {
  import opened Common
  import LittleEndian
  import opened ApiState

  /** Field `k` of a sensor report: a 4-byte field that the payload does not
      hold in full reads as 0. `binary.Read` consumes what is left and
      leaves the variable untouched, and every later field finds the reader
      empty. */
  function Field32(payload: seq<byte>, k: nat): (n: u32)
    ensures |payload| >= 4 * k + 4 ==> LittleEndian.Encode(n, 4) == payload[4 * k .. 4 * k + 4]
    ensures |payload| < 4 * k + 4 ==> n == 0
  {
    if |payload| >= 4 * k + 4 then
      var bs := payload[4 * k .. 4 * k + 4];
      LittleEndian.EncodeDecode(bs);
      LittleEndian.Decode(bs)
    else 0
  }

  /** Flag `k` of a controls message: any byte but 0 is true; a missing byte
      reads as false. */
  function FlagAt(payload: seq<byte>, k: nat): bool {
    |payload| > k && payload[k] != 0
  }

  /** One pass of the loop body. An empty packet panics when its payload is
      sliced off; an unknown message is ignored. */
  function Dispatch(s: Server, packet: seq<byte>): (r: Result<Server, Panic>)
    ensures |packet| == 0 ==> r == Err(SliceOutOfRange)
    ensures |packet| > 0 && packet[0] != 0x01 && packet[0] != 0x02 ==> r == Ok(s)
  {
    if |packet| == 0 then Err(SliceOutOfRange)
    else
      var payload := packet[1..];
      if packet[0] == 0x01 then
        SetSensorState(s, Field32(payload, 0), Field32(payload, 1), Field32(payload, 2), Field32(payload, 3))
      else if packet[0] == 0x02 then
        Ok(SetControls(s, FlagAt(payload, 0), FlagAt(payload, 1)))
      else Ok(s)
  }

  /** The loop over a sequence of packets, stopped by the first panic. */
  function DispatchAll(s: Server, packets: seq<seq<byte>>): (r: Result<Server, Panic>)
    decreases |packets|
  {
    if |packets| == 0 then Ok(s)
    else
      var s' :- Dispatch(s, packets[0]);
      DispatchAll(s', packets[1..])
  }

  /** The packet the sensor side sends with a full report. */
  function SensorPacket(gaina: u32, gaind: u32, exposure: u32, temperature: u32): seq<byte> {
    [0x01] + LittleEndian.Encode(gaina, 4) + LittleEndian.Encode(gaind, 4)
           + LittleEndian.Encode(exposure, 4) + LittleEndian.Encode(temperature, 4)
  }

  /** The packet the sensor side sends with the control flags. */
  function ControlsPacket(aeEnable: bool, awbEnable: bool): seq<byte> {
    [0x02, Bit(aeEnable), Bit(awbEnable)]
  }

  lemma FieldOfEncoded(p: seq<byte>, k: nat, n: u32)
    requires |p| >= 4 * k + 4 && p[4 * k .. 4 * k + 4] == LittleEndian.Encode(n, 4)
    ensures Field32(p, k) == n
  {
    LittleEndian.DecodeEncode(n, 4);
  }

  /** The four fields of a 16-byte payload made of four 4-byte words. */
  lemma Words(a: seq<byte>, b: seq<byte>, c: seq<byte>, d: seq<byte>)
    requires |a| == |b| == |c| == |d| == 4
    ensures var p := a + b + c + d;
            |p| == 16 && p[0..4] == a && p[4..8] == b && p[8..12] == c && p[12..16] == d
  {
  }

  /** A full sensor report reaches `SetSensorState` with the values sent. */
  lemma DispatchSensorPacket(s: Server, gaina: u32, gaind: u32, exposure: u32, temperature: u32)
    ensures Dispatch(s, SensorPacket(gaina, gaind, exposure, temperature))
         == SetSensorState(s, gaina, gaind, exposure, temperature)
  {
    var a, b := LittleEndian.Encode(gaina, 4), LittleEndian.Encode(gaind, 4);
    var c, d := LittleEndian.Encode(exposure, 4), LittleEndian.Encode(temperature, 4);
    var p := SensorPacket(gaina, gaind, exposure, temperature)[1..];
    assert p == a + b + c + d;
    Words(a, b, c, d);
    FieldOfEncoded(p, 0, gaina);
    FieldOfEncoded(p, 1, gaind);
    FieldOfEncoded(p, 2, exposure);
    FieldOfEncoded(p, 3, temperature);
  }

  /** A controls message reaches `SetControls` with the flags sent. */
  lemma DispatchControlsPacket(s: Server, aeEnable: bool, awbEnable: bool)
    ensures Dispatch(s, ControlsPacket(aeEnable, awbEnable)) == Ok(SetControls(s, aeEnable, awbEnable))
  {
  }

  /** A sensor report too short to hold the exposure time divides by zero:
      the API process dies on it. */
  lemma ShortSensorReportPanics(s: Server, packet: seq<byte>)
    requires |packet| > 0 && packet[0] == 0x01 && |packet| < 13
    ensures Dispatch(s, packet) == Err(DivideByZero)
  {
  }

  /** The quiet NaN 0x7FC00000 travels as the bytes 00 00 c0 7f. */
  lemma NanGainBytes()
    ensures LittleEndian.Encode(0x7FC0_0000, 4) == [0x00, 0x00, 0xc0, 0x7f]
  {
    assert LittleEndian.Encode(0x7F, 1) == [0x7f];
    assert LittleEndian.Encode(0x7FC0, 2) == [0xc0, 0x7f];
    assert LittleEndian.Encode(0x7F_C000, 3) == [0x00, 0xc0, 0x7f];
  }

  /** A report whose analogue gain is a NaN kills the API process even with
      a valid exposure time: the gain event cannot be marshalled. */
  lemma NanGainPanics(s: Server)
    ensures Dispatch(s, SensorPacket(0x7FC0_0000, 0, 1, 0)) == Err(UnsupportedValue)
  {
    DispatchSensorPacket(s, 0x7FC0_0000, 0, 1, 0);
    assert !Finite(0x7FC0_0000);
  }

  /** Events are only ever appended: each sensor report adds three, each
      controls message one, anything else none. */
  lemma DispatchAppends(s: Server, packet: seq<byte>)
    requires Dispatch(s, packet).Ok?
    ensures var o := Dispatch(s, packet).value.outbox;
            && |o| >= |s.outbox| && o[..|s.outbox|] == s.outbox
            && |o| == |s.outbox| + (if packet[0] == 0x01 then 3 else if packet[0] == 0x02 then 1 else 0)
  {
  }

  /** Over a run of packets the outbox only grows; what was sent stays
      sent, in order. */
  lemma {:induction false} DispatchAllAppends(s: Server, packets: seq<seq<byte>>)
    requires DispatchAll(s, packets).Ok?
    ensures var o := DispatchAll(s, packets).value.outbox;
            |o| >= |s.outbox| && o[..|s.outbox|] == s.outbox
    decreases |packets|
  {
    if |packets| > 0 {
      var s' := Dispatch(s, packets[0]).value;
      DispatchAppends(s, packets[0]);
      DispatchAllAppends(s', packets[1..]);
      var o := DispatchAll(s, packets).value.outbox;
      assert o[..|s'.outbox|][..|s.outbox|] == o[..|s.outbox|];
    }
  }
}

=== FILE: api_state.dfy ===
/** lib/api/state.go: the camera state the web API serves and the
    property-changed events it broadcasts to websocket clients. The
    broadcast channel is an outbox: events are appended in the order they
    are sent. */
module ApiState {
  import opened Common

  /** `StateShutter` without its float shutter angle, which nothing here
      writes. */
  datatype Shutter = Shutter(continuousAutoExposure: bool, speed: int)

  /** `StateAutoExposure`: `Mode` and `Type`. */
  datatype AutoExposure = AutoExposure(mode: string, kind: string)

  /** `State`. The gain is a float32, kept as its IEEE-754 bits; the colour
      correction fields are not written by any operation modelled. */
  datatype State = State(gain: u32, shutter: Shutter, whiteBalance: int, autoExposure: AutoExposure)

  datatype PropertyValue =
    | GainValue(gain: u32)
    | ShutterValue(shutter: Shutter)
    | WhiteBalanceValue(whiteBalance: int)
    | AutoExposureValue(autoExposure: AutoExposure)

  /** A `WebsocketMessage` of type "event" whose data is a
      `PropertyChanged` with action "propertyValueChanged". */
  datatype Event = PropertyChanged(property: string, value: PropertyValue)

  datatype Server = Server(state: State, outbox: seq<Event>)

  /** A Go run-time panic, which ends the process. `UnsupportedValue` is
      the panic `BroadcastMessage` raises when `json.Marshal` refuses a
      message. */
  datatype Panic = DivideByZero | SliceOutOfRange | UnsupportedValue

  /** An IEEE-754 single is NaN or an infinity exactly when its 8-bit
      exponent field (bits 23 to 30) is all ones; `encoding/json` marshals
      every other float32 and refuses those. */
  predicate Finite(bits: u32) {
    (bits / 0x80_0000) % 0x100 != 0xFF
  }

  /** Quiet NaN, both infinities and the largest finite single, as bits. */
  lemma FiniteBits()
    ensures !Finite(0x7FC0_0000) && !Finite(0x7F80_0000) && !Finite(0xFF80_0000)
    ensures Finite(0x7F7F_FFFF) && Finite(0x3F80_0000) && Finite(0)
  {
  }

  /** `SetSensorState`: store the analogue gain, the shutter speed as
      1000000 over the exposure time (unsigned division, which panics on
      0) and the colour temperature, then announce gain, shutter and white
      balance, in that order. The digital gain is ignored. The division
      comes first; the gain's announcement then panics on a NaN or infinite
      gain, which JSON cannot carry. */
  function SetSensorState(s: Server, gaina: u32, gaind: u32, exposure: u32, temperature: u32): (r: Result<Server, Panic>)
    ensures r == Err(DivideByZero) <==> exposure == 0
    ensures r == Err(UnsupportedValue) <==> exposure != 0 && !Finite(gaina)
    ensures r.Ok? <==> exposure != 0 && Finite(gaina)
    ensures r.Ok? ==> var t := r.value.state;
              && t.gain == gaina && t.whiteBalance == temperature
              && t.shutter.speed * exposure <= 1000000 < (t.shutter.speed + 1) * exposure
              && t.shutter.continuousAutoExposure == s.state.shutter.continuousAutoExposure
              && t.autoExposure == s.state.autoExposure
    ensures r.Ok? ==> var t := r.value.state;
              r.value.outbox == s.outbox + [PropertyChanged("/video/gain", GainValue(t.gain)),
                                            PropertyChanged("/video/shutter", ShutterValue(t.shutter)),
                                            PropertyChanged("/video/whiteBalance", WhiteBalanceValue(t.whiteBalance))]
  {
    if exposure == 0 then Err(DivideByZero)
    else if !Finite(gaina) then Err(UnsupportedValue)
    else
      var t := s.state.(gain := gaina,
                        shutter := s.state.shutter.(speed := 1000000 / exposure),
                        whiteBalance := temperature);
      Ok(Server(t, s.outbox + [PropertyChanged("/video/gain", GainValue(t.gain)),
                               PropertyChanged("/video/shutter", ShutterValue(t.shutter)),
                               PropertyChanged("/video/whiteBalance", WhiteBalanceValue(t.whiteBalance))]))
  }

  /** `SetControls`: the auto-exposure mode is "Continuous" when enabled
      and "Off" otherwise, announced once. The white-balance flag is
      ignored. */
  function SetControls(s: Server, aeEnable: bool, awbEnable: bool): (r: Server)
    ensures r.state.autoExposure.mode == "Continuous" <==> aeEnable
    ensures r.state.autoExposure.mode == "Off" <==> !aeEnable
    ensures r.state == s.state.(autoExposure := r.state.autoExposure)
    ensures r.state.autoExposure.kind == s.state.autoExposure.kind
    ensures r.outbox == s.outbox + [PropertyChanged("/video/autoExposure", AutoExposureValue(r.state.autoExposure))]
  {
    var ae := s.state.autoExposure.(mode := if aeEnable then "Continuous" else "Off");
    var t := s.state.(autoExposure := ae);
    Server(t, s.outbox + [PropertyChanged("/video/autoExposure", AutoExposureValue(ae))])
  }

  /** Setting the controls twice with the same flag leaves the same state
      as setting them once, though each call announces it. */
  lemma SetControlsIdempotent(s: Server, ae: bool, awb: bool, awb': bool)
    ensures SetControls(SetControls(s, ae, awb), ae, awb').state == SetControls(s, ae, awb).state
    ensures |SetControls(SetControls(s, ae, awb), ae, awb').outbox| == |s.outbox| + 2
  {
  }

  /** A sensor report with the same readings changes nothing but the
      outbox the second time. */
  lemma SetSensorStateIdempotent(s: Server, gaina: u32, gaind: u32, gaind': u32, exposure: u32, temperature: u32)
    requires exposure != 0 && Finite(gaina)
    ensures var once := SetSensorState(s, gaina, gaind, exposure, temperature).value;
            var twice := SetSensorState(once, gaina, gaind', exposure, temperature);
            twice.Ok? && twice.value.state == once.state && |twice.value.outbox| == |s.outbox| + 6
  {
  }
}

=== FILE: common.dfy ===
/** Small building blocks shared by every module of the model: optional
    values, results carrying an error, fixed-width unsigned integers and
    the integer division rules of the two source languages. */
module Common {

  datatype Option<+T> = None | Some(value: T)

  /** The outcome of an operation that may raise (Python) or fail. */
  datatype Result<+T, +E> = Ok(value: T) | Err(error: E) {
    predicate IsFailure() {
      Err?
    }

    function PropagateFailure<U>(): Result<U, E>
      requires Err?
    {
      Err(error)
    }

    function Extract(): T
      requires Ok?
    {
      value
    }
  }

  type byte = b: int | 0 <= b < 0x100
  type u16 = n: int | 0 <= n < 0x1_0000
  type u32 = n: int | 0 <= n < 0x1_0000_0000

  function Abs(a: int): (r: nat)
    ensures r == a || r == -a
  {
    if a < 0 then -a else a
  }

  /** Quotient of naturals, kept separate so that its sign is known. */
  function Quotient(n: nat, d: nat): (m: nat)
    requires d > 0
    ensures m == n / d
  {
    n / d
  }

  /** Division rounding toward zero: Python's `int(a / b)` on integers that a
      double represents exactly, and Go's `/` on integers. Dafny's own `/` is
      Euclidean, which differs for negative operands. */
  function TruncDiv(a: int, b: int): (q: int)
    requires b != 0
    ensures Abs(q) == Abs(a) / Abs(b)
    ensures (a >= 0) == (b > 0) ==> q >= 0
    ensures (a >= 0) != (b > 0) ==> q <= 0
  {
    var m: int := Quotient(Abs(a), Abs(b));
    if (a >= 0) == (b > 0) then m else -m
  }

  /** Python's floor division `a // b`. Dafny's Euclidean `/` rounds the
      same way for a positive divisor only. */
  function FloorDiv(a: int, b: int): (q: int)
    requires b != 0
    ensures b > 0 ==> q == a / b && q * b <= a < (q + 1) * b
    ensures b < 0 ==> (q + 1) * b < a <= q * b
  {
    if b > 0 then a / b else (-a) / (-b)
  }

  /** 1 for true, 0 for false: counts of conditions. */
  function Bit(b: bool): nat {
    if b then 1 else 0
  }

  /** For non-negative operands truncation and Euclidean division agree. */
  lemma TruncDivNonNegative(a: nat, b: nat)
    requires b > 0
    ensures TruncDiv(a, b) == a / b
  {
  }

  lemma {:induction false} MulMonotone(a: nat, b: nat, c: nat)
    requires a <= b
    ensures a * c <= b * c
    decreases c
  {
    if c > 0 {
      MulMonotone(a, b, c - 1);
      assert a * c == a * (c - 1) + a;
      assert b * c == b * (c - 1) + b;
    }
  }

  /** Cancelling a positive factor keeps `<=`. */
  lemma MulCancelLe(a: int, b: int, c: int)
    requires c > 0 && a * c <= b * c
    ensures a <= b
  {
    if a > b {
      assert (a - b) * c == a * c - b * c;
      MulMonotone(1, a - b, c);
    }
  }

  /** Cancelling a positive factor keeps `<`. */
  lemma MulCancelLt(a: int, b: int, c: int)
    requires c > 0 && a * c < b * c
    ensures a < b
  {
    if a >= b {
      assert (a - b) * c == a * c - b * c;
      MulMonotone(0, a - b, c);
    }
  }
}

=== FILE: config.dfy ===
/** The settings file of mycam/config.py. Each section is an object whose
    attributes carry typed defaults. Loading coerces every raw string by the
    type of the attribute it replaces. Saving writes every attribute back in
    the object's own attribute order. The INI text layer is below this
    model: a file is given as its parsed sections, each an ordered list of
    (key, raw string) pairs. */
module Configuration {
  import opened Common
  import opened PyInts

  /** The attribute types that occur: `str`, `bool`, `int`, and 2- and
      3-tuples of `int`. Python's `bool` is a subclass of `int`; here the
      two are separate kinds, which is what checking `bool` before `int`
      achieves in the source. */
  datatype Value =
    | Str(text: string)
    | Bool(flag: bool)
    | Int(n: int)
    | Pair(first: int, second: int)
    | Triple(red: int, green: int, blue: int)

  predicate SameKind(a: Value, b: Value) {
    || (a.Str? && b.Str?) || (a.Bool? && b.Bool?) || (a.Int? && b.Int?)
    || (a.Pair? && b.Pair?) || (a.Triple? && b.Triple?)
  }

  /** Python truthiness of an attribute value. */
  predicate Truthy(v: Value) {
    match v
    case Str(s) => |s| > 0
    case Bool(b) => b
    case Int(n) => n != 0
    case _ => true
  }

  datatype ConfigError =
    | ValueError(text: string)   // `int()` rejected the text
    | IndexError(index: int)     // a size without an 'x'
    | ReadOnly(attr: string)     // `bitrate_int` is a property without a setter
    | AttributeError(attr: string)
    | TypeError                  // `min(30, framerate)` on a non-number

  // ---------------------------------------------------------------------
  // String helpers: `str.replace` on one character, `str.split`, slicing.

  function Replace(s: string, from: char, to: char): (r: string)
    ensures |r| == |s|
    ensures forall i :: 0 <= i < |s| ==> r[i] == (if s[i] == from then to else s[i])
  {
    seq(|s|, i requires 0 <= i < |s| => if s[i] == from then to else s[i])
  }

  /** The INI key of an attribute name. */
  function KeyOf(attr: string): string {
    Replace(attr, '_', '-')
  }

  /** The attribute an INI key names. */
  function AttrOf(key: string): string {
    Replace(key, '-', '_')
  }

  /** Saving then loading finds the attribute again, unless its name holds a
      '-' (which the saved key cannot tell apart from a '_'). */
  lemma AttrOfKeyOf(attr: string)
    ensures AttrOf(KeyOf(attr)) == attr <==> '-' !in attr
  {
    if '-' in attr {
      var i :| 0 <= i < |attr| && attr[i] == '-';
      assert AttrOf(KeyOf(attr))[i] == '_';
    } else {
      assert AttrOf(KeyOf(attr)) == attr;
    }
  }

  /** `s.split(sep)`: the pieces between separators, at least one. */
  function Split(s: string, sep: char): (parts: seq<string>)
    ensures |parts| >= 1
    ensures forall i :: 0 <= i < |parts| ==> sep !in parts[i]
    decreases |s|
  {
    if |s| == 0 then [""]
    else
      var rest := Split(s[1..], sep);
      if s[0] == sep then [""] + rest
      else [[s[0]] + rest[0]] + rest[1..]
  }

  /** `sep.join(parts)`. */
  function Join(parts: seq<string>, sep: char): string
    requires |parts| >= 1
  {
    if |parts| == 1 then parts[0] else parts[0] + [sep] + Join(parts[1..], sep)
  }

  /** Splitting loses nothing: joining the pieces gives the text back. */
  lemma {:induction false} JoinSplit(s: string, sep: char)
    ensures Join(Split(s, sep), sep) == s
    decreases |s|
  {
    if |s| > 0 {
      var rest := Split(s[1..], sep);
      JoinSplit(s[1..], sep);
      if s[0] != sep && |rest| > 1 {
        assert ([[s[0]] + rest[0]] + rest[1..])[1..] == rest[1..];
      }
    }
  }

  lemma {:induction false} SplitAfter(a: string, rest: string, sep: char)
    requires sep !in a
    ensures Split(a + rest, sep) == [a + Split(rest, sep)[0]] + Split(rest, sep)[1..]
    decreases |a|
  {
    if |a| == 0 {
      var p := Split(rest, sep);
      assert a + rest == rest;
      assert a + p[0] == p[0];
      assert [a + p[0]] + p[1..] == p;
    } else {
      assert (a + rest)[1..] == a[1..] + rest;
      SplitAfter(a[1..], rest, sep);
      assert [a[0]] + (a[1..] + Split(rest, sep)[0]) == a + Split(rest, sep)[0];
    }
  }

  /** Two separator-free pieces joined by one separator split back apart. */
  lemma SplitPair(a: string, b: string, sep: char)
    requires sep !in a && sep !in b
    ensures Split(a + [sep] + b, sep) == [a, b]
  {
    assert a + [sep] + b == a + ([sep] + b);
    SplitAfter(a, [sep] + b, sep);
    assert ([sep] + b)[1..] == b;
    SplitAfter(b, [], sep);
    assert b + [] == b;
    assert a + "" == a;
  }

  /** `s[i:j]` for `0 <= i <= j`: bounds past the end are cut back. */
  function Slice(s: string, i: nat, j: nat): (r: string)
    requires i <= j
    ensures |r| == (if j <= |s| then j - i else if i <= |s| then |s| - i else 0)
  {
    var hi := if j <= |s| then j else |s|;
    var lo := if i <= hi then i else hi;
    s[lo..hi]
  }

  // ---------------------------------------------------------------------
  // Coercion of one raw string by the type of the current value.

  function IntOf(text: string, base: nat): (r: Result<int, ConfigError>)
    ensures r.Ok? <==> ParseInt(text, base).Some?
    ensures r.Ok? ==> r.value == ParseInt(text, base).value
  {
    var v := ParseInt(text, base);
    if v.None? then Err(ValueError(text)) else Ok(v.value)
  }

  /** The new value for an attribute whose current value is `cur`. The
      result always has the kind of `cur`. A bool is true exactly for
      "True", "true" or "yes". A size is split on 'x'; its first piece is
      converted before the second is looked up, and pieces after the
      second are ignored. A colour reads two hex digits at offsets 0, 2
      and 4. */
  /** `int(str(n))` gives `n` back, and so does `int(_, 16)` on the two
      hex digits `"{0:02x}"` writes for a byte. */
  lemma IntOfReadsBack(n: int)
    ensures IntOf(IntToString(n), 10) == Ok(n)
    ensures 0 <= n < 256 ==> IntOf(Hex2(n), 16) == Ok(n)
  {
    ParseIntToString(n);
    if 0 <= n < 256 {
      Hex2ReadsBack(n);
    }
  }

  /** Text whose first non-space character is neither a sign nor a digit
      raises `ValueError`, which names the text. */
  lemma IntOfRejects(text: string, base: nat)
    requires |Strip(text)| > 0
    requires var c := Strip(text)[0]; c != '-' && c != '+' && DigitValue(c, base).None?
    ensures IntOf(text, base) == Err(ValueError(text))
  {
    ParseIntRejects(text, base);
  }

  function Coerce(cur: Value, raw: string): (r: Result<Value, ConfigError>)
    ensures r.Ok? ==> SameKind(cur, r.value)
    ensures cur.Str? ==> r == Ok(Str(raw))
    ensures cur.Bool? ==> r.Ok? && (r.value.flag <==> raw in ["True", "true", "yes"])
    ensures cur.Int? ==> (r.Ok? <==> ParseInt(raw, 10).Some?)
    ensures cur.Int? && r.Ok? ==> r.value == Int(ParseInt(raw, 10).value)
    ensures cur.Pair? ==> var parts := Split(raw, 'x');
                          (r.Ok? <==> |parts| >= 2 && ParseInt(parts[0], 10).Some? && ParseInt(parts[1], 10).Some?)
    ensures cur.Pair? && r.Ok? ==> var parts := Split(raw, 'x');
                          r.value == Pair(ParseInt(parts[0], 10).value, ParseInt(parts[1], 10).value)
    ensures cur.Triple? ==> (r.Ok? <==> && ParseInt(Slice(raw, 0, 2), 16).Some?
                                        && ParseInt(Slice(raw, 2, 4), 16).Some?
                                        && ParseInt(Slice(raw, 4, 6), 16).Some?)
    ensures cur.Triple? && r.Ok? ==>
              r.value == Triple(ParseInt(Slice(raw, 0, 2), 16).value, ParseInt(Slice(raw, 2, 4), 16).value,
                                ParseInt(Slice(raw, 4, 6), 16).value)
  {
    match cur
    case Str(_) => Ok(Str(raw))
    case Bool(_) => Ok(Bool(raw == "True" || raw == "true" || raw == "yes"))
    case Int(_) =>
      var n :- IntOf(raw, 10);
      Ok(Int(n))
    case Pair(_, _) =>
      var parts := Split(raw, 'x');
      var a :- IntOf(parts[0], 10);
      if |parts| < 2 then Err(IndexError(1))
      else
        var b :- IntOf(parts[1], 10);
        Ok(Pair(a, b))
    case Triple(_, _, _) =>
      var red :- IntOf(Slice(raw, 0, 2), 16);
      var green :- IntOf(Slice(raw, 2, 4), 16);
      var blue :- IntOf(Slice(raw, 4, 6), 16);
      Ok(Triple(red, green, blue))
  }

  /** The text `save_config` writes for a value: "AxB" for a size,
      "#rrggbb" for a colour, `str()` otherwise. */
  function Format(v: Value): string {
    match v
    case Str(s) => s
    case Bool(b) => if b then "True" else "False"
    case Int(n) => IntToString(n)
    case Pair(a, b) => IntToString(a) + "x" + IntToString(b)
    case Triple(r, g, b) => "#" + Hex2(r) + Hex2(g) + Hex2(b)
  }

  lemma NoXInNumber(n: int)
    ensures 'x' !in IntToString(n)
  {
  }

  /** Every saved value but a colour reads back as itself. */
  lemma CoerceFormat(cur: Value, v: Value)
    requires SameKind(cur, v) && !v.Triple?
    ensures Coerce(cur, Format(v)) == Ok(v)
  {
    match v
    case Str(_) =>
    case Bool(_) =>
    case Int(n) => ParseIntToString(n);
    case Pair(a, b) =>
      NoXInNumber(a);
      NoXInNumber(b);
      SplitPair(IntToString(a), IntToString(b), 'x');
      ParseIntToString(a);
      ParseIntToString(b);
  }

  /** A saved colour never reads back: the first two characters read are
      '#' and a digit, which `int(_, 16)` rejects. */
  lemma SavedColourFails(cur: Value, v: Value)
    requires cur.Triple? && v.Triple?
    ensures Coerce(cur, Format(v)).Err?
  {
    var h := Hex2(v.red);
    var s := Format(v);
    var head := Slice(s, 0, 2);
    assert head == ['#', h[0]];
    StripClean(head);
    ParseIntRejects(head, 16);
  }

  lemma SliceOfThree(a: string, b: string, c: string)
    requires |a| == 2 && |b| == 2 && |c| == 2
    ensures Slice(a + b + c, 0, 2) == a && Slice(a + b + c, 2, 4) == b && Slice(a + b + c, 4, 6) == c
  {
    var s := a + b + c;
    assert s[0..2] == a && s[2..4] == b && s[4..6] == c;
  }

  /** What the colour branch does read: six bare hex digits. */
  lemma BareHexColourReads(cur: Value, red: int, green: int, blue: int)
    requires cur.Triple?
    requires 0 <= red < 256 && 0 <= green < 256 && 0 <= blue < 256
    ensures Coerce(cur, Hex2(red) + Hex2(green) + Hex2(blue)) == Ok(Triple(red, green, blue))
  {
    var s := Hex2(red) + Hex2(green) + Hex2(blue);
    SliceOfThree(Hex2(red), Hex2(green), Hex2(blue));
    Hex2ReadsBack(red);
    Hex2ReadsBack(green);
    Hex2ReadsBack(blue);
    assert IntOf(Slice(s, 0, 2), 16) == Ok(red);
    assert IntOf(Slice(s, 2, 4), 16) == Ok(green);
    assert IntOf(Slice(s, 4, 6), 16) == Ok(blue);
  }

  // ---------------------------------------------------------------------
  // Sections: an object's attributes in `__dict__` order.

  type Fields = seq<(string, Value)>

  function Lookup(f: Fields, attr: string): (r: Option<Value>)
    ensures r.None? <==> forall i :: 0 <= i < |f| ==> f[i].0 != attr
  {
    if |f| == 0 then None
    else if f[0].0 == attr then Some(f[0].1)
    else Lookup(f[1..], attr)
  }

  /** `setattr`: replace the value in place, or add the attribute at the
      end when the object does not have it. */
  function Assign(f: Fields, attr: string, v: Value): Fields {
    if |f| == 0 then [(attr, v)]
    else if f[0].0 == attr then [(attr, v)] + f[1..]
    else [f[0]] + Assign(f[1..], attr, v)
  }

  predicate DistinctNames(f: Fields) {
    forall i, j :: 0 <= i < j < |f| ==> f[i].0 != f[j].0
  }

  /** Same attribute names, in the same order, with values of the same
      kinds. */
  predicate SameShape(f: Fields, g: Fields) {
    |f| == |g| && forall i :: 0 <= i < |f| ==> f[i].0 == g[i].0 && SameKind(f[i].1, g[i].1)
  }

  /** With distinct names, `getattr` finds the attribute at its position and
      `setattr` replaces exactly that position. */
  lemma {:induction false} LookupAt(f: Fields, k: nat, v: Value)
    requires DistinctNames(f) && k < |f|
    ensures Lookup(f, f[k].0) == Some(f[k].1)
    ensures Assign(f, f[k].0, v) == f[k := (f[k].0, v)]
    decreases k
  {
    if k > 0 {
      assert f[0].0 != f[k].0;
      LookupAt(f[1..], k - 1, v);
      assert [f[0]] + f[1..][k - 1 := (f[k].0, v)] == f[k := (f[k].0, v)];
    }
  }

  /** Replacing a value by one of the same kind keeps the shape. */
  lemma {:induction false} AssignKeepsShape(f: Fields, attr: string, v: Value)
    requires Lookup(f, attr).Some? && SameKind(Lookup(f, attr).value, v)
    ensures SameShape(Assign(f, attr, v), f)
    decreases |f|
  {
    if f[0].0 != attr {
      AssignKeepsShape(f[1..], attr, v);
    }
  }

  /** `getattr` after `setattr` sees the new value and nothing else moves. */
  lemma {:induction false} LookupAssign(f: Fields, attr: string, v: Value, other: string)
    ensures Lookup(Assign(f, attr, v), attr) == Some(v)
    ensures other != attr ==> Lookup(Assign(f, attr, v), other) == Lookup(f, other)
    decreases |f|
  {
    if |f| > 0 && f[0].0 != attr {
      LookupAssign(f[1..], attr, v, other);
    }
  }

  // ---------------------------------------------------------------------
  // The whole configuration.

  datatype Config = Config(sensor: Fields, output: Fields, monitor: Fields, encoder: Fields)

  /** The sections the configuration object has, in the order they are
      saved. */
  const Sections: seq<string> := ["sensor", "output", "monitor", "encoder"]

  function Section(c: Config, name: string): Fields {
    if name == "sensor" then c.sensor
    else if name == "output" then c.output
    else if name == "monitor" then c.monitor
    else c.encoder
  }

  function WithSection(c: Config, name: string, f: Fields): Config {
    if name == "sensor" then c.(sensor := f)
    else if name == "output" then c.(output := f)
    else if name == "monitor" then c.(monitor := f)
    else c.(encoder := f)
  }

  /** The objects as constructed, after `load_defaults`: the monitor output
      is "DSI-1" when a DSI panel is connected, else "HDMI-A-2". */
  function Defaults(hasDsi: bool): Config {
    Config(
      [("framerate", Int(30))],
      [("output", Str("HDMI-A-1")), ("mode", Pair(1920, 1080)), ("framerate", Int(60))],
      [("output", Str(if hasDsi then "DSI-1" else "HDMI-A-2")), ("mode", Pair(1280, 720)),
       ("touchscreen_rotate", Int(0)), ("touchscreen_flip_x", Bool(false)),
       ("touchscreen_flip_y", Bool(false)), ("touchscreen_res", Pair(1280, 720)),
       ("exposure_helper_min", Int(61)), ("exposure_helper_max", Int(70))],
      [("bitrate", Str("10M")), ("enabled", Bool(true))])
  }

  /** Section by section the same shape. */
  predicate ShapedLike(a: Config, b: Config) {
    && SameShape(a.sensor, b.sensor) && SameShape(a.output, b.output)
    && SameShape(a.monitor, b.monitor) && SameShape(a.encoder, b.encoder)
  }

  lemma SameShapeJoin(f: Fields, g: Fields, d: Fields)
    requires SameShape(f, d) && SameShape(g, d)
    ensures SameShape(f, g)
  {
  }

  lemma ShapedLikeTrans(a: Config, b: Config, c: Config)
    requires ShapedLike(a, b) && ShapedLike(b, c)
    ensures ShapedLike(a, c)
  {
  }

  /** Every section has the attributes of the defaults, with values of the
      same kinds. */
  predicate WellFormed(c: Config) {
    ShapedLike(c, Defaults(false))
  }

  // ---------------------------------------------------------------------
  // load_config

  type Ini = seq<(string, seq<(string, string)>)>

  /** One key of a known section. A key naming no attribute is skipped.
      The encoder's `bitrate_int` is a read-only property, so setting it
      raises. */
  function LoadKey(f: Fields, section: string, key: string, raw: string): (r: Result<Fields, ConfigError>)
    ensures r.Ok? ==> SameShape(r.value, f)
    ensures Lookup(f, AttrOf(key)).None? && !(section == "encoder" && AttrOf(key) == "bitrate_int") ==> r == Ok(f)
  {
    var attr := AttrOf(key);
    if section == "encoder" && attr == "bitrate_int" then Err(ReadOnly(attr))
    else
      match Lookup(f, attr)
      case None => Ok(f)
      case Some(cur) =>
        var v :- Coerce(cur, raw);
        AssignKeepsShape(f, attr, v);
        Ok(Assign(f, attr, v))
  }

  function LoadKeys(f: Fields, section: string, items: seq<(string, string)>): (r: Result<Fields, ConfigError>)
    ensures r.Ok? ==> SameShape(r.value, f)
    decreases |items|
  {
    if |items| == 0 then Ok(f)
    else
      var g :- LoadKey(f, section, items[0].0, items[0].1);
      LoadKeys(g, section, items[1..])
  }

  /** One section of the file; a section the configuration has no object
      for is skipped. */
  function LoadSection(c: Config, name: string, items: seq<(string, string)>): (r: Result<Config, ConfigError>)
    ensures name !in Sections ==> r == Ok(c)
    ensures r.Ok? ==> ShapedLike(r.value, c)
  {
    if name !in Sections then Ok(c)
    else
      var f :- LoadKeys(Section(c, name), name, items);
      Ok(WithSection(c, name, f))
  }

  function LoadSections(c: Config, ini: Ini): (r: Result<Config, ConfigError>)
    ensures r.Ok? ==> ShapedLike(r.value, c)
    decreases |ini|
  {
    if |ini| == 0 then Ok(c)
    else
      var c' :- LoadSection(c, ini[0].0, ini[0].1);
      var r := LoadSections(c', ini[1..]);
      if r.Ok? then ShapedLikeTrans(r.value, c', c); r else r
  }

  /** The framerate rule after loading: with the encoder enabled the sensor
      runs at no more than 30 frames per second. `min(30, b)` on a bool
      returns the bool itself. */
  function Clamp(c: Config): (r: Result<Config, ConfigError>)
    ensures r.Ok? ==> r.value.output == c.output && r.value.monitor == c.monitor && r.value.encoder == c.encoder
    ensures r.Ok? ==> ShapedLike(r.value, c)
  {
    match Lookup(c.encoder, "enabled")
    case None => Err(AttributeError("enabled"))
    case Some(enabled) =>
      if !Truthy(enabled) then Ok(c)
      else
        match Lookup(c.sensor, "framerate")
        case None => Err(AttributeError("framerate"))
        case Some(Int(n)) =>
          var v := Int(if n < 30 then n else 30);
          AssignKeepsShape(c.sensor, "framerate", v);
          Ok(c.(sensor := Assign(c.sensor, "framerate", v)))
        case Some(Bool(_)) => Ok(c)
        case Some(_) => Err(TypeError)
  }

  /** `load_config`: every section in file order, then the framerate rule. */
  function Load(c: Config, ini: Ini): (r: Result<Config, ConfigError>)
    ensures r.Ok? ==> ShapedLike(r.value, c)
  {
    var c' :- LoadSections(c, ini);
    var r := Clamp(c');
    if r.Ok? then ShapedLikeTrans(r.value, c', c); r else r
  }

  // ---------------------------------------------------------------------
  // save_config

  function SaveFields(f: Fields): (items: seq<(string, string)>)
    ensures |items| == |f|
    ensures forall i :: 0 <= i < |f| ==> items[i] == (KeyOf(f[i].0), Format(f[i].1))
  {
    seq(|f|, i requires 0 <= i < |f| => (KeyOf(f[i].0), Format(f[i].1)))
  }

  /** `save_config`: the four sections in a fixed order, each attribute as
      its key and formatted value. */
  function Save(c: Config): (ini: Ini)
    ensures |ini| == |Sections|
    ensures forall i :: 0 <= i < |Sections| ==> ini[i] == (Sections[i], SaveFields(Section(c, Sections[i])))
  {
    [("sensor", SaveFields(c.sensor)), ("output", SaveFields(c.output)),
     ("monitor", SaveFields(c.monitor)), ("encoder", SaveFields(c.encoder))]
  }

  /** `Config(path)`: the defaults, then the file if there is one, then the
      file written back. The result is the configuration and the file
      written. */
  function Open(hasDsi: bool, file: Option<Ini>): (r: Result<(Config, Ini), ConfigError>)
    ensures r.Ok? ==> WellFormed(r.value.0) && Clamp(r.value.0) == Ok(r.value.0)
    ensures r.Ok? ==> r.value.1 == Save(r.value.0)
    ensures file.None? ==> r == Ok((Defaults(hasDsi), Save(Defaults(hasDsi))))
  {
    DefaultsWellFormed(hasDsi);
    if file.Some? then
      var c :- Load(Defaults(hasDsi), file.value);
      LoadClamped(Defaults(hasDsi), file.value);
      Ok((c, Save(c)))
    else Ok((Defaults(hasDsi), Save(Defaults(hasDsi))))
  }

  // ---------------------------------------------------------------------
  // Properties

  /** The attributes a well-formed section can hold: distinct names with no
      '-', no colour, and no `bitrate_int`. */
  predicate Saveable(f: Fields) {
    && DistinctNames(f)
    && (forall i :: 0 <= i < |f| ==> '-' !in f[i].0 && f[i].0 != "bitrate_int" && !f[i].1.Triple?)
  }

  lemma ShapeSaveable(f: Fields, g: Fields)
    requires SameShape(f, g) && Saveable(g)
    ensures Saveable(f)
  {
  }

  lemma MonitorSaveable()
    ensures Saveable(Defaults(false).monitor)
  {
    MonitorNamesClean();
    MonitorNamesDistinct();
  }

  lemma MonitorNamesClean()
    ensures var m := Defaults(false).monitor;
            forall i :: 0 <= i < |m| ==> '-' !in m[i].0 && m[i].0 != "bitrate_int" && !m[i].1.Triple?
  {
  }

  lemma MonitorNamesDistinct()
    ensures DistinctNames(Defaults(false).monitor)
  {
  }

  lemma OtherDefaultsSaveable()
    ensures var d := Defaults(false); Saveable(d.sensor) && Saveable(d.output) && Saveable(d.encoder)
  {
    OutputSaveable();
  }

  lemma OutputSaveable()
    ensures Saveable(Defaults(false).output)
  {
  }

  lemma DefaultsSaveable(c: Config)
    requires WellFormed(c)
    ensures forall s :: s in Sections ==> Saveable(Section(c, s))
  {
    var d := Defaults(false);
    OtherDefaultsSaveable();
    MonitorSaveable();
    ShapeSaveable(c.sensor, d.sensor);
    ShapeSaveable(c.output, d.output);
    ShapeSaveable(c.monitor, d.monitor);
    ShapeSaveable(c.encoder, d.encoder);
  }

  /** Loading the key `save_config` wrote for attribute `k` of `f` sets
      that attribute of a section of the same shape to `f`'s value. */
  lemma LoadKeySaved(g: Fields, f: Fields, section: string, k: nat)
    requires SameShape(g, f) && Saveable(f) && k < |f|
    ensures LoadKey(g, section, KeyOf(f[k].0), Format(f[k].1)) == Ok(g[k := f[k]])
  {
    var name := f[k].0;
    AttrOfKeyOf(name);
    assert DistinctNames(g);
    LookupAt(g, k, f[k].1);
    CoerceFormat(g[k].1, f[k].1);
  }

  lemma PrefixStep(g: Fields, f: Fields, k: nat)
    requires |g| == |f| && k < |f| && g[..k] == f[..k]
    ensures g[k := f[k]][..k + 1] == f[..k + 1]
  {
    var g' := g[k := f[k]];
    forall i | 0 <= i <= k ensures g'[i] == f[i] {
      if i < k {
        assert g[..k][i] == f[..k][i];
      }
    }
  }

  /** Loading the keys `save_config` wrote for `f` over a section of the same
      shape, from position `k` on, gives `f`. */
  lemma {:induction false} LoadKeysSaved(g: Fields, f: Fields, section: string, k: nat)
    requires SameShape(g, f) && Saveable(f)
    requires k <= |f| && g[..k] == f[..k]
    ensures LoadKeys(g, section, SaveFields(f)[k..]) == Ok(f)
    decreases |f| - k
  {
    var items := SaveFields(f)[k..];
    if k == |f| {
      assert g == g[..k] == f[..k] == f;
    } else {
      var g' := g[k := f[k]];
      assert items[0] == (KeyOf(f[k].0), Format(f[k].1));
      LoadKeySaved(g, f, section, k);
      PrefixStep(g, f, k);
      assert SameShape(g', f);
      assert items[1..] == SaveFields(f)[k + 1..];
      LoadKeysSaved(g', f, section, k + 1);
    }
  }

  lemma LoadSectionSaved(c0: Config, c: Config, name: string)
    requires name in Sections
    requires SameShape(Section(c0, name), Section(c, name)) && Saveable(Section(c, name))
    ensures LoadSection(c0, name, SaveFields(Section(c, name))) == Ok(WithSection(c0, name, Section(c, name)))
  {
    LoadKeysSaved(Section(c0, name), Section(c, name), name, 0);
    assert SaveFields(Section(c, name))[0..] == SaveFields(Section(c, name));
  }

  /** Reading back what `save_config` wrote, over any well-formed
      configuration, restores every attribute of every section. */
  lemma LoadSectionsSaved(c0: Config, c: Config)
    requires WellFormed(c0) && WellFormed(c)
    ensures LoadSections(c0, Save(c)) == Ok(c)
  {
    DefaultsSaveable(c);
    var d := Defaults(false);
    SameShapeJoin(c0.sensor, c.sensor, d.sensor);
    SameShapeJoin(c0.output, c.output, d.output);
    SameShapeJoin(c0.monitor, c.monitor, d.monitor);
    SameShapeJoin(c0.encoder, c.encoder, d.encoder);
    var ini := Save(c);
    var c1 := c0.(sensor := c.sensor);
    var c2 := c1.(output := c.output);
    var c3 := c2.(monitor := c.monitor);
    LoadSectionSaved(c3, c, "encoder");
    assert c3.(encoder := c.encoder) == c;
    assert LoadSections(c3, ini[3..]) == Ok(c) by {
      assert ini[3..][1..] == [];
    }
    LoadSectionSaved(c2, c, "monitor");
    assert LoadSections(c2, ini[2..]) == Ok(c) by {
      assert ini[2..][1..] == ini[3..];
    }
    LoadSectionSaved(c1, c, "output");
    assert LoadSections(c1, ini[1..]) == Ok(c) by {
      assert ini[1..][1..] == ini[2..];
    }
    LoadSectionSaved(c0, c, "sensor");
  }

  /** Save then load: a well-formed configuration comes back as itself,
      except for the framerate rule, which loading applies again. */
  lemma SaveLoad(c0: Config, c: Config)
    requires WellFormed(c0) && WellFormed(c)
    ensures Load(c0, Save(c)) == Clamp(c)
  {
    LoadSectionsSaved(c0, c);
  }

  /** Different well-formed configurations are saved as different files:
      the save format loses nothing. */
  lemma SaveInjective(c: Config, c': Config)
    requires WellFormed(c) && WellFormed(c') && Save(c) == Save(c')
    ensures c == c'
  {
    LoadSectionsSaved(c, c);
    LoadSectionsSaved(c, c');
  }

  /** The keys written for one section, loaded over any section of the same
      shape, give the saved section back. */
  lemma SaveFieldsReadsBack(g: Fields, f: Fields, section: string)
    requires SameShape(g, f) && Saveable(f)
    ensures LoadKeys(g, section, SaveFields(f)) == Ok(f)
  {
    LoadKeysSaved(g, f, section, 0);
    assert SaveFields(f)[0..] == SaveFields(f);
  }

  /** The two attributes the framerate rule reads, in a well-formed
      configuration. */
  lemma RuleInputs(c: Config)
    requires WellFormed(c)
    ensures c.sensor == [("framerate", Int(c.sensor[0].1.n))]
    ensures c.encoder[1].1.Bool? && Lookup(c.encoder, "enabled") == Some(c.encoder[1].1)
  {
    assert c.encoder[1].0 == "enabled" && c.encoder[0].0 == "bitrate";
  }

  /** The framerate rule on a well-formed configuration: it succeeds,
      changes nothing when the encoder is disabled, caps the framerate at 30
      when it is enabled, and applying it twice changes nothing more. */
  lemma ClampRule(c: Config)
    requires WellFormed(c)
    ensures Clamp(c).Ok? && WellFormed(Clamp(c).value)
    ensures !c.encoder[1].1.flag ==> Clamp(c) == Ok(c)
    ensures c.encoder[1].1.flag ==> Clamp(c) == Ok(c.(sensor := [("framerate", Int(if c.sensor[0].1.n < 30 then c.sensor[0].1.n else 30))]))
    ensures Clamp(Clamp(c).value) == Clamp(c)
  {
    RuleInputs(c);
    var n := c.sensor[0].1.n;
    if c.encoder[1].1.flag {
      var m := if n < 30 then n else 30;
      var c' := c.(sensor := [("framerate", Int(m))]);
      assert Assign(c.sensor, "framerate", Int(m)) == c'.sensor;
      assert Clamp(c) == Ok(c');
      assert WellFormed(c');
      RuleInputs(c');
      assert Assign(c'.sensor, "framerate", Int(m)) == c'.sensor;
      assert c'.(sensor := c'.sensor) == c';
    }
  }

  lemma DefaultsWellFormed(hasDsi: bool)
    ensures WellFormed(Defaults(hasDsi)) && Clamp(Defaults(hasDsi)) == Ok(Defaults(hasDsi))
  {
    ClampRule(Defaults(hasDsi));
  }

  lemma LoadClamped(c: Config, ini: Ini)
    requires WellFormed(c) && Load(c, ini).Ok?
    ensures WellFormed(Load(c, ini).value) && Clamp(Load(c, ini).value) == Load(c, ini)
  {
    var c' := LoadSections(c, ini).value;
    ShapedLikeTrans(c', c, Defaults(false));
    ClampRule(c');
  }

  /** Opening writes back a file which, opened again, gives the same
      configuration and the same file. */
  lemma OpenIsStable(hasDsi: bool, file: Option<Ini>)
    requires Open(hasDsi, file).Ok?
    ensures Open(hasDsi, Some(Open(hasDsi, file).value.1)) == Open(hasDsi, file)
  {
    var c := Open(hasDsi, file).value.0;
    DefaultsWellFormed(hasDsi);
    SaveLoad(Defaults(hasDsi), c);
  }

  /** The framerate rule is why a saved file need not read back as it was
      saved: an enabled encoder with a sensor at 60 frames per second loads
      at 30. */
  lemma SaveLoadClamps()
    ensures var c := Defaults(false).(sensor := [("framerate", Int(60))]);
            Load(Defaults(false), Save(c)) == Ok(Defaults(false)) && Defaults(false) != c
  {
    var c := Defaults(false).(sensor := [("framerate", Int(60))]);
    SaveLoad(Defaults(false), c);
    ClampRule(c);
  }

  /** A file whose sections the configuration has no object for changes
      nothing. */
  lemma {:induction false} UnknownSectionsIgnored(c: Config, ini: Ini)
    requires forall i :: 0 <= i < |ini| ==> ini[i].0 !in Sections
    ensures LoadSections(c, ini) == Ok(c)
    decreases |ini|
  {
    if |ini| > 0 {
      UnknownSectionsIgnored(c, ini[1..]);
    }
  }

  /** Keys that name no attribute of the section change nothing. */
  lemma {:induction false} UnknownKeysIgnored(f: Fields, section: string, items: seq<(string, string)>)
    requires forall i :: 0 <= i < |items| ==>
               Lookup(f, AttrOf(items[i].0)).None? && !(section == "encoder" && AttrOf(items[i].0) == "bitrate_int")
    ensures LoadKeys(f, section, items) == Ok(f)
    decreases |items|
  {
    if |items| > 0 {
      UnknownKeysIgnored(f, section, items[1..]);
    }
  }

  /** After a successful load, an enabled encoder means a sensor framerate of
      at most 30. */
  lemma LoadCapsFramerate(c: Config, ini: Ini)
    requires WellFormed(c) && Load(c, ini).Ok?
    ensures var r := Load(c, ini).value;
            WellFormed(r) && (r.encoder[1].1.flag ==> r.sensor[0].1.n <= 30)
  {
    var c' := LoadSections(c, ini).value;
    ShapedLikeTrans(c', c, Defaults(false));
    ClampRule(c');
    RuleInputs(Load(c, ini).value);
  }
}

=== FILE: drm_output.dfy ===
/** The connector-based DRM output of mycam/drmoutput.py: any number of named
    connectors, each showing the camera frame full-screen with a number of
    overlay layers above it. Layers are tracked by a dirty flag that marks
    them for the next atomic commit. Hardware objects are opaque handles;
    what the resource manager offers is a parameter (`Hardware`). */
module DrmOutput {
  import opened Common
  import opened Framebuffers
  import opened FrameOwnership

  datatype OutputError =
    | NoDisplayStream
    | NoLayer(connector: string, layer: int)
    | UnboundFramebuffer(format: string)
    | KeyError(key: int)
    | NoConnector(name: string)
    | NoOverlayFb(layer: int)
    | IndexError(index: int)

  /** A layer position `(x, y, w, h)`; `configure` stores the connector's
      width and height, which may be `None`. */
  datatype Pos = Pos(x: int, y: int, w: Option<int>, h: Option<int>)

  datatype Connector = Connector(
    name: string, crtc: Option<Handle>, ready: bool, plane: Option<Handle>,
    numOverlays: int, overlay: seq<Handle>, overlayFb: map<int, Option<DumbFb>>,
    width: Option<int>, height: Option<int>, overlayPos: seq<Pos>, overlayDirty: map<int, bool>)

  /** `Connector(name)`. */
  function NewConnector(name: string): Connector {
    Connector(name, None, false, None, 0, [], map[], Some(0), Some(0), [], map[])
  }

  /** What the resource manager offers: the plane for the camera format on a
      connector's CRTC, and the plane for each overlay layer. */
  datatype Hardware = Hardware(plane: (string, Option<PixelFormat>) -> Option<Handle>,
                               layer: (string, int) -> Option<Handle>)

  /** `range(n)` has no elements for a negative `n`. */
  function Count(n: int): nat {
    if n < 0 then 0 else n
  }

  /** `configure(resman, width, height, rate, layers)`: one full-screen
      position per layer is appended. The mode setting is hardware. */
  function Configure(c: Connector, crtc: Handle, width: Option<int>, height: Option<int>, layers: int): (r: Connector)
    ensures r.numOverlays == layers && r.crtc == Some(crtc) && r.width == width && r.height == height
    ensures |r.overlayPos| == |c.overlayPos| + Count(layers) && r.overlayPos[..|c.overlayPos|] == c.overlayPos
    ensures forall i :: |c.overlayPos| <= i < |r.overlayPos| ==> r.overlayPos[i] == Pos(0, 0, width, height)
    ensures r == c.(numOverlays := layers, crtc := Some(crtc), width := width, height := height, overlayPos := r.overlayPos)
  {
    c.(numOverlays := layers, crtc := Some(crtc), width := width, height := height,
       overlayPos := c.overlayPos + seq(Count(layers), _ => Pos(0, 0, width, height)))
  }

  /** The formats `start` knows; any other leaves the format `None`. */
  function StartFormat(name: string): (f: Option<PixelFormat>)
    ensures f.Some? <==> name == "XBGR8888" || name == "YUV420"
    ensures f.Some? ==> NameOf(f.value) == name
  {
    if name == "XBGR8888" then Some(XBGR8888)
    else if name == "YUV420" then Some(YUV420)
    else None
  }

  /** The overlay layers `from .. n-1` reserved in order; a layer the
      resource manager cannot offer fails on `set_prop` of `None`. */
  function ReserveLayers(name: string, from: int, n: int, hw: Hardware): (r: Result<seq<Handle>, OutputError>)
    decreases n - from
    ensures r.Ok? <==> forall i :: from <= i < n ==> hw.layer(name, i).Some?
    ensures r.Ok? ==> |r.value| == Count(n - from)
    ensures r.Ok? ==> forall k :: 0 <= k < |r.value| ==> Some(r.value[k]) == hw.layer(name, from + k)
  {
    if from >= n then Ok([])
    else if hw.layer(name, from).None? then Err(NoLayer(name, from))
    else
      var rest :- ReserveLayers(name, from + 1, n, hw);
      Ok([hw.layer(name, from).value] + rest)
  }

  /** Every layer flag of `0 .. n-1` cleared, every other flag kept. */
  function Clear(d: map<int, bool>, n: int): (r: map<int, bool>)
    ensures forall i :: 0 <= i < n ==> i in r && !r[i]
    ensures forall i :: i in d && !(0 <= i < n) ==> i in r && r[i] == d[i]
    ensures forall i :: i in r ==> i in d || 0 <= i < n
  {
    map i | i in d.Keys + Range(n) :: if 0 <= i < n then false else d[i]
  }

  /** The indices `0 .. n-1`. */
  function Range(n: int): (r: set<int>)
    decreases n
    ensures forall j :: j in r <==> 0 <= j < n
  {
    if n <= 0 then {} else Range(n - 1) + {n - 1}
  }

  /** `start(width, height, pixel_format)`: the camera plane for the format
      (or for no format), then one overlay plane per layer, each layer
      starting clean; the connector is then ready. */
  function Start(c: Connector, format: string, hw: Hardware): (r: Result<Connector, OutputError>)
    ensures r.Ok? <==> forall i :: 0 <= i < c.numOverlays ==> hw.layer(c.name, i).Some?
    ensures r.Ok? ==> r.value.ready && r.value.plane == hw.plane(c.name, StartFormat(format))
    ensures r.Ok? ==> |r.value.overlay| == |c.overlay| + Count(c.numOverlays)
    ensures r.Ok? ==> forall i :: 0 <= i < c.numOverlays ==> i in r.value.overlayDirty && !r.value.overlayDirty[i]
    ensures r.Ok? ==> forall i :: i in c.overlayDirty && !(0 <= i < c.numOverlays) ==>
                        i in r.value.overlayDirty && r.value.overlayDirty[i] == c.overlayDirty[i]
    ensures r.Ok? ==> r.value == c.(ready := true, plane := r.value.plane, overlay := r.value.overlay,
                                    overlayDirty := r.value.overlayDirty)
  {
    var layers :- ReserveLayers(c.name, 0, c.numOverlays, hw);
    Ok(c.(plane := hw.plane(c.name, StartFormat(format)), overlay := c.overlay + layers,
          overlayDirty := Clear(c.overlayDirty, c.numOverlays), ready := true))
  }

  /** Python list indexing: negative indices count from the end. */
  function ListIndex(n: nat, idx: int): (r: Option<nat>)
    ensures r.Some? <==> -(n as int) <= idx < n
    ensures r.Some? ==> r.value < n && (r.value == idx || r.value == n + idx)
  {
    if 0 <= idx < n then Some(idx)
    else if -(n as int) <= idx < 0 then Some(n + idx)
    else None
  }

  /** `overlay_position(idx, x, y, w, h)`: the position is always stored, and
      the layer becomes dirty only when it holds a framebuffer. The dirty
      flag is keyed by `idx` as given, while the position list is indexed
      Python-style. */
  function OverlayPosition(c: Connector, idx: int, x: int, y: int, w: int, h: int): (r: Result<Connector, OutputError>)
    ensures r.Err? <==> ListIndex(|c.overlayPos|, idx).None?
    ensures r.Ok? ==> var k := ListIndex(|c.overlayPos|, idx).value;
                      r.value.overlayPos == c.overlayPos[k := Pos(x, y, Some(w), Some(h))]
    ensures r.Ok? && idx in c.overlayFb && c.overlayFb[idx].Some? ==> r.value.overlayDirty == c.overlayDirty[idx := true]
    ensures r.Ok? && !(idx in c.overlayFb && c.overlayFb[idx].Some?) ==> r.value.overlayDirty == c.overlayDirty
    ensures r.Ok? ==> r.value == c.(overlayPos := r.value.overlayPos, overlayDirty := r.value.overlayDirty)
  {
    var k := ListIndex(|c.overlayPos|, idx);
    if k.None? then Err(IndexError(idx))
    else
      var c1 := c.(overlayPos := c.overlayPos[k.value := Pos(x, y, Some(w), Some(h))]);
      if idx in c.overlayFb && c.overlayFb[idx].Some? then Ok(c1.(overlayDirty := c1.overlayDirty[idx := true]))
      else Ok(c1)
  }

  // ---------------------------------------------------------------------
  // DRMOutput

  /** One `add_plane` of this output: the destination is a layer position. */
  datatype OutPlacement = OutPlacement(plane: Option<Handle>, source: Source, crtc: Option<Handle>, src: Rect, dst: Pos)

  /** `DRMOutput`: the connectors in the order they were first used (a
      Python dict keeps insertion order), the frame on screen, the cache of
      camera framebuffers, and the commits sent. */
  datatype Output = Output(
    width: int, height: int, conns: seq<Connector>, slot: Slot, frameLog: seq<FrameOp>,
    drmfbs: map<nat, FbLayout>, displayStreamName: Option<string>, nextFb: nat,
    commits: seq<seq<OutPlacement>>)

  /** `DRMOutput(width, height)`. */
  function NewOutput(width: int, height: int): Output {
    Output(width, height, [], NoFrame, [], map[], None, 0, [])
  }

  /** The position of the connector named `name`, if any. */
  function Find(cs: seq<Connector>, name: string): (r: Option<nat>)
    ensures r.Some? <==> exists i :: 0 <= i < |cs| && cs[i].name == name
    ensures r.Some? ==> r.value < |cs| && cs[r.value].name == name
    ensures r.Some? ==> forall i :: 0 <= i < r.value ==> cs[i].name != name
  {
    if |cs| == 0 then None
    else if cs[0].name == name then Some(0)
    else
      var rest := Find(cs[1..], name);
      if rest.None? then None else Some(rest.value + 1)
  }

  /** `use_output(name, width, height, rate, overlays)`: a realloc connector,
      configured, replacing one of the same name in place or appended. */
  function UseOutput(o: Output, name: string, crtc: Handle, width: Option<int>, height: Option<int>, overlays: int)
    : (r: (Output, Connector))
    ensures r.1 == Configure(NewConnector(name), crtc, width, height, overlays)
    ensures Find(o.conns, name).Some? ==> r.0.conns == o.conns[Find(o.conns, name).value := r.1]
    ensures Find(o.conns, name).None? ==> r.0.conns == o.conns + [r.1]
    ensures r.0 == o.(conns := r.0.conns)
    ensures !r.1.ready && |r.1.overlayPos| == Count(overlays)
  {
    var c := Configure(NewConnector(name), crtc, width, height, overlays);
    var i := Find(o.conns, name);
    (o.(conns := if i.Some? then o.conns[i.value := c] else o.conns + [c]), c)
  }

  /** One connector in the first loop of `render_drm`: a ready connector is
      left alone, any other is started. */
  function StartOne(c: Connector, format: string, hw: Hardware): (r: Result<Connector, OutputError>)
    ensures c.ready ==> r == Ok(c)
    ensures !c.ready ==> r == Start(c, format, hw)
    ensures r.Ok? ==> r.value.ready
  {
    if c.ready then Ok(c) else Start(c, format, hw)
  }

  /** The first part of `render_drm`: every connector not yet ready is
      started, in order, and the first failure ends the loop. */
  function StartAll(cs: seq<Connector>, format: string, hw: Hardware): (r: Result<seq<Connector>, OutputError>)
    ensures r.Ok? ==> |r.value| == |cs|
    ensures r.Ok? ==> forall i :: 0 <= i < |cs| ==> StartOne(cs[i], format, hw) == Ok(r.value[i])
    ensures r.Err? ==> exists i :: 0 <= i < |cs| && StartOne(cs[i], format, hw).Err?
  {
    if |cs| == 0 then Ok([])
    else
      var first :- StartOne(cs[0], format, hw);
      var rest :- StartAll(cs[1..], format, hw);
      var r := [first] + rest;
      assert forall i :: 1 <= i < |cs| ==> cs[i] == cs[1..][i - 1] && r[i] == rest[i - 1];
      Ok(r)
  }

  /** The layers of `c` whose dirty flag is set, from `from` up, in order. */
  function DirtyLayers(c: Connector, from: int): (r: seq<int>)
    decreases c.numOverlays - from
    ensures forall k :: 0 <= k < |r| ==> from <= r[k] < c.numOverlays && r[k] in c.overlayDirty && c.overlayDirty[r[k]]
  {
    if from >= c.numOverlays then []
    else (if from in c.overlayDirty && c.overlayDirty[from] then [from] else []) + DirtyLayers(c, from + 1)
  }

  /** A layer is listed iff it is in range and dirty. */
  lemma {:induction false} DirtyLayersExact(c: Connector, from: int, i: int)
    decreases c.numOverlays - from
    ensures i in DirtyLayers(c, from) <==> from <= i < c.numOverlays && i in c.overlayDirty && c.overlayDirty[i]
  {
    if from < c.numOverlays {
      DirtyLayersExact(c, from + 1, i);
    }
  }

  /** The plane for layer `i`: its overlay plane, framebuffer and position. */
  function LayerPlacement(c: Connector, i: int): (r: Result<OutPlacement, OutputError>)
    ensures r.Ok? <==> i in c.overlayFb && c.overlayFb[i].Some? && 0 <= i < |c.overlay| && 0 <= i < |c.overlayPos|
    ensures r.Ok? ==> r.value.source == Overlay(c.overlayFb[i].value) && r.value.dst == c.overlayPos[i]
    ensures r.Ok? ==> r.value.plane == Some(c.overlay[i]) && r.value.crtc == c.crtc
  {
    if i !in c.overlayFb then Err(KeyError(i))
    else if c.overlayFb[i].None? then Err(NoOverlayFb(i))
    else if !(0 <= i < |c.overlay|) || !(0 <= i < |c.overlayPos|) then Err(IndexError(i))
    else
      var fb := c.overlayFb[i].value;
      Ok(OutPlacement(Some(c.overlay[i]), Overlay(fb), c.crtc, Rect(0, 0, fb.width, fb.height), c.overlayPos[i]))
  }

  /** The overlay loop for one connector, from layer `from` up: one plane per
      dirty layer; a missing dirty flag raises `KeyError`. */
  function LayerPlacements(c: Connector, from: int): (r: Result<seq<OutPlacement>, OutputError>)
    decreases c.numOverlays - from
    ensures r.Ok? ==> |r.value| == |DirtyLayers(c, from)|
    ensures r.Ok? ==> forall k :: 0 <= k < |r.value| ==> LayerPlacement(c, DirtyLayers(c, from)[k]) == Ok(r.value[k])
    ensures r.Ok? ==> forall i :: from <= i < c.numOverlays ==> i in c.overlayDirty
  {
    if from >= c.numOverlays then Ok([])
    else if from !in c.overlayDirty then Err(KeyError(from))
    else
      var here :- if c.overlayDirty[from] then (var p :- LayerPlacement(c, from); Ok([p])) else Ok([]);
      var rest :- LayerPlacements(c, from + 1);
      Ok(here + rest)
  }

  /** The overlay loop over all connectors: connector by connector, one
      plane per dirty layer, each the layer's own plane, framebuffer and
      position (`LayerPlanes`). */
  function AllLayerPlacements(cs: seq<Connector>): (r: Result<seq<OutPlacement>, OutputError>)
    ensures r.Ok? ==> forall pl :: pl in r.value ==> pl.source.Overlay?
    ensures r.Ok? ==> LayerPlanes(cs, r.value)
  {
    if |cs| == 0 then Ok([])
    else
      var first :- LayerPlacements(cs[0], 0);
      var rest :- AllLayerPlacements(cs[1..]);
      assert forall pl :: pl in first ==> pl.source.Overlay? by {
        forall pl | pl in first ensures pl.source.Overlay? {
          var k :| 0 <= k < |first| && first[k] == pl;
          assert LayerPlacement(cs[0], DirtyLayers(cs[0], 0)[k]) == Ok(pl);
        }
      }
      LayerPlanesCons(cs, first, rest);
      Ok(first + rest)
  }

  /** The overlay planes `r` of the connectors `cs`, in loop order: the
      planes of the dirty layers of `cs[i]` start after those of every
      earlier connector, and the `k`-th of them is the `LayerPlacement` of
      the `k`-th dirty layer. */
  predicate LayerPlanes(cs: seq<Connector>, r: seq<OutPlacement>) {
    && |r| == DirtyTotal(cs)
    && forall i, k :: 0 <= i < |cs| && 0 <= k < |DirtyLayers(cs[i], 0)| ==>
         LayerPlacement(cs[i], DirtyLayers(cs[i], 0)[k]) == Ok(r[PlaneOffset(cs, i) + k])
  }

  /** The number of dirty layers of the connectors before `cs[i]`: where the
      planes of `cs[i]` start in a commit. */
  function PlaneOffset(cs: seq<Connector>, i: nat): (n: nat)
    requires i < |cs|
    ensures n + |DirtyLayers(cs[i], 0)| <= DirtyTotal(cs)
  {
    if i == 0 then 0 else |DirtyLayers(cs[0], 0)| + PlaneOffset(cs[1..], i - 1)
  }

  /** The first connector's planes in front of the others' give the planes
      of all of them. */
  lemma LayerPlanesCons(cs: seq<Connector>, first: seq<OutPlacement>, rest: seq<OutPlacement>)
    requires |cs| > 0 && LayerPlacements(cs[0], 0) == Ok(first) && LayerPlanes(cs[1..], rest)
    ensures LayerPlanes(cs, first + rest)
  {
    forall i, k | 0 <= i < |cs| && 0 <= k < |DirtyLayers(cs[i], 0)|
      ensures LayerPlacement(cs[i], DirtyLayers(cs[i], 0)[k]) == Ok((first + rest)[PlaneOffset(cs, i) + k])
    {
      if i > 0 {
        LayerPlaneOfRest(cs, first, rest, i, k);
      }
    }
  }

  /** A plane of a later connector sits after the first connector's planes. */
  lemma LayerPlaneOfRest(cs: seq<Connector>, first: seq<OutPlacement>, rest: seq<OutPlacement>, i: nat, k: nat)
    requires |cs| > 0 && |first| == |DirtyLayers(cs[0], 0)| && LayerPlanes(cs[1..], rest)
    requires 0 < i < |cs| && k < |DirtyLayers(cs[i], 0)|
    ensures LayerPlacement(cs[i], DirtyLayers(cs[i], 0)[k]) == Ok((first + rest)[PlaneOffset(cs, i) + k])
  {
    assert cs[i] == cs[1..][i - 1];
    var j := PlaneOffset(cs[1..], i - 1) + k;
    assert LayerPlacement(cs[i], DirtyLayers(cs[i], 0)[k]) == Ok(rest[j]);
    assert (first + rest)[|first| + j] == rest[j];
  }

  /** The number of dirty layers over all connectors. */
  function DirtyTotal(cs: seq<Connector>): nat {
    if |cs| == 0 then 0 else |DirtyLayers(cs[0], 0)| + DirtyTotal(cs[1..])
  }

  /** The camera frame on every connector, full screen. */
  function VideoPlacements(cs: seq<Connector>, layout: FbLayout, s: Stream): (r: seq<OutPlacement>)
    ensures |r| == |cs|
    ensures forall i :: 0 <= i < |cs| ==> r[i] == OutPlacement(cs[i].plane, Camera(layout), cs[i].crtc,
                                                               Rect(0, 0, s.width, s.height), Pos(0, 0, cs[i].width, cs[i].height))
  {
    seq(|cs|, i requires 0 <= i < |cs| =>
      OutPlacement(cs[i].plane, Camera(layout), cs[i].crtc, Rect(0, 0, s.width, s.height), Pos(0, 0, cs[i].width, cs[i].height)))
  }

  /** The framebuffer for a camera frame: packed XBGR8888 or planar YUV420.
      Any other format leaves the local `drmfb` unbound. */
  function FrameLayout(s: Stream, fd: int): (r: Result<FbLayout, OutputError>)
    ensures r.Ok? <==> s.format == "XBGR8888" || s.format == "YUV420"
    ensures s.format == "XBGR8888" ==> r == Ok(PackedLayout(s.width, s.height, XBGR8888, fd, s.stride))
    ensures s.format == "YUV420" ==> r == Ok(PlanarLayout(s.width, s.height, YUV420, fd, s.stride))
  {
    if s.format == "XBGR8888" then Ok(PackedLayout(s.width, s.height, XBGR8888, fd, s.stride))
    else if s.format == "YUV420" then Ok(PlanarLayout(s.width, s.height, YUV420, fd, s.stride))
    else Err(UnboundFramebuffer(s.format))
  }

  /** The camera part of `render_drm`: with a request, the frame's
      framebuffer is cached under its buffer and the frame placed full-screen
      on every connector; without one, nothing is placed. */
  function VideoStage(o: Output, req: Option<Request>, s: Stream): (r: Result<(Output, seq<OutPlacement>), OutputError>)
    ensures req.None? ==> r == Ok((o, []))
    ensures req.Some? ==> (r.Ok? <==> s.format == "XBGR8888" || s.format == "YUV420")
    ensures r.Ok? && req.Some? ==> r.value.0 == o.(drmfbs := r.value.0.drmfbs) && req.value.buffer in r.value.0.drmfbs
    ensures r.Ok? && req.Some? ==> |r.value.1| == |o.conns|
    ensures r.Ok? ==> forall i :: 0 <= i < |r.value.1| ==> r.value.1[i].source.Camera?
  {
    if req.None? then Ok((o, []))
    else
      var layout :- FrameLayout(s, req.value.fd);
      Ok((o.(drmfbs := o.drmfbs[req.value.buffer := layout]), VideoPlacements(o.conns, layout, s)))
  }

  /** A commit of `k` camera planes followed by `n` overlay planes. */
  predicate CommitShape(c: seq<OutPlacement>, k: nat, n: nat) {
    && |c| == k + n
    && (forall i :: 0 <= i < k ==> c[i].source.Camera?)
    && (forall i :: k <= i < |c| ==> c[i].source.Overlay?)
  }

  lemma ConcatShape(video: seq<OutPlacement>, overlays: seq<OutPlacement>)
    requires forall i :: 0 <= i < |video| ==> video[i].source.Camera?
    requires forall pl :: pl in overlays ==> pl.source.Overlay?
    ensures CommitShape(video + overlays, |video|, |overlays|)
  {
    var c := video + overlays;
    forall i | |video| <= i < |c| ensures c[i].source.Overlay? {
      assert c[i] == overlays[i - |video|];
    }
  }

  /** `render_drm(picam2, completed_request)`: start what is not ready, then
      one commit with the camera frame on every connector (when there is a
      request) and one plane per dirty layer. Dirty flags are never cleared
      here. */
  function RenderDrm(o: Output, cam: Picamera2, req: Option<Request>, s: Stream, hw: Hardware): (r: Result<Output, OutputError>)
    ensures DisplayStream(o.displayStreamName, cam, req).None? ==> r == Err(NoDisplayStream)
    ensures r.Ok? <==> && DisplayStream(o.displayStreamName, cam, req).Some?
                       && StartAll(o.conns, s.format, hw).Ok?
                       && (req.Some? ==> FrameLayout(s, req.value.fd).Ok?)
                       && AllLayerPlacements(StartAll(o.conns, s.format, hw).value).Ok?
    ensures r.Ok? ==> StartAll(o.conns, s.format, hw) == Ok(r.value.conns)
    ensures r.Ok? ==> r.value.displayStreamName == DisplayStream(o.displayStreamName, cam, req)
    ensures r.Ok? ==> |r.value.conns| == |o.conns| && forall i :: 0 <= i < |o.conns| ==> r.value.conns[i].ready
    ensures r.Ok? ==> forall i :: 0 <= i < |o.conns| && o.conns[i].ready ==> r.value.conns[i] == o.conns[i]
    ensures r.Ok? ==> |r.value.commits| == |o.commits| + 1 && r.value.commits[..|o.commits|] == o.commits
    ensures r.Ok? ==> CommitShape(r.value.commits[|o.commits|], if req.Some? then |o.conns| else 0, DirtyTotal(r.value.conns))
    ensures r.Ok? && req.Some? ==> req.value.buffer in r.value.drmfbs
    ensures r.Ok? ==> r.value.slot == o.slot && r.value.frameLog == o.frameLog && r.value.nextFb == o.nextFb
    ensures req.Some? && r.Ok? ==> s.format == "XBGR8888" || s.format == "YUV420"
    ensures r.Ok? && req.Some? ==>
              && FrameLayout(s, req.value.fd).Ok?
              && r.value.drmfbs == o.drmfbs[req.value.buffer := FrameLayout(s, req.value.fd).value]
    ensures r.Ok? && req.None? ==> r.value.drmfbs == o.drmfbs
    ensures r.Ok? ==> AllLayerPlacements(r.value.conns).Ok?
    ensures r.Ok? ==>
              r.value.commits[|o.commits|]
              == (if req.Some? then VideoPlacements(r.value.conns, r.value.drmfbs[req.value.buffer], s) else [])
                 + AllLayerPlacements(r.value.conns).value
  {
    var name := DisplayStream(o.displayStreamName, cam, req);
    if name.None? then Err(NoDisplayStream)
    else
      var conns :- StartAll(o.conns, s.format, hw);
      var video :- VideoStage(o.(displayStreamName := name, conns := conns), req, s);
      var overlays :- AllLayerPlacements(conns);
      ConcatShape(video.1, overlays);
      Ok(video.0.(commits := video.0.commits + [video.1 + overlays]))
  }

  /** The layer state the output keeps consistent: a dirty layer has a
      framebuffer, and every layer has a position. */
  ghost predicate LayersOk(c: Connector) {
    && Count(c.numOverlays) <= |c.overlayPos|
    && (forall i :: i in c.overlayDirty && c.overlayDirty[i] ==> i in c.overlayFb && c.overlayFb[i].Some?)
    && (c.ready ==> Count(c.numOverlays) <= |c.overlay| && forall i :: 0 <= i < c.numOverlays ==> i in c.overlayDirty)
  }

  ghost predicate OutputOk(o: Output) {
    forall i :: 0 <= i < |o.conns| ==> LayersOk(o.conns[i])
  }

  /** `set_overlay(overlay, output, num)`: the layer's framebuffer is reused
      when it has the image's size and reallocated otherwise; the layer is
      always marked dirty. The output defaults to "DSI-1" and must exist. */
  function SetOverlay(o: Output, img: Image, output: Option<string>, num: int): (r: Result<Output, OutputError>)
    ensures var out := if output.None? then "DSI-1" else output.value;
            r.Err? <==> Find(o.conns, out).None?
    ensures r.Ok? ==> |r.value.conns| == |o.conns|
    ensures r.Ok? ==> var i := Find(o.conns, if output.None? then "DSI-1" else output.value).value;
                      var c := o.conns[i];
                      var realloc := num !in c.overlayFb || c.overlayFb[num].None?
                                   || c.overlayFb[num].value.width != img.width || c.overlayFb[num].value.height != img.height;
                      && r.value.conns[i].overlayDirty == c.overlayDirty[num := true]
                      && r.value.conns[i].overlayFb == c.overlayFb[num := Some(if realloc then DumbFb(o.nextFb, img.width, img.height)
                                                                               else c.overlayFb[num].value)]
                      && r.value.nextFb == o.nextFb + (if realloc then 1 else 0)
                      && r.value.conns == o.conns[i := c.(overlayFb := r.value.conns[i].overlayFb,
                                                          overlayDirty := r.value.conns[i].overlayDirty)]
    ensures r.Ok? ==> r.value == o.(conns := r.value.conns, nextFb := r.value.nextFb)
  {
    var out := if output.None? then "DSI-1" else output.value;
    var i := Find(o.conns, out);
    if i.None? then Err(NoConnector(out))
    else
      var c := o.conns[i.value];
      var realloc := num !in c.overlayFb || c.overlayFb[num].None?
                   || c.overlayFb[num].value.width != img.width || c.overlayFb[num].value.height != img.height;
      var fb := if realloc then DumbFb(o.nextFb, img.width, img.height) else c.overlayFb[num].value;
      var c1 := c.(overlayFb := c.overlayFb[num := Some(fb)], overlayDirty := c.overlayDirty[num := true]);
      Ok(o.(conns := o.conns[i.value := c1], nextFb := o.nextFb + (if realloc then 1 else 0)))
  }

  /** The framebuffer of an overlay is replaced exactly when the image's size
      changes (or there was none): a same-sized image reuses it. */
  lemma SetOverlayReuse(o: Output, img: Image, name: string, num: int)
    requires Find(o.conns, name).Some?
    ensures var c := o.conns[Find(o.conns, name).value];
            var c1 := SetOverlay(o, img, Some(name), num).value.conns[Find(o.conns, name).value];
            && c1.overlayFb[num].Some?
            && c1.overlayFb[num].value.width == img.width && c1.overlayFb[num].value.height == img.height
            && (c1.overlayFb == c.overlayFb <==>
                  (num in c.overlayFb && c.overlayFb[num].Some? && c.overlayFb[num].value.width == img.width
                   && c.overlayFb[num].value.height == img.height))
  {
    var i := Find(o.conns, name).value;
    var c := o.conns[i];
    var c1 := SetOverlay(o, img, Some(name), num).value.conns[i];
    if c1.overlayFb == c.overlayFb {
      assert c1.overlayFb[num] == c.overlayFb[num];
    }
  }

  /** `set_overlay` and `overlay_position` keep the layer state consistent. */
  lemma SetOverlayKeepsLayersOk(o: Output, img: Image, output: Option<string>, num: int)
    requires OutputOk(o)
    requires SetOverlay(o, img, output, num).Ok?
    ensures OutputOk(SetOverlay(o, img, output, num).value)
  {
    var o1 := SetOverlay(o, img, output, num).value;
    var j := Find(o.conns, if output.None? then "DSI-1" else output.value).value;
    forall i | 0 <= i < |o1.conns| ensures LayersOk(o1.conns[i]) {
      if i == j {
        assert LayersOk(o.conns[i]);
      } else {
        assert o1.conns[i] == o.conns[i];
      }
    }
  }

  lemma OverlayPositionKeepsLayersOk(c: Connector, idx: int, x: int, y: int, w: int, h: int)
    requires LayersOk(c)
    requires OverlayPosition(c, idx, x, y, w, h).Ok?
    ensures LayersOk(OverlayPosition(c, idx, x, y, w, h).value)
  {
  }

  /** `start` keeps the layer state consistent. */
  lemma StartKeepsLayersOk(c: Connector, format: string, hw: Hardware)
    requires LayersOk(c)
    requires Start(c, format, hw).Ok?
    ensures LayersOk(Start(c, format, hw).value)
  {
  }

  /** On a consistent output, a frame in a supported format always renders,
      provided the hardware offers every layer of a connector not yet
      started. */
  lemma {:induction false} LayersRender(cs: seq<Connector>)
    requires forall i :: 0 <= i < |cs| ==> LayersOk(cs[i]) && cs[i].ready
    ensures AllLayerPlacements(cs).Ok?
  {
    if |cs| > 0 {
      LayerPlacementsOk(cs[0], 0);
      LayersRender(cs[1..]);
    }
  }

  lemma {:induction false} LayerPlacementsOk(c: Connector, from: int)
    requires LayersOk(c) && c.ready && from >= 0
    decreases c.numOverlays - from
    ensures LayerPlacements(c, from).Ok?
  {
    if from < c.numOverlays {
      LayerPlacementsOk(c, from + 1);
    }
  }

  /** A connector `render_drm` can start: one already started, or one whose
      every layer the resource manager offers. */
  predicate Startable(c: Connector, hw: Hardware) {
    c.ready || forall j :: 0 <= j < c.numOverlays ==> hw.layer(c.name, j).Some?
  }

  /** The first loop of `render_drm` fails only on a connector it cannot
      start. */
  lemma {:induction false} StartAllOk(cs: seq<Connector>, format: string, hw: Hardware)
    requires forall i :: 0 <= i < |cs| ==> Startable(cs[i], hw)
    ensures StartAll(cs, format, hw).Ok?
  {
    if |cs| > 0 {
      assert Startable(cs[0], hw);
      StartAllOk(cs[1..], format, hw);
    }
  }

  /** Starting the connectors keeps each one's layer state consistent. */
  lemma StartAllKeepsLayersOk(cs: seq<Connector>, format: string, hw: Hardware)
    requires forall i :: 0 <= i < |cs| ==> LayersOk(cs[i])
    requires StartAll(cs, format, hw).Ok?
    ensures forall i :: 0 <= i < |cs| ==> LayersOk(StartAll(cs, format, hw).value[i])
  {
    var conns := StartAll(cs, format, hw).value;
    forall i | 0 <= i < |cs| ensures LayersOk(conns[i]) {
      assert StartOne(cs[i], format, hw) == Ok(conns[i]);
      if !cs[i].ready {
        StartKeepsLayersOk(cs[i], format, hw);
      }
    }
  }

  /** A new output is consistent. */
  lemma NewOutputOk(width: int, height: int)
    ensures OutputOk(NewOutput(width, height)) && NewOutput(width, height).conns == []
  {
  }

  /** `use_output` keeps the output consistent: the fresh connector has a
      position for every layer and no dirty flag. */
  lemma UseOutputKeepsOutputOk(o: Output, name: string, crtc: Handle, width: Option<int>, height: Option<int>, overlays: int)
    requires OutputOk(o)
    ensures LayersOk(UseOutput(o, name, crtc, width, height, overlays).1)
    ensures OutputOk(UseOutput(o, name, crtc, width, height, overlays).0)
  {
    var (o1, c) := UseOutput(o, name, crtc, width, height, overlays);
    assert LayersOk(c);
    forall i | 0 <= i < |o1.conns| ensures LayersOk(o1.conns[i]) {
      var j := Find(o.conns, name);
      if j.Some? && i != j.value {
        assert o1.conns[i] == o.conns[i];
      } else if j.None? && i < |o.conns| {
        assert o1.conns[i] == o.conns[i];
      }
    }
  }

  /** `render_drm` keeps the output consistent. */
  lemma RenderKeepsOutputOk(o: Output, cam: Picamera2, req: Option<Request>, s: Stream, hw: Hardware)
    requires OutputOk(o)
    requires RenderDrm(o, cam, req, s, hw).Ok?
    ensures OutputOk(RenderDrm(o, cam, req, s, hw).value)
  {
    StartAllKeepsLayersOk(o.conns, s.format, hw);
  }

  /** On a consistent output, a frame in a format the output knows always
      renders, provided every connector not yet started can be. */
  lemma RenderSucceeds(o: Output, cam: Picamera2, req: Option<Request>, s: Stream, hw: Hardware)
    requires OutputOk(o)
    requires forall i :: 0 <= i < |o.conns| ==> Startable(o.conns[i], hw)
    requires DisplayStream(o.displayStreamName, cam, req).Some?
    requires req.Some? ==> s.format == "XBGR8888" || s.format == "YUV420"
    ensures RenderDrm(o, cam, req, s, hw).Ok?
  {
    StartAllOk(o.conns, s.format, hw);
    StartAllKeepsLayersOk(o.conns, s.format, hw);
    LayersRender(StartAll(o.conns, s.format, hw).value);
  }

  /** A dirty layer stays dirty: a second `render_drm` re-sends exactly the
      same number of overlay planes as the first. */
  lemma RenderKeepsDirtyLayers(o: Output, cam: Picamera2, req: Option<Request>, s: Stream, hw: Hardware)
    requires RenderDrm(o, cam, req, s, hw).Ok?
    ensures var o1 := RenderDrm(o, cam, req, s, hw).value;
            && (forall i :: 0 <= i < |o1.conns| ==>
                  o1.conns[i].overlayDirty == StartAll(o.conns, s.format, hw).value[i].overlayDirty)
            && RenderDrm(o1, cam, req, s, hw).Ok?
            && |RenderDrm(o1, cam, req, s, hw).value.commits[|o1.commits|]| == |o1.commits[|o.commits|]|
  {
    var o1 := RenderDrm(o, cam, req, s, hw).value;
    var conns := StartAll(o.conns, s.format, hw).value;
    assert o1.conns == conns;
    assert StartAll(conns, s.format, hw) == Ok(conns) by {
      StartAllReady(conns, s.format, hw);
    }
    assert DisplayStream(o1.displayStreamName, cam, req) == DisplayStream(o.displayStreamName, cam, req);
  }

  /** Starting connectors that are all ready changes nothing. */
  lemma {:induction false} StartAllReady(cs: seq<Connector>, format: string, hw: Hardware)
    requires forall i :: 0 <= i < |cs| ==> cs[i].ready
    ensures StartAll(cs, format, hw) == Ok(cs)
  {
    if |cs| > 0 {
      StartAllReady(cs[1..], format, hw);
      assert [cs[0]] + cs[1..] == cs;
    }
  }

  /** `render_request(completed_request)`: as in the multi-output preview,
      render first, then hand back the previous frame and hold the new one. */
  function RenderRequest(o: Output, cam: Picamera2, req: Request, s: Stream, hw: Hardware): (r: Result<Output, OutputError>)
    ensures r.Ok? <==> RenderDrm(o, cam, Some(req), s, hw).Ok?
    ensures r.Ok? ==> r.value.slot == Replace(o.slot, req.id, req.bufferCount).0
    ensures r.Ok? ==> r.value.frameLog == o.frameLog + Replace(o.slot, req.id, req.bufferCount).1
    ensures r.Ok? ==> |r.value.commits| == |o.commits| + 1
    ensures r.Ok? ==> r.value == RenderDrm(o, cam, Some(req), s, hw).value.(slot := r.value.slot, frameLog := r.value.frameLog)
  {
    var o1 :- RenderDrm(o, cam, Some(req), s, hw);
    var (slot, ops) := Replace(o1.slot, req.id, req.bufferCount);
    Ok(o1.(slot := slot, frameLog := o1.frameLog + ops))
  }

  /** The displayed frame's reference count stays exact. */
  lemma RenderRequestKeepsCountsExact(o: Output, cam: Picamera2, req: Request, s: Stream, hw: Hardware)
    requires Consistent(o.slot, o.frameLog)
    requires RenderRequest(o, cam, req, s, hw).Ok?
    ensures var o1 := RenderRequest(o, cam, req, s, hw).value;
            Consistent(o1.slot, o1.frameLog)
  {
    ReplaceKeepsCountsExact(o.slot, o.frameLog, req.id, req.bufferCount);
  }
}

=== FILE: edid.dfy ===
/** mycam/edid.py: the manufacturer id and the camera id that an HDMI
    capture device announces in its EDID. */
module Edid {
  import opened Common

  /** `EdidInfo`: every field starts as `None`. */
  datatype EdidInfo = EdidInfo(vendor: Option<string>, cec: Option<bv8>, cameraId: Option<bv8>)

  datatype EdidError =
    | StructError         // `struct.unpack('>H', ...)` given fewer than two bytes
    | IndexError(at: nat) // a byte read past the end of the EDID

  /** The letter for a 5-bit code: 1 is 'A', 26 is 'Z', 0 is '@'. */
  function Letter(code: bv16): (c: char)
    requires code < 32
    ensures '@' <= c <= '_'
  {
    ((code as int) + 64) as char
  }

  /** The code of a letter from '@' to '_'. */
  function Code(c: char): (code: bv16)
    requires '@' <= c <= '_'
    ensures code < 32 && Letter(code) == c
  {
    var k := c as int - 64;
    assert 0 <= k < 32;
    var code := k as bv16;
    assert code as int == k;
    code
  }

  lemma LetterInjective(a: bv16, b: bv16)
    requires a < 32 && b < 32
    ensures Letter(a) == Letter(b) <==> a == b
  {
  }

  /** The two id bytes as the big-endian 16-bit word `struct.unpack('>H')`
      gives. */
  function Word(hi: bv8, lo: bv8): bv16 {
    ((hi as bv16) << 8) | (lo as bv16)
  }

  /** The manufacturer id packed in two bytes, read as the source reads it.
      The third letter takes bits 0-4; the second takes bits 5-8 and the
      first bits 10-13, each with a 4-bit mask. */
  function StrCode(hi: bv8, lo: bv8): (name: string)
    ensures |name| == 3
    ensures forall i :: 0 <= i < 3 ==> '@' <= name[i] <= '_'
  {
    var v := Word(hi, lo);
    [Letter((v >> 10) & 0xF), Letter((v >> 5) & 0xF), Letter(v & 0x1F)]
  }

  /** The layout of the id field in the E-EDID standard (section 3.4.1 of
      VESA E-EDID): bit 15 zero, then three 5-bit letter codes. */
  function VesaName(hi: bv8, lo: bv8): (name: string)
    ensures |name| == 3
  {
    var v := Word(hi, lo);
    [Letter((v >> 10) & 0x1F), Letter((v >> 5) & 0x1F), Letter(v & 0x1F)]
  }

  /** Three letters, '@' to '_'. */
  predicate IdLetters(name: string) {
    |name| == 3 && forall i :: 0 <= i < 3 ==> '@' <= name[i] <= '_'
  }

  /** Three 5-bit codes packed as the standard lays them out, split into
      the two bytes stored big-endian. */
  function Pack(a: bv16, b: bv16, c: bv16): (r: (bv8, bv8))
    requires a < 32 && b < 32 && c < 32
    ensures var w := Word(r.0, r.1);
            w & 0x1F == c && (w >> 5) & 0x1F == b && (w >> 10) & 0x1F == a && w >> 15 == 0
  {
    var v := (a << 10) | (b << 5) | c;
    ((v >> 8) as bv8, (v & 0xFF) as bv8)
  }

  /** The two bytes that hold `name` under the standard's layout. */
  function EncodeVendor(name: string): (b: (bv8, bv8))
    requires IdLetters(name)
  {
    Pack(Code(name[0]), Code(name[1]), Code(name[2]))
  }

  lemma DecodeEncoded(name: string)
    requires IdLetters(name)
    ensures var v := Word(EncodeVendor(name).0, EncodeVendor(name).1);
            && v & 0x1F == Code(name[2]) && (v >> 5) & 0x1F == Code(name[1]) && (v >> 10) & 0x1F == Code(name[0])
            && v >> 15 == 0
  {
  }

  /** Under the standard's layout, encoding then decoding gives the id
      back. */
  lemma VesaRoundTrip(name: string)
    requires IdLetters(name)
    ensures VesaName(EncodeVendor(name).0, EncodeVendor(name).1) == name
  {
    DecodeEncoded(name);
  }

  /** Reading packed codes with the source's masks gives their letters back
      exactly when the first two codes fit in four bits. */
  lemma StrCodeOfPack(a: bv16, b: bv16, c: bv16)
    requires a < 32 && b < 32 && c < 32
    ensures StrCode(Pack(a, b, c).0, Pack(a, b, c).1) == [Letter(a), Letter(b), Letter(c)] <==> a < 16 && b < 16
  {
    var p := Pack(a, b, c);
    PackVesa(a, b, c);
    StrCodeMatchesVesa(p.0, p.1);
    PackHighBits(a, b, c);
  }

  /** Under the standard's layout, unpacking three codes gives their letters. */
  lemma PackVesa(a: bv16, b: bv16, c: bv16)
    requires a < 32 && b < 32 && c < 32
    ensures VesaName(Pack(a, b, c).0, Pack(a, b, c).1) == [Letter(a), Letter(b), Letter(c)]
  {
  }

  /** Bits 14 and 9 of a packed id are the top bits of its first two codes. */
  lemma PackHighBits(a: bv16, b: bv16, c: bv16)
    requires a < 32 && b < 32 && c < 32
    ensures Word(Pack(a, b, c).0, Pack(a, b, c).1) & 0x4200 == 0 <==> a < 16 && b < 16
  {
  }

  /** The source's 4-bit masks read an encoded id correctly exactly when
      neither of its first two letters lies past 'O'. */
  lemma StrCodeRoundTrip(name: string)
    requires IdLetters(name)
    ensures StrCode(EncodeVendor(name).0, EncodeVendor(name).1) == name <==> name[0] <= 'O' && name[1] <= 'O'
  {
    var a, b, c := Code(name[0]), Code(name[1]), Code(name[2]);
    StrCodeOfPack(a, b, c);
    assert name == [Letter(a), Letter(b), Letter(c)];
    CodeBelow16(name[0]);
    CodeBelow16(name[1]);
  }

  /** The letters up to 'O' are the ones with a code below 16. */
  lemma CodeBelow16(ch: char)
    requires '@' <= ch <= '_'
    ensures ch <= 'O' <==> Code(ch) < 16
  {
    var code := Code(ch);
    assert code as int == ch as int - 64;
  }

  /** The two decoders agree on a pair of bytes exactly when bits 9 and 14
      are clear: the bits the 4-bit masks drop. */
  lemma StrCodeMatchesVesa(hi: bv8, lo: bv8)
    ensures StrCode(hi, lo) == VesaName(hi, lo) <==> Word(hi, lo) & 0x4200 == 0
  {
    var v := Word(hi, lo);
    var s := StrCode(hi, lo);
    var t := VesaName(hi, lo);
    LetterInjective((v >> 10) & 0xF, (v >> 10) & 0x1F);
    LetterInjective((v >> 5) & 0xF, (v >> 5) & 0x1F);
    assert (v >> 10) & 0xF == (v >> 10) & 0x1F <==> v & 0x4000 == 0;
    assert (v >> 5) & 0xF == (v >> 5) & 0x1F <==> v & 0x200 == 0;
    assert s == t <==> s[0] == t[0] && s[1] == t[1];
  }

  /** Samsung's id "SAM" reads as "CAM". */
  lemma SamsungReadsAsCam()
    ensures EncodeVendor("SAM") == (0x4C, 0x2D)
    ensures StrCode(0x4C, 0x2D) == "CAM"
    ensures VesaName(0x4C, 0x2D) == "SAM"
  {
  }

  /** `check_edid` on the first EDID file found, `None` when there is none.
      An empty EDID gives an empty `EdidInfo`. Otherwise the vendor comes
      from bytes 0x08-0x09. With exactly one extension block and vendor
      "HHA", the CEC byte at 0x9a is kept and its high nibble is the camera
      id. */
  function CheckEdid(edid: Option<seq<bv8>>): (r: Result<Option<EdidInfo>, EdidError>)
    ensures edid.None? ==> r == Ok(None)
    ensures edid.Some? && |edid.value| == 0 ==> r == Ok(Some(EdidInfo(None, None, None)))
    ensures edid.Some? && 0 < |edid.value| < 0x0A ==> r == Err(StructError)
    ensures edid.Some? && 0x0A <= |edid.value| <= 0x7e ==> r == Err(IndexError(0x7e))
    ensures edid.Some? && 0x7e < |edid.value| <= 0x9a ==>
              (r == Err(IndexError(0x9a)) <==> edid.value[0x7e] == 1 && StrCode(edid.value[8], edid.value[9]) == "HHA")
    ensures edid.Some? && |edid.value| > 0x7e ==>
              (r.Ok? <==> |edid.value| > 0x9a || edid.value[0x7e] != 1 || StrCode(edid.value[8], edid.value[9]) != "HHA")
    ensures edid.Some? && |edid.value| > 0x9a ==>
              && r.Ok? && r.value.Some?
              && (r.value.value.cameraId.Some? <==> StrCode(edid.value[8], edid.value[9]) == "HHA" && edid.value[0x7e] == 1)
    ensures r.Ok? && r.value.Some? && |edid.value| > 0 ==>
              r.value.value.vendor == Some(StrCode(edid.value[8], edid.value[9]))
    ensures r.Ok? && r.value.Some? ==> (r.value.value.cec.Some? <==> r.value.value.cameraId.Some?)
    ensures r.Ok? && r.value.Some? && r.value.value.cameraId.Some? ==>
              && |edid.value| > 0x9a
              && r.value.value.vendor == Some("HHA") && edid.value[0x7e] == 1
              && r.value.value.cec == Some(edid.value[0x9a])
              && r.value.value.cameraId.value == edid.value[0x9a] >> 4 < 16
  {
    if edid.None? then Ok(None)
    else
      var e := edid.value;
      if |e| == 0 then Ok(Some(EdidInfo(None, None, None)))
      else if |e| < 0x0A then Err(StructError)
      else
        var vendor := StrCode(e[0x08], e[0x09]);
        if |e| <= 0x7e then Err(IndexError(0x7e))
        else if e[0x7e] != 1 || vendor != "HHA" then Ok(Some(EdidInfo(Some(vendor), None, None)))
        else if |e| <= 0x9a then Err(IndexError(0x9a))
        else Ok(Some(EdidInfo(Some(vendor), Some(e[0x9a]), Some(e[0x9a] >> 4))))
  }

  /** The id bytes 0x61 0x01 encode "XHA", which the decoder reads as "HHA":
      an EDID with them and one extension block reports a camera id. */
  lemma XhaReadsAsHha(e: seq<bv8>)
    requires |e| > 0x9a && e[0x08] == 0x61 && e[0x09] == 0x01 && e[0x7e] == 1
    ensures VesaName(0x61, 0x01) == "XHA" && StrCode(0x61, 0x01) == "HHA"
    ensures CheckEdid(Some(e)) == Ok(Some(EdidInfo(Some("HHA"), Some(e[0x9a]), Some(e[0x9a] >> 4))))
  {
  }

  /** A full EDID whose id bytes encode `vendor`: the camera id is reported
      exactly when the vendor is "HHA" and there is one extension block. */
  lemma CameraIdReported(e: seq<bv8>, vendor: string)
    requires |e| > 0x9a && IdLetters(vendor) && vendor[0] <= 'O' && vendor[1] <= 'O'
    requires (e[0x08], e[0x09]) == EncodeVendor(vendor)
    ensures CheckEdid(Some(e)).Ok?
    ensures CheckEdid(Some(e)).value == Some(EdidInfo(Some(vendor), None, None))
            || CheckEdid(Some(e)).value == Some(EdidInfo(Some(vendor), Some(e[0x9a]), Some(e[0x9a] >> 4)))
    ensures CheckEdid(Some(e)).value.value.cameraId.Some? <==> vendor == "HHA" && e[0x7e] == 1
  {
    StrCodeRoundTrip(vendor);
  }
}

=== FILE: frame_ownership.dfy ===
/** Ownership of the camera frame on screen, shared by `render_request` and
    `stop` in mycam/multipreview.py and mycam/drmoutput.py: the displayed
    request is held by an extra reference only when the camera has more than
    one buffer, and that reference is given back once the next frame has been
    committed. */
module FrameOwnership {
  import opened Common

  type RequestId = nat

  /** The reference-count calls made on completed requests. */
  datatype FrameOp = Acquire(req: RequestId) | Release(req: RequestId)

  /** `current` and `own_current`. */
  datatype Slot = Slot(current: Option<RequestId>, ownCurrent: bool)

  const NoFrame: Slot := Slot(None, false)

  /** The tail of `render_request`, after `render_drm` has committed `req`:
      release the previous frame if it was owned, then hold `req` iff the
      camera has more than one buffer. */
  function Replace(s: Slot, req: RequestId, bufferCount: int): (r: (Slot, seq<FrameOp>))
    ensures r.0.current == Some(req)
    ensures r.0.ownCurrent <==> bufferCount > 1
    ensures Acquire(req) in r.1 <==> bufferCount > 1
    ensures forall q: RequestId :: Release(q) in r.1 <==> s.current == Some(q) && s.ownCurrent
    ensures forall i, j :: 0 <= i < j < |r.1| ==> r.1[i].Release? && r.1[j].Acquire?
  {
    var released := if s.current.Some? && s.ownCurrent then [Release(s.current.value)] else [];
    var acquired := if bufferCount > 1 then [Acquire(req)] else [];
    (Slot(Some(req), bufferCount > 1), released + acquired)
  }

  /** The part of `stop` that gives the displayed frame back. */
  function Drop(s: Slot): (r: (Slot, seq<FrameOp>))
    ensures r.0 == NoFrame
    ensures forall q: RequestId :: Release(q) in r.1 <==> s.current == Some(q) && s.ownCurrent
    ensures forall i :: 0 <= i < |r.1| ==> r.1[i].Release?
  {
    (NoFrame, if s.current.Some? && s.ownCurrent then [Release(s.current.value)] else [])
  }

  function Delta(op: FrameOp, req: RequestId): int {
    match op
    case Acquire(q) => if q == req then 1 else 0
    case Release(q) => if q == req then -1 else 0
  }

  /** Extra references on `req` taken minus given back over a log of calls. */
  function Held(log: seq<FrameOp>, req: RequestId): int {
    if |log| == 0 then 0 else Held(log[..|log| - 1], req) + Delta(log[|log| - 1], req)
  }

  lemma {:induction false} HeldAppend(log: seq<FrameOp>, ops: seq<FrameOp>, req: RequestId)
    ensures Held(log + ops, req) == Held(log, req) + Held(ops, req)
    decreases |ops|
  {
    if |ops| > 0 {
      assert (log + ops)[..|log + ops| - 1] == log + ops[..|ops| - 1];
      assert (log + ops)[|log + ops| - 1] == ops[|ops| - 1];
      HeldAppend(log, ops[..|ops| - 1], req);
    } else {
      assert log + ops == log;
    }
  }

  lemma HeldOfShortLogs(a: FrameOp, b: FrameOp, req: RequestId)
    ensures Held([], req) == 0
    ensures Held([a], req) == Delta(a, req)
    ensures Held([a, b], req) == Delta(a, req) + Delta(b, req)
  {
    assert [a, b][..1] == [a];
    assert [a][..0] == [];
  }

  /** The slot matches the log: exactly the displayed, owned request holds
      one extra reference, and every other request holds none. */
  ghost predicate Consistent(s: Slot, log: seq<FrameOp>) {
    forall q: RequestId :: Held(log, q) == (if s.current == Some(q) && s.ownCurrent then 1 else 0)
  }

  /** What the calls of `Replace` do to the count of each request. */
  lemma HeldOfReplace(s: Slot, req: RequestId, bufferCount: int, q: RequestId)
    ensures Held(Replace(s, req, bufferCount).1, q)
         == (if bufferCount > 1 && q == req then 1 else 0) - (if s.current == Some(q) && s.ownCurrent then 1 else 0)
  {
    var ops := Replace(s, req, bufferCount).1;
    if s.current.Some? && s.ownCurrent {
      var rel := Release(s.current.value);
      HeldOfShortLogs(rel, Acquire(req), q);
      if bufferCount > 1 {
        assert ops == [rel, Acquire(req)];
      } else {
        assert ops == [rel];
      }
    } else {
      HeldOfShortLogs(Acquire(req), Acquire(req), q);
      if bufferCount > 1 {
        assert ops == [Acquire(req)];
      } else {
        assert ops == [];
      }
    }
  }

  /** `render_request` keeps the reference counts exact: the previous frame
      is given back once and the new one is held at most once. */
  lemma ReplaceKeepsCountsExact(s: Slot, log: seq<FrameOp>, req: RequestId, bufferCount: int)
    requires Consistent(s, log)
    ensures Consistent(Replace(s, req, bufferCount).0, log + Replace(s, req, bufferCount).1)
  {
    var r := Replace(s, req, bufferCount);
    forall q: RequestId
      ensures Held(log + r.1, q) == (if r.0.current == Some(q) && r.0.ownCurrent then 1 else 0)
    {
      HeldAppend(log, r.1, q);
      HeldOfReplace(s, req, bufferCount, q);
      assert Held(log, q) == (if s.current == Some(q) && s.ownCurrent then 1 else 0);
    }
  }

  /** After `stop`, no request holds an extra reference. */
  lemma DropReleasesEverything(s: Slot, log: seq<FrameOp>)
    requires Consistent(s, log)
    ensures forall q: RequestId :: Held(log + Drop(s).1, q) == 0
  {
    forall q: RequestId ensures Held(log + Drop(s).1, q) == 0 {
      HeldAppend(log, Drop(s).1, q);
      if s.current.Some? {
        HeldOfShortLogs(Release(s.current.value), Release(s.current.value), q);
      }
    }
  }

  /** A release is only ever issued for a request that holds a reference. */
  lemma ReleaseOnlyWhatIsHeld(s: Slot, log: seq<FrameOp>, req: RequestId, bufferCount: int, q: RequestId)
    requires Consistent(s, log)
    requires Release(q) in Replace(s, req, bufferCount).1 || Release(q) in Drop(s).1
    ensures Held(log, q) == 1
  {
  }
}

=== FILE: framebuffers.dfy ===
/** Display-side vocabulary shared by mycam/multipreview.py and
    mycam/drmoutput.py: pixel formats, rectangles, the memory layout of a
    camera framebuffer, and the planes an atomic commit places. Hardware
    objects (planes, CRTCs, file descriptors) are opaque handles. */
module Framebuffers {
  import opened Common

  type Handle = nat

  datatype PixelFormat = RGB888 | BGR888 | XRGB8888 | XBGR8888 | YUV420 | YVU420 | ABGR8888

  /** `MultiPreview.FMT_MAP`: the camera formats the preview can show. MJPEG
      frames are decoded to BGR888 before display. */
  function FormatFor(name: string): (r: Option<PixelFormat>)
    ensures r.Some? <==> name in ["RGB888", "BGR888", "XRGB8888", "XBGR8888", "YUV420", "YVU420", "MJPEG"]
    ensures name == "MJPEG" ==> r == Some(BGR888)
    ensures r != Some(ABGR8888)
  {
    match name
    case "RGB888" => Some(RGB888)
    case "BGR888" => Some(BGR888)
    case "XRGB8888" => Some(XRGB8888)
    case "XBGR8888" => Some(XBGR8888)
    case "YUV420" => Some(YUV420)
    case "YVU420" => Some(YVU420)
    case "MJPEG" => Some(BGR888)
    case _ => None
  }

  /** The format's own name, as the camera reports it. */
  function NameOf(f: PixelFormat): string {
    match f
    case RGB888 => "RGB888"
    case BGR888 => "BGR888"
    case XRGB8888 => "XRGB8888"
    case XBGR8888 => "XBGR8888"
    case YUV420 => "YUV420"
    case YVU420 => "YVU420"
    case ABGR8888 => "ABGR8888"
  }

  /** Every camera format maps to itself by name; only the overlay format
      ABGR8888 is not a camera format. */
  lemma FormatForNames(f: PixelFormat)
    ensures f != ABGR8888 <==> FormatFor(NameOf(f)) == Some(f)
  {
  }

  datatype Rect = Rect(x: int, y: int, w: int, h: int)

  /** A framebuffer over camera memory: per plane a file descriptor, a stride
      and a byte offset. */
  datatype FbLayout = FbLayout(
    width: int, height: int, format: PixelFormat,
    fds: seq<int>, strides: seq<int>, offsets: seq<int>)

  /** One plane at offset 0 (packed RGB formats). */
  function PackedLayout(width: int, height: int, format: PixelFormat, fd: int, stride: int): (f: FbLayout)
    ensures |f.fds| == |f.strides| == |f.offsets| == 1
    ensures f.fds[0] == fd && f.strides[0] == stride && f.offsets[0] == 0
    ensures f.width == width && f.height == height && f.format == format
  {
    FbLayout(width, height, format, [fd], [stride], [0])
  }

  /** Planar 4:2:0 in one buffer: the luma plane, then two chroma planes at
      half the stride and half the rows (`//`, so odd sizes round down). */
  function PlanarLayout(width: int, height: int, format: PixelFormat, fd: int, stride: int): (f: FbLayout)
    ensures |f.fds| == |f.strides| == |f.offsets| == 3
    ensures f.fds == [fd, fd, fd]
    ensures f.width == width && f.height == height && f.format == format
  {
    var chromaStride := FloorDiv(stride, 2);
    var lumaSize := height * stride;
    FbLayout(width, height, format, [fd, fd, fd], [stride, chromaStride, chromaStride],
             [0, lumaSize, lumaSize + FloorDiv(height, 2) * chromaStride])
  }

  /** How many rows plane `p` of a planar 4:2:0 frame has. */
  function PlanarRows(height: int, p: nat): int {
    if p == 0 then height else FloorDiv(height, 2)
  }

  lemma RowBelow(base: int, row: nat, rows: nat, stride: nat, col: nat)
    requires row < rows && col < stride
    ensures base <= base + row * stride + col < base + rows * stride
  {
    MulMonotone(row + 1, rows, stride);
    assert (row + 1) * stride == row * stride + stride;
  }

  /** The planes of a planar frame tile the buffer: byte `col` of row `row`
      of plane `p` lies at or after the plane's offset and before the next
      plane's offset, so no plane overwrites another. */
  lemma PlanarPlanesDisjoint(width: int, height: nat, format: PixelFormat, fd: int, stride: nat,
                             p: nat, row: int, col: int)
    requires p < 3
    requires 0 <= row < PlanarRows(height, p)
    requires 0 <= col < PlanarLayout(width, height, format, fd, stride).strides[p]
    ensures var f := PlanarLayout(width, height, format, fd, stride);
            var at := f.offsets[p] + row * f.strides[p] + col;
            f.offsets[p] <= at && (p < 2 ==> at < f.offsets[p + 1])
  {
    var f := PlanarLayout(width, height, format, fd, stride);
    RowBelow(f.offsets[p], row, PlanarRows(height, p), f.strides[p], col);
  }

  /** A framebuffer written by the user interface into its own memory
      (`DumbFramebuffer`, format "AB24"); `id` is its identity. */
  datatype DumbFb = DumbFb(id: nat, width: int, height: int)

  datatype Source = Camera(layout: FbLayout) | Overlay(fb: DumbFb)

  /** One `AtomicReq.add_plane` call: plane, framebuffer, CRTC, source and
      destination rectangles. */
  datatype Placement = Placement(plane: Option<Handle>, source: Source, crtc: Option<Handle>, src: Rect, dst: Rect)

  /** The planes of one `commit_sync`, in the order they were added. */
  type Commit = seq<Placement>

  // ---------------------------------------------------------------------
  // The camera side, as far as the previews read it (picamera2 objects).

  /** The configuration of the stream shown: `pixel_format`, `size`, `stride`. */
  datatype Stream = Stream(format: string, width: int, height: int, stride: int)

  /** A completed request: its id, `config['display']`,
      `config['buffer_count']`, the buffer of the displayed stream and that
      buffer's first plane descriptor. */
  datatype Request = Request(id: nat, display: string, bufferCount: int, buffer: nat, fd: int)

  datatype CameraConfig = CameraConfig(bufferCount: int)

  /** The `Picamera2` object: its configuration (`None` when not configured),
      `display_stream_name` and `stop_count`. */
  datatype Picamera2 = Picamera2(config: Option<CameraConfig>, displayStreamName: Option<string>, stopCount: int)

  /** An overlay image: `overlay.shape` is (height, width, channels), a PIL
      image's `size` is (width, height). */
  datatype Image = Image(width: int, height: int)

  /** The stream `render_drm` shows: the request's display stream, else the
      one the preview remembers, else the camera's. */
  function DisplayStream(remembered: Option<string>, cam: Picamera2, req: Option<Request>): Option<string> {
    if req.Some? then Some(req.value.display)
    else if remembered.None? then cam.displayStreamName
    else remembered
  }
}

=== FILE: ipc_client.dfy ===
/** lib/ipc/client.go: the commands the API process sends to the sensor
    control socket. Each is one packet: an opcode byte, then the argument in
    little-endian order. */
module IpcClient {
  import opened Common
  import LittleEndian

  /** The commands; a float argument is carried as its IEEE-754 bits. */
  datatype Command =
    | RequestState
    | EnableAutoExposure(enabled: bool)
    | EnableAutoWhitebalance(enabled: bool)
    | DoAutoWhitebalance
    | SetTally(tally: byte)
    | SetGain(gain: byte)
    | SetShutter(shutter: u16)
    | SetFps(fps: byte)
    | SetExposureCompensation(bits: u32)

  function Opcode(c: Command): byte {
    match c
    case RequestState => 0x01
    case EnableAutoExposure(_) => 0x02
    case EnableAutoWhitebalance(_) => 0x03
    case DoAutoWhitebalance => 0x04
    case SetTally(_) => 0x05
    case SetGain(_) => 0x06
    case SetShutter(_) => 0x07
    case SetFps(_) => 0x08
    case SetExposureCompensation(_) => 0x09
  }

  /** The packet a command writes. A flag is one byte, 1 or 0; the shutter
      is two bytes and the exposure compensation four, low byte first. */
  function Payload(c: Command): (p: seq<byte>)
    ensures |p| >= 1 && p[0] == Opcode(c)
    ensures |p| == match c
                   case RequestState => 1
                   case DoAutoWhitebalance => 1
                   case SetShutter(_) => 3
                   case SetExposureCompensation(_) => 5
                   case _ => 2
  {
    match c
    case RequestState => [0x01]
    case EnableAutoExposure(e) => [0x02, Bit(e)]
    case EnableAutoWhitebalance(e) => [0x03, Bit(e)]
    case DoAutoWhitebalance => [0x04]
    case SetTally(t) => [0x05, t]
    case SetGain(g) => [0x06, g]
    case SetShutter(s) => [0x07] + LittleEndian.Encode(s, 2)
    case SetFps(f) => [0x08, f]
    case SetExposureCompensation(b) => [0x09] + LittleEndian.Encode(b, 4)
  }

  /** A flag byte as the receiving side should read it: only 0 and 1 are
      flags. */
  function Flag(b: byte): Option<bool> {
    if b == 0 then Some(false) else if b == 1 then Some(true) else None
  }

  /** The reading of a packet that accepts exactly the packets `Payload`
      writes: the opcode, then an argument of exactly the opcode's size. */
  function Parse(p: seq<byte>): (r: Option<Command>)
    ensures r.Some? ==> |p| >= 1 && p[0] == Opcode(r.value)
  {
    if |p| == 0 then None
    else
      var arg := p[1..];
      match p[0]
      case 0x01 => if |arg| == 0 then Some(RequestState) else None
      case 0x02 => if |arg| == 1 && Flag(arg[0]).Some? then Some(EnableAutoExposure(Flag(arg[0]).value)) else None
      case 0x03 => if |arg| == 1 && Flag(arg[0]).Some? then Some(EnableAutoWhitebalance(Flag(arg[0]).value)) else None
      case 0x04 => if |arg| == 0 then Some(DoAutoWhitebalance) else None
      case 0x05 => if |arg| == 1 then Some(SetTally(arg[0])) else None
      case 0x06 => if |arg| == 1 then Some(SetGain(arg[0])) else None
      case 0x07 => if |arg| == 2 then Some(SetShutter(LittleEndian.Decode(arg))) else None
      case 0x08 => if |arg| == 1 then Some(SetFps(arg[0])) else None
      case 0x09 => if |arg| == 4 then Some(SetExposureCompensation(LittleEndian.Decode(arg))) else None
      case _ => None
  }

  /** Every command's packet reads back as that command. */
  lemma ParsePayload(c: Command)
    ensures Parse(Payload(c)) == Some(c)
  {
    match c
    case SetShutter(s) =>
      LittleEndian.DecodeEncode(s, 2);
      assert Payload(c)[1..] == LittleEndian.Encode(s, 2);
    case SetExposureCompensation(b) =>
      LittleEndian.DecodeEncode(b, 4);
      assert Payload(c)[1..] == LittleEndian.Encode(b, 4);
    case _ =>
  }

  /** The reading accepts nothing but the packets commands write. */
  lemma PayloadOfParse(p: seq<byte>)
    requires Parse(p).Some?
    ensures Payload(Parse(p).value) == p
  {
    var arg := p[1..];
    if p[0] == 0x07 || p[0] == 0x09 {
      LittleEndian.EncodeDecode(arg);
    }
    assert p == [p[0]] + arg;
  }

  /** Different commands never share a packet. */
  lemma PayloadInjective(a: Command, b: Command)
    ensures Payload(a) == Payload(b) ==> a == b
  {
    ParsePayload(a);
    ParsePayload(b);
  }
}

=== FILE: little_endian.dfy ===
/** Unsigned integers as little-endian bytes, as Go's `encoding/binary`
    writes and reads them with `binary.LittleEndian`. */
module LittleEndian {
  import opened Common

  function Pow256(k: nat): (p: nat)
    ensures p >= 1
  {
    if k == 0 then 1 else 256 * Pow256(k - 1)
  }

  /** `binary.Write` of a `k`-byte unsigned integer: least significant
      byte first. */
  function Encode(n: nat, k: nat): (bs: seq<byte>)
    ensures |bs| == k
  {
    if k == 0 then [] else [n % 256] + Encode(n / 256, k - 1)
  }

  /** `binary.Read` of an unsigned integer from exactly its bytes. */
  function Decode(bs: seq<byte>): (n: nat)
    ensures n < Pow256(|bs|)
  {
    if |bs| == 0 then 0 else bs[0] + 256 * Decode(bs[1..])
  }

  lemma {:induction false} DecodeEncode(n: nat, k: nat)
    requires n < Pow256(k)
    ensures Decode(Encode(n, k)) == n
    decreases k
  {
    if k > 0 {
      DecodeEncode(n / 256, k - 1);
      assert Encode(n, k)[1..] == Encode(n / 256, k - 1);
    }
  }

  lemma {:induction false} EncodeDecode(bs: seq<byte>)
    ensures Encode(Decode(bs), |bs|) == bs
    decreases |bs|
  {
    if |bs| > 0 {
      EncodeDecode(bs[1..]);
      assert Decode(bs) / 256 == Decode(bs[1..]);
    }
  }
}

=== FILE: multipreview.dfy ===
/** The DRM preview of mycam/multipreview.py: one camera stream shown on two
    outputs at once, with an optional overlay image per output. Hardware
    objects are opaque handles; what the resource manager offers is a
    parameter (`Hardware`); every `commit_sync` is appended to `commits`.
    A raised exception is an `Err`, and the state it leaves behind is not
    kept. */
module MultiPreview {
  import opened Common
  import opened Framebuffers
  import opened FrameOwnership

  const Hdmi: string := "HDMI-A-1"
  const Dsi: string := "DSI-1"

  /** `MultiPreview.OUTPUTS`, in the order every loop visits them. */
  const Outputs: seq<string> := [Hdmi, Dsi]

  datatype PreviewError =
    | ZeroDivision
    | UnsupportedFormat(format: string)
    | NoPlane
    | KeyError(key: string)
    | NoResourceManager
    | MissingMjpegBuffer
    | NoDisplayStream
    | NotStarted
    | NotConfigured
    | TooFewBuffers

  /** `d[k]`, raising `KeyError` when the key is absent. */
  function Get<V>(m: map<string, V>, k: string): (r: Result<V, PreviewError>)
    ensures r.Ok? <==> k in m
    ensures r.Ok? ==> r.value == m[k]
    ensures r.Err? ==> r.error == KeyError(k)
  {
    if k in m then Ok(m[k]) else Err(KeyError(k))
  }

  // ---------------------------------------------------------------------
  // DrmManager: one card shared by every preview, counted by use.

  /** `DrmManager`. `cardsCreated` counts `pykms.Card()` calls and names the
      next card. Connectors are left out; only the CRTC map is kept. */
  datatype Manager = Manager(useCount: int, card: Option<Handle>, cardsCreated: nat, crtc: map<string, Handle>)

  const Idle: Manager := Manager(0, None, 0, map[])

  /** A manager whose count is in use has a card. */
  predicate ManagerOk(m: Manager) {
    m.useCount >= 0 && (m.useCount > 0 ==> m.card.Some?)
  }

  /** What the resource manager offers on an output's CRTC:
      `reserve_overlay_plane` and `reserve_plane(type=Primary)` for a format. */
  datatype Hardware = Hardware(overlay: (string, PixelFormat) -> Option<Handle>,
                               primary: (string, PixelFormat) -> Option<Handle>)

  datatype Preview = Preview(
    window: Rect, rate: int, card: Option<Handle>, crtc: map<string, Option<Handle>>,
    plane: map<string, Handle>, overlayPlane: map<string, Option<Handle>>,
    overlayFb: map<string, Option<DumbFb>>, overlayNewFb: map<string, Option<DumbFb>>,
    drmfbs: map<nat, FbLayout>, stopCount: int, mjpegFd: Option<int>,
    slot: Slot, frameLog: seq<FrameOp>, displayStreamName: Option<string>,
    nextFb: nat, commits: seq<Commit>)

  /** `DrmManager.add`: the card is created only by the first user; a
      later user without a card (the count was driven below zero) fails on
      the missing resource manager. */
  function Add(m: Manager, p: Preview, cname: string, crtc: Handle): (r: Result<(Manager, Preview), PreviewError>)
    ensures r.Err? <==> m.useCount != 0 && m.card.None?
    ensures r.Ok? ==> r.value.0.useCount == m.useCount + 1
    ensures r.Ok? ==> r.value.0.cardsCreated == m.cardsCreated + (if m.useCount == 0 then 1 else 0)
    ensures r.Ok? && m.useCount == 0 ==> r.value.0.card == Some(m.cardsCreated)
    ensures r.Ok? && m.useCount != 0 ==> r.value.0.card == m.card
    ensures r.Ok? ==> r.value.0.crtc == m.crtc[cname := crtc]
    ensures r.Ok? ==> r.value.1 == p.(card := r.value.0.card, crtc := p.crtc[cname := Some(crtc)])
  {
    var m1 :- if m.useCount == 0 then Ok(m.(card := Some(m.cardsCreated), cardsCreated := m.cardsCreated + 1))
              else if m.card.None? then Err(NoResourceManager)
              else Ok(m);
    var m2 := m1.(crtc := m1.crtc[cname := crtc], useCount := m1.useCount + 1);
    Ok((m2, p.(card := m2.card, crtc := p.crtc[cname := Some(crtc)])))
  }

  /** `DrmManager.remove`: the preview forgets the card and the CRTC; the last
      user deletes the CRTC entry, which raises `KeyError` when it is gone.
      The card itself is kept. */
  function Remove(m: Manager, p: Preview, cname: string): (r: Result<(Manager, Preview), PreviewError>)
    ensures r.Err? <==> m.useCount == 1 && cname !in m.crtc
    ensures r.Ok? ==> r.value.0.useCount == m.useCount - 1 && r.value.0.card == m.card
    ensures r.Ok? ==> r.value.0.cardsCreated == m.cardsCreated
    ensures r.Ok? ==> r.value.0.crtc == if m.useCount == 1 then m.crtc - {cname} else m.crtc
    ensures r.Ok? ==> r.value.1 == p.(card := None, crtc := p.crtc[cname := None])
  {
    var p1 := p.(card := None, crtc := p.crtc[cname := None]);
    var count := m.useCount - 1;
    if count == 0 then
      if cname !in m.crtc then Err(KeyError(cname))
      else Ok((m.(useCount := 0, crtc := m.crtc - {cname}), p1))
    else Ok((m.(useCount := count), p1))
  }

  /** `Add` keeps the manager consistent and cannot fail on a consistent one. */
  lemma AddKeepsManagerOk(m: Manager, p: Preview, cname: string, crtc: Handle)
    requires ManagerOk(m)
    ensures Add(m, p, cname, crtc).Ok? && ManagerOk(Add(m, p, cname, crtc).value.0)
  {
  }

  // ---------------------------------------------------------------------
  // Letter- and pillar-boxing.

  /** The window rectangle shrunk to the image's aspect ratio and centred,
      with Python's `//`: letterboxed when the image is relatively wider than
      the window, pillarboxed otherwise. A zero image dimension on the
      dividing side raises `ZeroDivisionError`. */
  function AspectFit(win: Rect, width: int, height: int): (r: Result<Rect, PreviewError>)
    ensures r.Err? <==> if width * win.h > win.w * height then width == 0 else height == 0
    ensures r.Ok? && width * win.h > win.w * height ==>
              r.value.x == win.x && r.value.w == win.w && r.value.y - win.y == FloorDiv(win.h - r.value.h, 2)
    ensures r.Ok? && width * win.h <= win.w * height ==>
              r.value.y == win.y && r.value.h == win.h && r.value.x - win.x == FloorDiv(win.w - r.value.w, 2)
  {
    if width * win.h > win.w * height then
      if width == 0 then Err(ZeroDivision)
      else
        var newH := FloorDiv(win.w * height, width);
        Ok(Rect(win.x, win.y + FloorDiv(win.h - newH, 2), win.w, newH))
    else
      if height == 0 then Err(ZeroDivision)
      else
        var newW := FloorDiv(win.h * width, height);
        Ok(Rect(win.x + FloorDiv(win.w - newW, 2), win.y, newW, win.h))
  }

  /** For positive sizes the fit keeps the image's aspect ratio as closely as
      whole pixels allow: the free side is the largest that does not exceed
      the image's proportion. */
  lemma AspectFitKeepsRatio(win: Rect, width: int, height: int)
    requires width > 0 && height > 0
    ensures AspectFit(win, width, height).Ok?
    ensures var r := AspectFit(win, width, height).value;
            if width * win.h > win.w * height
            then r.w == win.w && r.h * width <= win.w * height < (r.h + 1) * width
            else r.h == win.h && r.w * height <= win.h * width < (r.w + 1) * height
  {
  }

  /** The fitted rectangle lies inside the window, with the spare space split
      evenly (the far margin takes the odd pixel). */
  lemma {:induction false} AspectFitInside(win: Rect, width: int, height: int)
    requires width > 0 && height > 0 && win.w >= 0 && win.h >= 0
    ensures AspectFit(win, width, height).Ok?
    ensures var r := AspectFit(win, width, height).value;
            && 0 <= r.w <= win.w && 0 <= r.h <= win.h
            && win.x <= r.x && r.x + r.w <= win.x + win.w
            && win.y <= r.y && r.y + r.h <= win.y + win.h
            && r.x - win.x <= (win.x + win.w) - (r.x + r.w) <= r.x - win.x + 1
            && r.y - win.y <= (win.y + win.h) - (r.y + r.h) <= r.y - win.y + 1
  {
    MulMonotone(0, win.w, height);
    MulMonotone(0, win.h, width);
    if width * win.h > win.w * height {
      ShrunkSide(win.w * height, width, win.h);
      Centred(win.h, FloorDiv(win.w * height, width));
    } else {
      ShrunkSide(win.h * width, height, win.w);
      Centred(win.w, FloorDiv(win.h * width, height));
    }
  }

  /** A side scaled by `n / d` with `n` at most `d * full` fits in `full`. */
  lemma ShrunkSide(n: int, d: int, full: int)
    requires d > 0 && 0 <= n <= d * full
    ensures 0 <= FloorDiv(n, d) <= full
  {
    var q := FloorDiv(n, d);
    assert q * d <= n < (q + 1) * d;
    MulCancelLt(0, q + 1, d);
    MulCancelLe(q, full, d);
  }

  /** Centring `part` in `full` with `//` leaves two margins that differ by
      at most the odd pixel, the far one being the larger. */
  lemma Centred(full: int, part: int)
    requires 0 <= part <= full
    ensures var off := FloorDiv(full - part, 2);
            0 <= off && off + part <= full && off <= full - part - off <= off + 1
  {
  }

  /** An image with the window's own aspect ratio fills the whole window. */
  lemma {:induction false} AspectFitSameRatio(win: Rect, width: int, height: int)
    requires width > 0 && height > 0 && width * win.h == win.w * height
    ensures AspectFit(win, width, height) == Ok(win)
  {
    var r := AspectFit(win, width, height).value;
    MulCancelLe(r.w, win.w, height);
    MulCancelLt(win.w, r.w + 1, height);
  }

  // ---------------------------------------------------------------------
  // render_drm

  /** Plane reservation for one output: an overlay plane for the format, else
      the primary plane, else an error; then an ABGR8888 overlay plane for the
      overlay image, which may be missing. */
  function ReserveOne(p: Preview, cname: string, fmt: PixelFormat, hw: Hardware): (r: Result<Preview, PreviewError>)
    ensures r.Ok? <==> cname in p.crtc && (hw.overlay(cname, fmt).Some? || hw.primary(cname, fmt).Some?)
    ensures r.Ok? ==> r.value == p.(plane := r.value.plane, overlayPlane := p.overlayPlane[cname := hw.overlay(cname, ABGR8888)])
    ensures r.Ok? ==> r.value.plane.Keys == p.plane.Keys + {cname}
    ensures r.Ok? && hw.overlay(cname, fmt).Some? ==> r.value.plane[cname] == hw.overlay(cname, fmt).value
    ensures r.Ok? && hw.overlay(cname, fmt).None? ==> r.value.plane[cname] == hw.primary(cname, fmt).value
  {
    var _ :- Get(p.crtc, cname);
    var pl :- if hw.overlay(cname, fmt).Some? then Ok(hw.overlay(cname, fmt).value)
              else if hw.primary(cname, fmt).Some? then Ok(hw.primary(cname, fmt).value)
              else Err(NoPlane);
    Ok(p.(plane := p.plane[cname := pl], overlayPlane := p.overlayPlane[cname := hw.overlay(cname, ABGR8888)]))
  }

  /** The planes `ReserveOne` picks for `cname`: the overlay plane the
      hardware offers for the format, else its primary plane; and the
      ABGR8888 overlay plane, if any, for the overlay image. */
  predicate ReservedFrom(q: Preview, cname: string, fmt: PixelFormat, hw: Hardware) {
    && cname in q.plane && cname in q.overlayPlane
    && (hw.overlay(cname, fmt).Some? ==> q.plane[cname] == hw.overlay(cname, fmt).value)
    && (hw.overlay(cname, fmt).None? ==> hw.primary(cname, fmt).Some? && q.plane[cname] == hw.primary(cname, fmt).value)
    && q.overlayPlane[cname] == hw.overlay(cname, ABGR8888)
  }

  /** Whether the hardware offers a plane for `cname` in the format. */
  predicate Offered(p: Preview, cname: string, fmt: PixelFormat, hw: Hardware) {
    cname in p.crtc && (hw.overlay(cname, fmt).Some? || hw.primary(cname, fmt).Some?)
  }

  /** The first `render_drm`: the stream's format must be one the preview can
      show, and both outputs get planes. */
  function Reserve(p: Preview, format: string, hw: Hardware): (r: Result<Preview, PreviewError>)
    ensures FormatFor(format).None? ==> r == Err(UnsupportedFormat(format))
    ensures r.Ok? <==> FormatFor(format).Some? && Offered(p, Hdmi, FormatFor(format).value, hw)
                                               && Offered(p, Dsi, FormatFor(format).value, hw)
    ensures r.Ok? ==> && ReservedFrom(r.value, Hdmi, FormatFor(format).value, hw)
                      && ReservedFrom(r.value, Dsi, FormatFor(format).value, hw)
    ensures r.Ok? ==> FormatFor(format).Some? && Hdmi in r.value.plane && Dsi in r.value.plane
    ensures r.Ok? ==> r.value == p.(plane := r.value.plane, overlayPlane := r.value.overlayPlane)
    ensures r.Ok? ==> Hdmi in r.value.overlayPlane && Dsi in r.value.overlayPlane
  {
    var fmt :- if FormatFor(format).Some? then Ok(FormatFor(format).value) else Err(UnsupportedFormat(format));
    var p1 :- ReserveOne(p, Hdmi, fmt, hw);
    ReserveOne(p1, Dsi, fmt, hw)
  }

  /** Reservation reads only the CRTCs and the hardware, not the stream name. */
  lemma ReserveIgnoresName(p: Preview, n: Option<string>, format: string, hw: Hardware)
    ensures var a := Reserve(p, format, hw);
            var b := Reserve(p.(displayStreamName := n), format, hw);
            && (a.Ok? <==> b.Ok?)
            && (a.Ok? ==> a.value.plane == b.value.plane && a.value.overlayPlane == b.value.overlayPlane)
  {
  }

  /** The framebuffer for a camera buffer seen for the first time. A camera
      restart (a different `stop_count`) flushes the cache first. */
  function CacheFb(p: Preview, cam: Picamera2, buffer: nat, s: Stream, fd: int, stride: int): (r: Result<Preview, PreviewError>)
    ensures r.Err? <==> FormatFor(s.format).None?
    ensures r.Ok? ==> buffer in r.value.drmfbs && r.value.stopCount == cam.stopCount
    ensures r.Ok? ==> r.value == p.(drmfbs := r.value.drmfbs, stopCount := cam.stopCount)
    ensures r.Ok? && p.stopCount == cam.stopCount ==> r.value.drmfbs.Keys == p.drmfbs.Keys + {buffer}
    ensures r.Ok? && p.stopCount != cam.stopCount ==> r.value.drmfbs.Keys == {buffer}
    ensures r.Ok? ==> r.value.drmfbs[buffer].format == FormatFor(s.format).value
    ensures r.Ok? ==> |r.value.drmfbs[buffer].offsets| == if s.format in {"YUV420", "YVU420"} then 3 else 1
    ensures r.Ok? ==> var f := r.value.drmfbs[buffer];
                      |f.strides| >= 1 && |f.fds| >= 1 && f.strides[0] == stride && f.fds[0] == fd
  {
    var p1 := if p.stopCount != cam.stopCount then p.(drmfbs := map[], stopCount := cam.stopCount) else p;
    var fmt :- if FormatFor(s.format).Some? then Ok(FormatFor(s.format).value) else Err(KeyError(s.format));
    var layout := if s.format == "YUV420" || s.format == "YVU420" then PlanarLayout(s.width, s.height, fmt, fd, stride)
                  else PackedLayout(s.width, s.height, fmt, fd, stride);
    Ok(p1.(drmfbs := p1.drmfbs[buffer := layout]))
  }

  /** Where DSI shows the camera frame: 720x405 at the fitted origin. */
  function DsiRect(fit: Rect): Rect {
    Rect(fit.x, fit.y, 720, 405)
  }

  /** Both outputs have a camera plane and a CRTC, and `buffer` has a
      framebuffer. */
  predicate CameraReady(p: Preview, buffer: nat) {
    Hdmi in p.plane && Dsi in p.plane && Hdmi in p.crtc && Dsi in p.crtc && buffer in p.drmfbs
  }

  /** The frame of `buffer`, whole, on each output's reserved plane and CRTC:
      at `fit` on HDMI and at the DSI rectangle on DSI. */
  function CameraPair(p: Preview, buffer: nat, s: Stream, fit: Rect): seq<Placement>
    requires CameraReady(p, buffer)
  {
    var src := Rect(0, 0, s.width, s.height);
    [Placement(Some(p.plane[Hdmi]), Camera(p.drmfbs[buffer]), p.crtc[Hdmi], src, fit),
     Placement(Some(p.plane[Dsi]), Camera(p.drmfbs[buffer]), p.crtc[Dsi], src, DsiRect(fit))]
  }

  /** The camera frame on both outputs: the fitted rectangle on HDMI, and a
      fixed 720x405 at the fitted origin on DSI. Because the source rebinds
      `w, h` inside the loop, the returned rectangle (used afterwards for the
      overlays) is the DSI one. MJPEG frames come from the preview's own
      decode buffer with three bytes per pixel. */
  function CameraPlacements(p: Preview, cam: Picamera2, req: Request, s: Stream, fit: Rect)
    : (r: Result<(Preview, seq<Placement>, Rect), PreviewError>)
    ensures s.format == "MJPEG" && p.mjpegFd.None? ==> r == Err(MissingMjpegBuffer)
    ensures r.Ok? ==> r.value.2 == DsiRect(fit)
    ensures r.Ok? ==> req.buffer in r.value.0.drmfbs
    ensures r.Ok? ==> r.value.0 == p.(drmfbs := r.value.0.drmfbs, stopCount := r.value.0.stopCount)
    ensures r.Ok? && req.buffer in p.drmfbs ==> r.value.0 == p
    ensures r.Ok? ==> |r.value.1| == 2
    ensures r.Ok? ==> forall pl :: pl in r.value.1 ==> pl.source == Camera(r.value.0.drmfbs[req.buffer])
    ensures r.Ok? ==> forall pl :: pl in r.value.1 ==> pl.src == Rect(0, 0, s.width, s.height)
    ensures r.Ok? ==> r.value.1[0].dst == fit && r.value.1[1].dst == r.value.2
    ensures r.Ok? ==> Hdmi in p.plane && Dsi in p.plane && Hdmi in p.crtc && Dsi in p.crtc
    ensures r.Ok? ==> r.value.1[0].plane == Some(p.plane[Hdmi]) && r.value.1[1].plane == Some(p.plane[Dsi])
    ensures r.Ok? ==> CameraReady(r.value.0, req.buffer) && r.value.1 == CameraPair(r.value.0, req.buffer, s, fit)
  {
    var fdStride :- if s.format == "MJPEG" then
                      if p.mjpegFd.None? then Err(MissingMjpegBuffer) else Ok((p.mjpegFd.value, s.width * 3))
                    else Ok((req.fd, s.stride));
    var p1 :- if req.buffer in p.drmfbs then Ok(p) else CacheFb(p, cam, req.buffer, s, fdStride.0, fdStride.1);
    var layout := p1.drmfbs[req.buffer];
    var hdmiPlane :- Get(p1.plane, Hdmi);
    var hdmiCrtc :- Get(p1.crtc, Hdmi);
    var dsiPlane :- Get(p1.plane, Dsi);
    var dsiCrtc :- Get(p1.crtc, Dsi);
    var small := DsiRect(fit);
    var src := Rect(0, 0, s.width, s.height);
    Ok((p1, [Placement(Some(hdmiPlane), Camera(layout), hdmiCrtc, src, fit),
             Placement(Some(dsiPlane), Camera(layout), dsiCrtc, src, small)], small))
  }

  /** An output's overlay is due: a pending image is set and differs from the
      one on screen (or none has been shown yet). */
  predicate Pending(p: Preview, cname: string) {
    && cname in p.overlayNewFb && p.overlayNewFb[cname].Some?
    && (cname !in p.overlayFb || p.overlayFb[cname] != p.overlayNewFb[cname])
  }

  /** An output with a pending image, an overlay plane entry and a CRTC. */
  predicate Placeable(p: Preview, cname: string) {
    cname in p.overlayNewFb && p.overlayNewFb[cname].Some? && cname in p.overlayPlane && cname in p.crtc
  }

  /** The plane an output's pending overlay gets: the output's ABGR8888
      plane and CRTC, the whole image, at `dst`. */
  function OverlayPlacement(p: Preview, cname: string, dst: Rect): Placement
    requires Placeable(p, cname)
  {
    var fb := p.overlayNewFb[cname].value;
    Placement(p.overlayPlane[cname], Overlay(fb), p.crtc[cname], Rect(0, 0, fb.width, fb.height), dst)
  }

  /** The overlay loop body for one output. The pending image becomes the
      current one whenever they differ, and a plane is added only for a
      pending image that is not `None`. */
  function OverlayStep(p: Preview, cname: string, dst: Rect): (r: Result<(Preview, seq<Placement>), PreviewError>)
    ensures r.Err? ==> Pending(p, cname)
    ensures r.Ok? ==> |r.value.1| == if Pending(p, cname) then 1 else 0
    ensures r.Ok? && Pending(p, cname) ==> Placeable(p, cname) && r.value.1[0] == OverlayPlacement(p, cname, dst)
    ensures r.Ok? ==> r.value.0 == p.(overlayFb := r.value.0.overlayFb)
    ensures r.Ok? && cname in p.overlayNewFb ==> r.value.0.overlayFb == p.overlayFb[cname := p.overlayNewFb[cname]]
    ensures r.Ok? && cname !in p.overlayNewFb ==> r.value.0.overlayFb == p.overlayFb
  {
    if cname !in p.overlayNewFb then Ok((p, []))
    else
      var pending := p.overlayNewFb[cname];
      if cname in p.overlayFb && pending == p.overlayFb[cname] then Ok((p, []))
      else
        var p1 := p.(overlayFb := p.overlayFb[cname := pending]);
        if pending.None? then Ok((p1, []))
        else
          var plane :- Get(p1.overlayPlane, cname);
          var crtc :- Get(p1.crtc, cname);
          Ok((p1, [Placement(plane, Overlay(pending.value), crtc, Rect(0, 0, pending.value.width, pending.value.height), dst)]))
  }

  /** The overlay loop over both outputs: one plane per due overlay, in
      output order, each with its pending image; afterwards nothing is due. */
  function Overlays(p: Preview, dst: Rect): (r: Result<(Preview, seq<Placement>), PreviewError>)
    ensures r.Err? ==> Pending(p, Hdmi) || Pending(p, Dsi)
    ensures r.Ok? ==> |r.value.1| == Bit(Pending(p, Hdmi)) + Bit(Pending(p, Dsi))
    ensures r.Ok? ==> forall pl :: pl in r.value.1 ==> pl.source.Overlay? && pl.dst == dst
    ensures r.Ok? && Pending(p, Hdmi) ==> Placeable(p, Hdmi) && r.value.1[0] == OverlayPlacement(p, Hdmi, dst)
    ensures r.Ok? && Pending(p, Dsi) ==> Placeable(p, Dsi) && r.value.1[|r.value.1| - 1] == OverlayPlacement(p, Dsi, dst)
    ensures r.Ok? ==> !Pending(r.value.0, Hdmi) && !Pending(r.value.0, Dsi)
    ensures r.Ok? ==> r.value.0 == p.(overlayFb := r.value.0.overlayFb)
  {
    var hdmi :- OverlayStep(p, Hdmi, dst);
    assert Pending(hdmi.0, Dsi) == Pending(p, Dsi);
    var dsi :- OverlayStep(hdmi.0, Dsi, dst);
    Ok((dsi.0, hdmi.1 + dsi.1))
  }

  /** The first part of `render_drm`: pick the stream, fit it to the window,
      reserve planes on the first call (failing on a format the preview
      cannot show), and place the camera frame when there is a request. The
      rectangle returned is the one the overlays use. */
  function Prepare(p: Preview, cam: Picamera2, req: Option<Request>, s: Stream, hw: Hardware)
    : (r: Result<(Preview, seq<Placement>, Rect), PreviewError>)
    ensures DisplayStream(p.displayStreamName, cam, req).None? ==> r == Err(NoDisplayStream)
    ensures (DisplayStream(p.displayStreamName, cam, req).Some? && AspectFit(p.window, s.width, s.height).Ok?
             && |p.plane| == 0 && FormatFor(s.format).None?) ==> r == Err(UnsupportedFormat(s.format))
    ensures r.Ok? ==> AspectFit(p.window, s.width, s.height).Ok?
    ensures r.Ok? ==> r.value.0 == p.(displayStreamName := DisplayStream(p.displayStreamName, cam, req), plane := r.value.0.plane,
                                      overlayPlane := r.value.0.overlayPlane, drmfbs := r.value.0.drmfbs,
                                      stopCount := r.value.0.stopCount)
    ensures r.Ok? && (|p.plane| == 0 || req.Some?) ==> Hdmi in r.value.0.plane && Dsi in r.value.0.plane
    ensures r.Ok? && |p.plane| > 0 ==> r.value.0.plane == p.plane && r.value.0.overlayPlane == p.overlayPlane
    ensures r.Ok? ==> |r.value.1| == if req.Some? then 2 else 0
    ensures r.Ok? ==> forall pl :: pl in r.value.1 ==> pl.source.Camera?
    ensures r.Ok? ==> var fit := AspectFit(p.window, s.width, s.height).value;
                      r.value.2 == if req.Some? then DsiRect(fit) else fit
    ensures r.Ok? && req.Some? ==> r.value.1[0].dst == AspectFit(p.window, s.width, s.height).value
    ensures r.Ok? && req.Some? ==> r.value.1[1].dst == r.value.2
    ensures r.Ok? && req.Some? ==> req.value.buffer in r.value.0.drmfbs
    ensures r.Ok? && req.Some? ==> Hdmi in p.crtc && Dsi in p.crtc
    ensures r.Ok? && req.Some? ==>
              && CameraReady(r.value.0, req.value.buffer)
              && r.value.1 == CameraPair(r.value.0, req.value.buffer, s, AspectFit(p.window, s.width, s.height).value)
    ensures r.Ok? && |p.plane| == 0 ==>
              && Reserve(p, s.format, hw).Ok?
              && r.value.0.plane == Reserve(p, s.format, hw).value.plane
              && r.value.0.overlayPlane == Reserve(p, s.format, hw).value.overlayPlane
  {
    var name := DisplayStream(p.displayStreamName, cam, req);
    if name.None? then Err(NoDisplayStream)
    else
      var fit :- AspectFit(p.window, s.width, s.height);
      ReserveIgnoresName(p, name, s.format, hw);
      var p1 :- if |p.plane| == 0 then Reserve(p.(displayStreamName := name), s.format, hw)
                else Ok(p.(displayStreamName := name));
      if req.Some? then CameraPlacements(p1, cam, req.value, s, fit) else Ok((p1, [], fit))
  }

  /** The commit `render_drm` appended. */
  function LastCommit(p: Preview): Commit
    requires |p.commits| > 0
  {
    p.commits[|p.commits| - 1]
  }

  /** The layout of a `render_drm` commit: `k` camera planes, then one plane
      per overlay that was due in `p`, HDMI first, each the output's overlay
      plane and CRTC in `q` (the preview afterwards) carrying the pending
      image at `dst`. */
  predicate CommitLayout(c: Commit, k: nat, p: Preview, q: Preview, dst: Rect) {
    && |c| == k + Bit(Pending(p, Hdmi)) + Bit(Pending(p, Dsi))
    && (forall i :: 0 <= i < k ==> c[i].source.Camera?)
    && (forall i :: k <= i < |c| ==> c[i].source.Overlay?)
    && (Pending(p, Hdmi) ==> Placeable(q, Hdmi) && c[k] == OverlayPlacement(q, Hdmi, dst))
    && (Pending(p, Dsi) ==> Placeable(q, Dsi) && c[|c| - 1] == OverlayPlacement(q, Dsi, dst))
  }

  /** Camera planes followed by overlay planes, seen by index. */
  lemma ConcatLayout(video: seq<Placement>, overlays: seq<Placement>)
    requires forall pl :: pl in video ==> pl.source.Camera?
    requires forall pl :: pl in overlays ==> pl.source.Overlay?
    ensures forall i :: 0 <= i < |video| ==> (video + overlays)[i].source.Camera?
    ensures forall i :: |video| <= i < |video + overlays| ==> (video + overlays)[i].source.Overlay?
    ensures |overlays| > 0 ==> (video + overlays)[|video|] == overlays[0]
  {
    var c := video + overlays;
    forall i | 0 <= i < |video| ensures c[i].source.Camera? {
      assert c[i] == video[i];
    }
    forall i | |video| <= i < |c| ensures c[i].source.Overlay? {
      assert c[i] == overlays[i - |video|];
    }
  }

  /** The camera planes of the first stage followed by the overlay planes of
      the second lay out a `render_drm` commit. */
  lemma StagesLayout(p: Preview, p0: Preview, video: seq<Placement>, dst: Rect, ovl: (Preview, seq<Placement>), q: Preview)
    requires forall pl :: pl in video ==> pl.source.Camera?
    requires p0.overlayNewFb == p.overlayNewFb && p0.overlayFb == p.overlayFb
    requires Overlays(p0, dst) == Ok(ovl)
    requires q == p0.(overlayFb := q.overlayFb, commits := q.commits)
    ensures CommitLayout(video + ovl.1, |video|, p, q, dst)
  {
    assert Pending(p0, Hdmi) == Pending(p, Hdmi);
    assert Pending(p0, Dsi) == Pending(p, Dsi);
    ConcatLayout(video, ovl.1);
    var c := video + ovl.1;
    if Pending(p, Hdmi) {
      assert OverlayPlacement(q, Hdmi, dst) == OverlayPlacement(p0, Hdmi, dst);
    }
    if Pending(p, Dsi) {
      assert c[|c| - 1] == ovl.1[|ovl.1| - 1];
      assert OverlayPlacement(q, Dsi, dst) == OverlayPlacement(p0, Dsi, dst);
    }
  }

  /** `render_drm(picam2, completed_request)`: it fails only where picking
      the stream, fitting it, reserving planes, placing the frame or an
      overlay does. Otherwise it appends exactly one commit: the camera frame
      on both outputs when there is a request, then a plane for each output
      whose overlay was due, carrying the pending image; afterwards no
      overlay is due. The stream's configuration `s` is the one `stream_map`
      gives for the display stream. */
  function RenderDrm(p: Preview, cam: Picamera2, req: Option<Request>, s: Stream, hw: Hardware)
    : (r: Result<Preview, PreviewError>)
    ensures r.Ok? <==> Prepare(p, cam, req, s, hw).Ok? && Overlays(Prepare(p, cam, req, s, hw).value.0, Prepare(p, cam, req, s, hw).value.2).Ok?
    ensures r.Ok? ==> |r.value.commits| == |p.commits| + 1 && r.value.commits[..|p.commits|] == p.commits
    ensures r.Ok? ==> AspectFit(p.window, s.width, s.height).Ok?
    ensures r.Ok? ==> var fit := AspectFit(p.window, s.width, s.height).value;
              CommitLayout(LastCommit(r.value), if req.Some? then 2 else 0, p, r.value, if req.Some? then DsiRect(fit) else fit)
    ensures r.Ok? && req.Some? ==>
              && CameraReady(r.value, req.value.buffer)
              && LastCommit(r.value)[..2] == CameraPair(r.value, req.value.buffer, s, AspectFit(p.window, s.width, s.height).value)
    ensures r.Ok? ==> !Pending(r.value, Hdmi) && !Pending(r.value, Dsi)
  {
    var prep :- Prepare(p, cam, req, s, hw);
    var ovl :- Overlays(prep.0, prep.2);
    var q := ovl.0.(commits := ovl.0.commits + [prep.1 + ovl.1]);
    StagesLayout(p, prep.0, prep.1, prep.2, ovl, q);
    Ok(q)
  }

  /** After a successful `render_drm` no overlay is due any more; the pending
      images, the frame ownership and the window are untouched, and the
      stream shown is remembered. */
  lemma RenderDrmState(p: Preview, cam: Picamera2, req: Option<Request>, s: Stream, hw: Hardware)
    requires RenderDrm(p, cam, req, s, hw).Ok?
    ensures var p1 := RenderDrm(p, cam, req, s, hw).value;
            && !Pending(p1, Hdmi) && !Pending(p1, Dsi)
            && p1.overlayNewFb == p.overlayNewFb && p1.slot == p.slot && p1.frameLog == p.frameLog
            && p1.window == p.window && p1.crtc == p.crtc && p1.nextFb == p.nextFb
            && p1.displayStreamName == DisplayStream(p.displayStreamName, cam, req)
  {
  }

  /** The first `render_drm` of a request shows the camera frame on the plane
      the hardware offered for each output: its overlay plane for the stream's
      format when there is one, else its primary plane. */
  lemma FirstRenderPlanes(p: Preview, cam: Picamera2, req: Request, s: Stream, hw: Hardware)
    requires |p.plane| == 0
    requires RenderDrm(p, cam, Some(req), s, hw).Ok?
    ensures FormatFor(s.format).Some? && Offered(p, Hdmi, FormatFor(s.format).value, hw)
                                      && Offered(p, Dsi, FormatFor(s.format).value, hw)
    ensures var q := RenderDrm(p, cam, Some(req), s, hw).value;
            && ReservedFrom(q, Hdmi, FormatFor(s.format).value, hw)
            && ReservedFrom(q, Dsi, FormatFor(s.format).value, hw)
            && LastCommit(q)[0].plane == Some(q.plane[Hdmi])
            && LastCommit(q)[1].plane == Some(q.plane[Dsi])
  {
  }

  /** Where a `render_drm` commit puts its planes: with a camera frame, the
      fitted rectangle on HDMI and the DSI one after it, overlays on the DSI
      rectangle; without one, overlays on the fitted rectangle. */
  predicate CommitRects(c: Commit, fit: Rect, video: bool) {
    && (video ==> |c| >= 2 && c[0].dst == fit && c[1].dst == DsiRect(fit))
    && (forall i :: (if video then 2 else 0) <= i < |c| ==> c[i].dst == if video then DsiRect(fit) else fit)
  }

  /** Planes appended after `video` keep their own rectangles. */
  lemma ConcatDst(video: seq<Placement>, overlays: seq<Placement>, d: Rect)
    requires forall pl :: pl in overlays ==> pl.dst == d
    ensures forall i :: 0 <= i < |video| ==> (video + overlays)[i] == video[i]
    ensures forall i :: |video| <= i < |video + overlays| ==> (video + overlays)[i].dst == d
  {
    var c := video + overlays;
    forall i | |video| <= i < |c| ensures c[i].dst == d {
      assert c[i] == overlays[i - |video|];
    }
  }

  /** The camera frame is placed at the fitted rectangle on HDMI and at a
      fixed 720x405 on DSI; overlays then share the DSI rectangle when there
      is a frame, and the fitted one otherwise. */
  lemma RenderDrmRectangles(p: Preview, cam: Picamera2, req: Option<Request>, s: Stream, hw: Hardware)
    requires RenderDrm(p, cam, req, s, hw).Ok?
    ensures AspectFit(p.window, s.width, s.height).Ok?
    ensures CommitRects(LastCommit(RenderDrm(p, cam, req, s, hw).value), AspectFit(p.window, s.width, s.height).value, req.Some?)
  {
    var prep := Prepare(p, cam, req, s, hw).value;
    var ovl := Overlays(prep.0, prep.2).value;
    ConcatDst(prep.1, ovl.1, prep.2);
  }

  /** `Prepare` depends on neither the overlays on screen nor the commits, and
      once it has succeeded it succeeds again on its own result. */
  lemma PrepareAgain(p: Preview, cam: Picamera2, req: Option<Request>, s: Stream, hw: Hardware, q: Preview)
    requires Prepare(p, cam, req, s, hw).Ok?
    requires q == Prepare(p, cam, req, s, hw).value.0.(overlayFb := q.overlayFb, commits := q.commits)
    ensures Prepare(q, cam, req, s, hw).Ok?
  {
    assert DisplayStream(q.displayStreamName, cam, req) == DisplayStream(p.displayStreamName, cam, req);
    assert |q.plane| > 0 by {
      if |p.plane| == 0 {
        assert Hdmi in q.plane;
      }
    }
    if req.Some? {
      var fit := AspectFit(p.window, s.width, s.height).value;
      assert q.(displayStreamName := DisplayStream(q.displayStreamName, cam, req)) == q;
      var v := CameraPlacements(q, cam, req.value, s, fit);
      assert v.Ok?;
    }
  }

  /** A second `render_drm` with nothing new to show commits the camera frame
      alone: every overlay was already sent by the first. */
  lemma RepeatedRenderAddsNoOverlays(p: Preview, cam: Picamera2, req: Option<Request>, s: Stream, hw: Hardware)
    requires RenderDrm(p, cam, req, s, hw).Ok?
    ensures var p1 := RenderDrm(p, cam, req, s, hw).value;
            && RenderDrm(p1, cam, req, s, hw).Ok?
            && |LastCommit(RenderDrm(p1, cam, req, s, hw).value)| == if req.Some? then 2 else 0
  {
    var prep := Prepare(p, cam, req, s, hw).value;
    var ovl := Overlays(prep.0, prep.2).value;
    var p1 := RenderDrm(p, cam, req, s, hw).value;
    assert p1 == prep.0.(overlayFb := p1.overlayFb, commits := p1.commits);
    PrepareAgain(p, cam, req, s, hw, p1);
    var prep1 := Prepare(p1, cam, req, s, hw).value;
    assert !Pending(prep1.0, Hdmi) && !Pending(prep1.0, Dsi) by {
      RenderDrmState(p, cam, req, s, hw);
    }
  }

  // ---------------------------------------------------------------------
  // The preview's life cycle.

  /** `MultiPreview(x, y, width, height, rate)`: both outputs are added to
      the shared manager; `mjpegFd` is the MJPEG decode buffer if its
      allocation succeeded. */
  function NewPreview(m: Manager, window: Rect, rate: int, hdmiCrtc: Handle, dsiCrtc: Handle, mjpegFd: Option<int>)
    : (r: Result<(Manager, Preview), PreviewError>)
    ensures ManagerOk(m) ==> r.Ok?
    ensures r.Ok? ==> r.value.0.useCount == m.useCount + 2
    ensures r.Ok? ==> r.value.1.crtc == map[Hdmi := Some(hdmiCrtc), Dsi := Some(dsiCrtc)]
    ensures r.Ok? ==> r.value.1.slot == NoFrame && r.value.1.commits == [] && r.value.1.frameLog == []
    ensures r.Ok? ==> r.value.1.plane == map[] && r.value.1.overlayNewFb == map[] && r.value.1.overlayFb == map[]
  {
    var p0 := Preview(window, rate, None, map[], map[], map[], map[], map[], map[], 0, mjpegFd,
                      NoFrame, [], None, 0, []);
    var a :- Add(m, p0, Hdmi, hdmiCrtc);
    Add(a.0, a.1, Dsi, dsiCrtc)
  }

  /** `set_overlay(overlay, output)`: the camera must be started, configured
      and running with at least two buffers. The image (or `None`) becomes
      the output's pending overlay in a newly allocated framebuffer, and is
      shown at once when the camera has a display stream. */
  function SetOverlay(p: Preview, cam: Option<Picamera2>, overlay: Option<Image>, output: Option<string>,
                      s: Stream, hw: Hardware): (r: Result<Preview, PreviewError>)
    ensures cam.None? ==> r == Err(NotStarted)
    ensures cam.Some? && cam.value.config.None? ==> r == Err(NotConfigured)
    ensures cam.Some? && cam.value.config.Some? && cam.value.config.value.bufferCount < 2 ==> r == Err(TooFewBuffers)
    ensures r.Ok? ==> cam.Some? && cam.value.config.Some? && cam.value.config.value.bufferCount >= 2
    ensures var out := if output.None? then Dsi else output.value;
            r.Ok? ==> r.value.overlayNewFb == p.overlayNewFb[out := if overlay.None? then None
                                                                  else Some(DumbFb(p.nextFb, overlay.value.width, overlay.value.height))]
    ensures r.Ok? && cam.value.displayStreamName.Some? ==>
              r == RenderDrm(StageOverlay(p, if output.None? then Dsi else output.value, overlay), cam.value, None, s, hw)
    ensures r.Ok? && cam.value.displayStreamName.None? ==> r.value.commits == p.commits
  {
    var out := if output.None? then Dsi else output.value;
    if cam.None? then Err(NotStarted)
    else if cam.value.config.None? then Err(NotConfigured)
    else if cam.value.config.value.bufferCount < 2 then Err(TooFewBuffers)
    else
      var p1 := StageOverlay(p, out, overlay);
      if cam.value.displayStreamName.Some? then RenderDrm(p1, cam.value, None, s, hw) else Ok(p1)
  }

  /** The image (or `None`) set as `out`'s pending overlay; an image gets a
      newly allocated framebuffer. */
  function StageOverlay(p: Preview, out: string, overlay: Option<Image>): (q: Preview)
    ensures q.overlayNewFb == p.overlayNewFb[out := if overlay.None? then None
                                                   else Some(DumbFb(p.nextFb, overlay.value.width, overlay.value.height))]
    ensures q.nextFb == p.nextFb + (if overlay.None? then 0 else 1)
    ensures q == p.(overlayNewFb := q.overlayNewFb, nextFb := q.nextFb)
  {
    if overlay.None? then p.(overlayNewFb := p.overlayNewFb[out := None])
    else p.(overlayNewFb := p.overlayNewFb[out := Some(DumbFb(p.nextFb, overlay.value.width, overlay.value.height))],
            nextFb := p.nextFb + 1)
  }

  /** Every overlay framebuffer the preview knows was allocated before
      `nextFb`, so a newly allocated one differs from all of them. */
  ghost predicate FbsAllocated(p: Preview) {
    && (forall c :: c in p.overlayFb && p.overlayFb[c].Some? ==> p.overlayFb[c].value.id < p.nextFb)
    && (forall c :: c in p.overlayNewFb && p.overlayNewFb[c].Some? ==> p.overlayNewFb[c].value.id < p.nextFb)
  }

  /** A freshly staged image is due: its framebuffer is newer than any the
      output has shown. */
  lemma StagedIsPending(p: Preview, output: string, img: Image)
    requires FbsAllocated(p)
    ensures Pending(StageOverlay(p, output, Some(img)), output)
  {
    if output in p.overlayFb && p.overlayFb[output].Some? {
      assert p.overlayFb[output].value.id < p.nextFb;
    }
  }

  /** A new overlay image for an output is on that output's next commit: with
      a display stream, `set_overlay` commits it straight away. */
  lemma SetOverlayShowsImage(p: Preview, cam: Picamera2, img: Image, output: string, s: Stream, hw: Hardware)
    requires FbsAllocated(p)
    requires output in Outputs && cam.displayStreamName.Some?
    requires SetOverlay(p, Some(cam), Some(img), Some(output), s, hw).Ok?
    ensures var c := LastCommit(SetOverlay(p, Some(cam), Some(img), Some(output), s, hw).value);
            exists i :: 0 <= i < |c| && c[i].source == Overlay(DumbFb(p.nextFb, img.width, img.height))
  {
    var fb := DumbFb(p.nextFb, img.width, img.height);
    var p1 := StageOverlay(p, output, Some(img));
    StagedIsPending(p, output, img);
    assert SetOverlay(p, Some(cam), Some(img), Some(output), s, hw) == RenderDrm(p1, cam, None, s, hw);
    var c := LastCommit(RenderDrm(p1, cam, None, s, hw).value);
    if output == Hdmi {
      assert c[0].source == Overlay(fb);
    } else {
      assert c[|c| - 1].source == Overlay(fb);
    }
  }

  /** `render_request(completed_request)`: render the frame, then hand the
      previous frame back and hold the new one (see `FrameOwnership`). */
  function RenderRequest(p: Preview, cam: Picamera2, req: Request, s: Stream, hw: Hardware)
    : (r: Result<Preview, PreviewError>)
    ensures r.Ok? <==> RenderDrm(p, cam, Some(req), s, hw).Ok?
    ensures r.Ok? ==> r.value.slot == Replace(p.slot, req.id, req.bufferCount).0
    ensures r.Ok? ==> r.value.frameLog == p.frameLog + Replace(p.slot, req.id, req.bufferCount).1
    ensures r.Ok? ==> |r.value.commits| == |p.commits| + 1
    ensures r.Ok? ==> r.value == RenderDrm(p, cam, Some(req), s, hw).value.(slot := r.value.slot, frameLog := r.value.frameLog)
  {
    var p1 :- RenderDrm(p, cam, Some(req), s, hw);
    var (slot, ops) := Replace(p1.slot, req.id, req.bufferCount);
    Ok(p1.(slot := slot, frameLog := p1.frameLog + ops))
  }

  /** `stop()`: give back the displayed frame, forget every framebuffer and
      plane, and leave the manager for both outputs. */
  function Stop(p: Preview, m: Manager): (r: Result<(Manager, Preview), PreviewError>)
    ensures r.Ok? ==> r.value.1.slot == NoFrame && r.value.1.frameLog == p.frameLog + Drop(p.slot).1
    ensures r.Ok? ==> r.value.1.plane == map[] && r.value.1.overlayPlane == map[] && r.value.1.drmfbs == map[]
    ensures r.Ok? ==> r.value.1.overlayFb == map[] && r.value.1.overlayNewFb == map[]
    ensures r.Ok? ==> r.value.1.mjpegFd.None? && r.value.1.displayStreamName.None? && r.value.1.card.None?
    ensures r.Ok? ==> r.value.0.useCount == m.useCount - 2
    ensures r.Ok? ==> r.value.1.crtc == p.crtc[Hdmi := None][Dsi := None]
    ensures r.Err? <==> (m.useCount == 1 && Hdmi !in m.crtc) || (m.useCount == 2 && Dsi !in m.crtc)
  {
    var (slot, ops) := Drop(p.slot);
    var p1 := p.(slot := slot, frameLog := p.frameLog + ops, displayStreamName := None, drmfbs := map[],
                 overlayNewFb := map[], overlayFb := map[], plane := map[], overlayPlane := map[], mjpegFd := None);
    var a :- Remove(m, p1, Hdmi);
    Remove(a.0, a.1, Dsi)
  }

  /** The displayed frame's reference count stays exact over every
      `render_request`. */
  lemma RenderRequestKeepsCountsExact(p: Preview, cam: Picamera2, req: Request, s: Stream, hw: Hardware)
    requires Consistent(p.slot, p.frameLog)
    requires RenderRequest(p, cam, req, s, hw).Ok?
    ensures var p1 := RenderRequest(p, cam, req, s, hw).value;
            Consistent(p1.slot, p1.frameLog)
  {
    ReplaceKeepsCountsExact(p.slot, p.frameLog, req.id, req.bufferCount);
  }

  /** A whole session leaves the manager as it found it and gives back every
      frame it held: a preview started on a consistent manager can always be
      stopped, restoring the use count. */
  lemma {:induction false} SessionIsBalanced(m: Manager, window: Rect, rate: int, hdmiCrtc: Handle, dsiCrtc: Handle,
                                             mjpegFd: Option<int>)
    requires ManagerOk(m)
    ensures var (m1, p) := NewPreview(m, window, rate, hdmiCrtc, dsiCrtc, mjpegFd).value;
            && Stop(p, m1).Ok?
            && Stop(p, m1).value.0.useCount == m.useCount
            && ManagerOk(Stop(p, m1).value.0)
  {
    var (m1, p) := NewPreview(m, window, rate, hdmiCrtc, dsiCrtc, mjpegFd).value;
    var a := Add(m, Preview(window, rate, None, map[], map[], map[], map[], map[], map[], 0, mjpegFd,
                            NoFrame, [], None, 0, []), Hdmi, hdmiCrtc).value;
    assert Dsi in m1.crtc;
    assert m1.useCount == m.useCount + 2;
  }

  /** After `stop` the preview holds no camera frame: every reference it took
      has been given back. */
  lemma StopReleasesEverything(p: Preview, m: Manager)
    requires Consistent(p.slot, p.frameLog)
    requires Stop(p, m).Ok?
    ensures forall q: RequestId :: Held(Stop(p, m).value.1.frameLog, q) == 0
  {
    DropReleasesEverything(p.slot, p.frameLog);
  }
}

=== FILE: py_ints.dfy ===
/** Python's `int(text, base)` for base 10, its base-16 reading of hex digits
    without the optional "0x"/"0X" prefix (which this model rejects; the
    colour components mycam/config.py reads are two-character slices), and
    `str(n)` on integers: the conversions applied to configuration values. */
module PyInts {
  import opened Common

  /** `str.isspace()`: the characters `int()` ignores around a number. */
  predicate IsSpace(c: char) {
    || ('\t' <= c <= '\r') || ('\U{1c}' <= c <= '\U{1f}') || c == ' ' || c == '\U{85}' || c == '\U{a0}'
    || c == '\U{1680}' || ('\U{2000}' <= c <= '\U{200a}') || c == '\U{2028}' || c == '\U{2029}'
    || c == '\U{202f}' || c == '\U{205f}' || c == '\U{3000}'
  }

  function StripStart(s: string): (t: string)
    ensures |t| <= |s| && t == s[|s| - |t|..]
    ensures forall i :: 0 <= i < |s| - |t| ==> IsSpace(s[i])
    ensures |t| > 0 ==> !IsSpace(t[0])
  {
    if |s| > 0 && IsSpace(s[0]) then StripStart(s[1..]) else s
  }

  function StripEnd(s: string): (t: string)
    ensures |t| <= |s| && t == s[..|t|]
    ensures forall i :: |t| <= i < |s| ==> IsSpace(s[i])
    ensures |t| > 0 ==> !IsSpace(t[|t| - 1])
  {
    if |s| > 0 && IsSpace(s[|s| - 1]) then StripEnd(s[..|s| - 1]) else s
  }

  /** `str.strip()`: the longest middle part with no space at either end. */
  function Strip(s: string): (t: string)
    ensures exists i, j :: 0 <= i <= j <= |s| && t == s[i..j]
                        && (forall k :: 0 <= k < i ==> IsSpace(s[k])) && (forall k :: j <= k < |s| ==> IsSpace(s[k]))
    ensures |t| > 0 ==> !IsSpace(t[0]) && !IsSpace(t[|t| - 1])
  {
    var a := StripStart(s);
    var t := StripEnd(a);
    assert t == s[|s| - |a|..|s| - |a| + |t|];
    t
  }

  /** Text with no space at either end strips to itself. */
  lemma StripClean(s: string)
    requires |s| > 0 && !IsSpace(s[0]) && !IsSpace(s[|s| - 1])
    ensures Strip(s) == s
  {
    assert StripStart(s) == s;
    assert StripEnd(s) == s;
  }

  /** The value of one digit in `base` (10 or 16, either letter case). */
  function DigitValue(c: char, base: nat): (r: Option<nat>)
    ensures r.Some? ==> r.value < base
  {
    if '0' <= c <= '9' && (c as int) - ('0' as int) < base then Some((c as int) - ('0' as int))
    else if base == 16 && 'a' <= c <= 'f' then Some((c as int) - ('a' as int) + 10)
    else if base == 16 && 'A' <= c <= 'F' then Some((c as int) - ('A' as int) + 10)
    else None
  }

  /** Digits with single underscores between them (`1_000`), read from the
      right: the value of a valid digit string, else `None`. */
  function ParseDigits(s: string, base: nat): (r: Option<nat>)
    decreases |s|
  {
    if |s| == 0 || DigitValue(s[|s| - 1], base).None? then None
    else if |s| == 1 then DigitValue(s[0], base)
    else
      var init := if s[|s| - 2] == '_' then s[..|s| - 2] else s[..|s| - 1];
      var v := ParseDigits(init, base);
      if v.None? then None else Some(v.value * base + DigitValue(s[|s| - 1], base).value)
  }

  /** A digit string accepted by `ParseDigits` holds digits and underscores
      only, and starts with a digit. */
  lemma {:induction false} ParseDigitsChars(s: string, base: nat)
    requires ParseDigits(s, base).Some?
    decreases |s|
    ensures |s| > 0 && DigitValue(s[0], base).Some?
    ensures forall i :: 0 <= i < |s| ==> DigitValue(s[i], base).Some? || s[i] == '_'
  {
    if |s| > 1 {
      var init := if s[|s| - 2] == '_' then s[..|s| - 2] else s[..|s| - 1];
      ParseDigitsChars(init, base);
      assert s[0] == init[0];
      forall i | 0 <= i < |s| ensures DigitValue(s[i], base).Some? || s[i] == '_' {
        if i < |init| {
          assert s[i] == init[i];
        }
      }
    }
  }

  /** The number in already stripped text: an optional sign, then digits. */
  function ParseSigned(t: string, base: nat): (r: Option<int>)
  {
    if |t| > 0 && (t[0] == '-' || t[0] == '+') then
      var v := ParseDigits(t[1..], base);
      if v.None? then None
      else if t[0] == '-' then Some(0 - v.value)
      else Some(v.value)
    else
      var v := ParseDigits(t, base);
      if v.None? then None else Some(v.value)
  }

  /** `int(text, base)`: spaces around, an optional sign, then digits.
      `None` stands for `ValueError`. */
  function ParseInt(text: string, base: nat): (r: Option<int>)
  {
    ParseSigned(Strip(text), base)
  }

  /** Text whose first non-space character is neither a sign nor a digit is
      not a number. */
  lemma ParseIntRejects(text: string, base: nat)
    requires |Strip(text)| > 0
    requires var c := Strip(text)[0]; c != '-' && c != '+' && DigitValue(c, base).None?
    ensures ParseInt(text, base).None?
  {
    if ParseDigits(Strip(text), base).Some? {
      ParseDigitsChars(Strip(text), base);
    }
  }

  function DigitChar(d: nat): (c: char)
    requires d < 10
    ensures DigitValue(c, 10) == Some(d)
  {
    (('0' as int) + d) as char
  }

  /** The decimal digits of `n`, most significant first, without leading
      zeros. */
  function Digits(n: nat): (s: string)
    ensures |s| > 0 && forall i :: 0 <= i < |s| ==> '0' <= s[i] <= '9'
  {
    if n < 10 then [DigitChar(n)] else Digits(n / 10) + [DigitChar(n % 10)]
  }

  /** `str(n)`. */
  function IntToString(n: int): (s: string)
    ensures |s| > 0 && (forall i :: 0 < i < |s| ==> '0' <= s[i] <= '9')
    ensures s[0] == '-' <==> n < 0
    ensures s[0] != '-' ==> '0' <= s[0] <= '9'
  {
    if n < 0 then "-" + Digits(-n) else Digits(n)
  }

  lemma {:induction false} ParseDigitsOfDigits(n: nat)
    decreases n
    ensures ParseDigits(Digits(n), 10) == Some(n)
  {
    if n >= 10 {
      ParseDigitsOfDigits(n / 10);
      var s := Digits(n);
      assert s[..|s| - 1] == Digits(n / 10);
      assert '0' <= s[|s| - 2] <= '9';
    }
  }

  lemma ParseSignedNegative(n: nat)
    requires n > 0
    ensures ParseSigned("-" + Digits(n), 10) == Some(0 - n)
  {
    var s := "-" + Digits(n);
    assert s[1..] == Digits(n);
    ParseDigitsOfDigits(n);
  }

  lemma ParseSignedDigits(n: nat)
    ensures ParseSigned(Digits(n), 10) == Some(n)
  {
    ParseDigitsOfDigits(n);
  }

  lemma IntToStringClean(n: int)
    ensures Strip(IntToString(n)) == IntToString(n)
  {
    var s := IntToString(n);
    assert s[0] == '-' || '0' <= s[0] <= '9';
    assert s[|s| - 1] == '-' || '0' <= s[|s| - 1] <= '9';
    StripClean(s);
  }

  /** `int(str(n)) == n`. */
  lemma ParseIntToString(n: int)
    ensures ParseInt(IntToString(n), 10) == Some(n)
  {
    IntToStringClean(n);
    if n < 0 {
      ParseSignedNegative(-n);
    } else {
      ParseSignedDigits(n);
    }
  }

  function HexChar(d: nat): (c: char)
    requires d < 16
    ensures DigitValue(c, 16) == Some(d)
  {
    if d < 10 then DigitChar(d) else (('a' as int) + d - 10) as char
  }

  /** The lower-case hexadecimal digits of `n`. */
  function HexDigits(n: nat): (s: string)
    ensures |s| > 0 && (n >= 16 ==> |s| >= 2)
    ensures forall i :: 0 <= i < |s| ==> DigitValue(s[i], 16).Some?
  {
    if n < 16 then [HexChar(n)] else HexDigits(n / 16) + [HexChar(n % 16)]
  }

  /** Two hex digits read back as their value. */
  lemma HexPair(s: string, a: nat, b: nat)
    requires a < 16 && b < 16 && s == [HexChar(a), HexChar(b)]
    ensures ParseInt(s, 16) == Some(16 * a + b)
  {
    assert !IsSpace(s[0]) && !IsSpace(s[1]);
    StripClean(s);
    assert s[..1] == [HexChar(a)];
    assert ParseDigits(s, 16) == Some(16 * a + b);
  }

  /** A byte as exactly two hex digits. */
  function HexByte(n: int): (s: string)
    requires 0 <= n < 256
    ensures |s| == 2 && s[0] != '-'
  {
    [HexChar(n / 16), HexChar(n % 16)]
  }

  lemma HexByteReadsBack(n: int)
    requires 0 <= n < 256
    ensures ParseInt(HexByte(n), 16) == Some(n)
  {
    var a, b := n / 16, n % 16;
    assert n == 16 * a + b;
    HexPair(HexByte(n), a, b);
  }

  /** `"{0:02x}".format(n)`: at least two characters, zero-padded after any
      sign. */
  function Hex2(n: int): (s: string)
    ensures |s| >= 2
    ensures n >= 0 ==> s[0] != '-'
    ensures 0 <= n < 256 ==> s == HexByte(n)
  {
    if n < 0 then "-" + HexDigits(-n)
    else if n < 256 then HexByte(n)
    else HexDigits(n)
  }

  /** A byte written by `Hex2` reads back with `int(_, 16)`. */
  lemma Hex2ReadsBack(n: int)
    requires 0 <= n < 256
    ensures |Hex2(n)| == 2 && ParseInt(Hex2(n), 16) == Some(n)
  {
    HexByteReadsBack(n);
  }
}

=== FILE: state_numbers.dfy ===
/** The `StateNumber` change tracker (mycam/toolkit.py, duplicated verbatim in
    mycam/user_interface.py): a value, the last value that counted as a
    change, and ONE shared "changed since the last `once()`" flag. */
module StateNumbers {
  import opened Common

  /** The Python values the user interface stores in a `StateNumber`. */
  datatype PyValue = PyNone | PyBool(b: bool) | PyInt(i: int) | PyStr(s: string)

  /** The integer a bool or int stands for in Python arithmetic and `==`. */
  function NumberOf(v: PyValue): int
    requires v.PyBool? || v.PyInt?
  {
    match v
    case PyBool(b) => if b then 1 else 0
    case PyInt(i) => i
  }

  /** Python `==` on these values: `True == 1` and `False == 0` hold, a string
      never equals a number and `None` equals only `None`. */
  predicate PyEq(a: PyValue, b: PyValue) {
    if a.PyNone? || b.PyNone? then a.PyNone? && b.PyNone?
    else if a.PyStr? || b.PyStr? then a.PyStr? && b.PyStr? && a.s == b.s
    else NumberOf(a) == NumberOf(b)
  }

  /** Python truthiness (`if value:`). */
  predicate Truthy(v: PyValue) {
    match v
    case PyNone => false
    case PyBool(b) => b
    case PyInt(i) => i != 0
    case PyStr(s) => s != ""
  }

  lemma PyEqIsEquivalence(a: PyValue, b: PyValue, c: PyValue)
    ensures PyEq(a, a)
    ensures PyEq(a, b) ==> PyEq(b, a)
    ensures PyEq(a, b) && PyEq(b, c) ==> PyEq(a, c)
  {
  }

  /** Python equality is coarser than identity of the modelled value. */
  lemma PyEqIdentifiesBoolAndInt()
    ensures PyEq(PyBool(true), PyInt(1)) && PyBool(true) != PyInt(1)
    ensures PyEq(PyBool(false), PyInt(0))
  {
  }

  datatype StateNumber = StateNumber(value: PyValue, lastValue: PyValue, changed: bool)

  /** `StateNumber(initial)`. */
  function New(initial: PyValue): (s: StateNumber)
    ensures s.lastValue == PyNone
    ensures s.changed <==> !initial.PyNone?
    ensures s.value == initial
  {
    if !initial.PyNone? then StateNumber(initial, PyNone, true)
    else StateNumber(PyNone, PyNone, false)
  }

  /** `set(v)`: always stores `v`; counts as a change (and becomes the new
      `last_value`) only when it differs from `last_value`. */
  function Set(s: StateNumber, v: PyValue): (s': StateNumber)
    ensures s'.value == v
    ensures s.changed ==> s'.changed
    ensures PyEq(v, s.lastValue) ==> s'.lastValue == s.lastValue && s'.changed == s.changed
    ensures !PyEq(v, s.lastValue) ==> s'.lastValue == v && s'.changed
  {
    if !PyEq(v, s.lastValue) then StateNumber(v, v, true)
    else s.(value := v)
  }

  /** `once()`: reports the flag and clears it; value and last value are kept. */
  function Once(s: StateNumber): (r: (bool, StateNumber))
    ensures r.0 <==> s.changed
    ensures !r.1.changed
    ensures r.1.value == s.value && r.1.lastValue == s.lastValue
  {
    (s.changed, s.(changed := false))
  }

  /** After `set(v)`, `last_value` equals `v` in Python's sense. */
  lemma SetRemembers(s: StateNumber, v: PyValue)
    ensures PyEq(Set(s, v).lastValue, v)
  {
    PyEqIsEquivalence(v, s.lastValue, v);
  }

  /** Setting the same value twice in a row is the same as setting it once. */
  lemma SetIdempotent(s: StateNumber, v: PyValue)
    ensures Set(Set(s, v), v) == Set(s, v)
  {
    SetRemembers(s, v);
    PyEqIsEquivalence(v, Set(s, v).lastValue, v);
  }

  /** A second `once()` without an intervening changing `set` reports false. */
  lemma OnceConsumes(s: StateNumber)
    ensures !Once(Once(s).1).0
  {
  }

  /** Once a change has been consumed, setting the same value again is not
      reported: one change yields at most one `once() == true`. */
  lemma RepeatedSetNotReported(s: StateNumber, v: PyValue)
    ensures !Once(Set(Once(Set(s, v)).1, v)).0
  {
    SetRemembers(s, v);
    PyEqIsEquivalence(v, Set(s, v).lastValue, v);
  }

  /** A fresh holder's `last_value` is `None`, so the first `set` of any
      non-`None` value is reported, even the value it was built with. */
  lemma FirstSetAfterNewIsChange(initial: PyValue, v: PyValue)
    requires !v.PyNone?
    ensures Once(Set(Once(New(initial)).1, v)).0
  {
  }

  /** One step a client can take on a holder. */
  datatype Op = DoSet(v: PyValue) | DoOnce

  function Step(s: StateNumber, op: Op): StateNumber {
    match op
    case DoSet(v) => Set(s, v)
    case DoOnce => Once(s).1
  }

  function Final(s: StateNumber, ops: seq<Op>): StateNumber
    decreases |ops|
  {
    if |ops| == 0 then s else Final(Step(s, ops[0]), ops[1..])
  }

  /** How many of the `once()` calls in `ops` return true. */
  function Reports(s: StateNumber, ops: seq<Op>): nat
    decreases |ops|
  {
    if |ops| == 0 then 0
    else
      (if ops[0].DoOnce? && s.changed then 1 else 0) + Reports(Step(s, ops[0]), ops[1..])
  }

  /** How many of the `set` calls in `ops` are actual changes of `last_value`. */
  function Changes(s: StateNumber, ops: seq<Op>): nat
    decreases |ops|
  {
    if |ops| == 0 then 0
    else
      (if ops[0].DoSet? && !PyEq(ops[0].v, s.lastValue) then 1 else 0) + Changes(Step(s, ops[0]), ops[1..])
  }

  /** Over any run, `once()` reports true at most once per actual change
      (plus once for a pending initial change); a change still pending at the
      end is counted on the left too. */
  lemma {:induction false} ReportsBoundedByChanges(s: StateNumber, ops: seq<Op>)
    ensures Reports(s, ops) + Bit(Final(s, ops).changed) <= Bit(s.changed) + Changes(s, ops)
    decreases |ops|
  {
    if |ops| > 0 {
      ReportsBoundedByChanges(Step(s, ops[0]), ops[1..]);
    }
  }
}

=== FILE: toolkit.dfy ===
/** The widget toolkit of mycam/toolkit.py: tap events, buttons and labels
    bound to `StateNumber`s, and the six-bar `Layout` that places, renders and
    hit-tests them. Drawing itself (fonts, fills, text) is abstracted to the
    fact that a widget drew. */
module Toolkit {
  import opened Common
  import opened StateNumbers

  /** `TapEvent(x, y)`; the constructor stores its arguments swapped. */
  datatype TapEvent = TapEvent(x: int, y: int)

  function MakeTapEvent(x: int, y: int): (e: TapEvent)
    ensures e.x == y && e.y == x
  {
    TapEvent(y, x)
  }

  /** Building an event from another's fields swaps them back, and the swap
      is invisible only on the diagonal. */
  lemma TapEventSwap(x: int, y: int)
    ensures var e := MakeTapEvent(x, y); MakeTapEvent(e.x, e.y) == TapEvent(x, y)
    ensures MakeTapEvent(x, y) == TapEvent(x, y) <==> x == y
  {
  }

  const Padding: int := 10
  const BarHeight: int := 64

  /** Attachment bars, in the order `compute`, `render` and `tap` visit them. */
  const TopLeft: nat := 0
  const TopMiddle: nat := 1
  const TopRight: nat := 2
  const BottomLeft: nat := 3
  const BottomMiddle: nat := 4
  const BottomRight: nat := 5
  const Attachments: nat := 6

  predicate IsBottom(a: nat) {
    a == BottomLeft || a == BottomMiddle || a == BottomRight
  }

  /** A `Button` or `Label`. The two differ only in what they draw; both gate
      drawing on `state.once()` and share `Button.tap`. `state` indexes the
      store of `StateNumber`s, since several widgets may hold the same one. */
  datatype Widget = Widget(
    width: int, state: nat, handler: Option<nat>,
    x: real, y: real, x2: real, y2: real,
    layoutWidth: int, layoutHeight: int)

  /** A freshly constructed widget: every coordinate is 0 until `compute`. */
  function NewWidget(width: int, state: nat, handler: Option<nat>): Widget {
    Widget(width, state, handler, 0.0, 0.0, 0.0, 0.0, 0, 0)
  }

  /** The same widget apart from where `compute` put it. */
  predicate SameWidget(a: Widget, b: Widget) {
    a.width == b.width && a.state == b.state && a.handler == b.handler
  }

  datatype Layout = Layout(width: int, height: int, widgets: seq<seq<Widget>>)

  predicate Valid(l: Layout) {
    |l.widgets| == Attachments
  }

  function NewLayout(width: int, height: int): (l: Layout)
    ensures Valid(l)
    ensures l.width == width && l.height == height
    ensures forall a :: 0 <= a < Attachments ==> l.widgets[a] == []
  {
    Layout(width, height, seq(Attachments, _ => []))
  }

  datatype LayoutError = UnknownAttachment(attach: int)

  /** `add_button` / `add_label` / `add_widget`: append to one bar. The bars
      live in a dict keyed 0..5, so any other key raises `KeyError`. */
  function AddWidget(l: Layout, attach: int, w: Widget): (r: Result<Layout, LayoutError>)
    requires Valid(l)
    ensures r.Ok? <==> 0 <= attach < Attachments
    ensures r.Ok? ==> Valid(r.value) && r.value.width == l.width && r.value.height == l.height
    ensures r.Ok? ==> r.value.widgets[attach] == l.widgets[attach] + [w]
    ensures r.Ok? ==> forall a :: 0 <= a < Attachments && a != attach ==> r.value.widgets[a] == l.widgets[a]
  {
    if 0 <= attach < Attachments then Ok(l.(widgets := l.widgets[attach := l.widgets[attach] + [w]]))
    else Err(UnknownAttachment(attach))
  }

  // ---------------------------------------------------------------- compute

  /** The running offset after packing `ws`: each widget advances it by its
      width plus the padding. `compute`'s `total` is this minus one padding. */
  function Advance(ws: seq<Widget>): int {
    if |ws| == 0 then 0 else ws[0].width + Padding + Advance(ws[1..])
  }

  function Place(w: Widget, offset: int, lw: int, lh: int): Widget {
    w.(x := offset as real, y := 0.0, x2 := (offset + w.width) as real, y2 := BarHeight as real,
       layoutWidth := lw, layoutHeight := lh)
  }

  /** The first loop of `compute` for one bar: widgets side by side from
      `offset`, each `width` wide and one bar high, `Padding` apart (see
      `PackPlaced`). */
  function Pack(ws: seq<Widget>, offset: int, lw: int, lh: int): (r: seq<Widget>)
    ensures |r| == |ws|
    decreases |ws|
  {
    if |ws| == 0 then []
    else [Place(ws[0], offset, lw, lh)] + Pack(ws[1..], offset + ws[0].width + Padding, lw, lh)
  }

  /** Where `Pack` puts the widgets `ws`: each as wide as declared and one
      bar high, the first at `offset`, neighbours `Padding` apart, the last
      ending one padding short of the offset `Advance` reaches. */
  ghost predicate Packed(ws: seq<Widget>, offset: int, lw: int, lh: int, r: seq<Widget>) {
    && |r| == |ws|
    && (forall i :: 0 <= i < |r| ==>
          SameWidget(r[i], ws[i]) && r[i].x2 - r[i].x == ws[i].width as real &&
          r[i].y == 0.0 && r[i].y2 == BarHeight as real &&
          r[i].layoutWidth == lw && r[i].layoutHeight == lh)
    && (|r| > 0 ==> r[0].x == offset as real)
    && (forall i, j :: 0 <= i && j == i + 1 < |r| ==> r[j].x == r[i].x2 + Padding as real)
    && (|r| > 0 ==> r[|r| - 1].x2 == (offset + Advance(ws) - Padding) as real)
  }

  lemma {:induction false} PackPlaced(ws: seq<Widget>, offset: int, lw: int, lh: int)
    ensures Packed(ws, offset, lw, lh, Pack(ws, offset, lw, lh))
    decreases |ws|
  {
    if |ws| > 0 {
      var next := offset + ws[0].width + Padding;
      PackPlaced(ws[1..], next, lw, lh);
      PackCons(ws, offset, lw, lh, Pack(ws[1..], next, lw, lh));
    }
  }

  /** Placing the first widget at `offset` in front of the rest packed from
      the next offset packs the whole bar. */
  lemma PackCons(ws: seq<Widget>, offset: int, lw: int, lh: int, rest: seq<Widget>)
    requires |ws| > 0 && Packed(ws[1..], offset + ws[0].width + Padding, lw, lh, rest)
    ensures Packed(ws, offset, lw, lh, [Place(ws[0], offset, lw, lh)] + rest)
  {
    var r := [Place(ws[0], offset, lw, lh)] + rest;
    forall i | 0 <= i < |r|
      ensures SameWidget(r[i], ws[i]) && r[i].x2 - r[i].x == ws[i].width as real
      ensures r[i].y == 0.0 && r[i].y2 == BarHeight as real
      ensures r[i].layoutWidth == lw && r[i].layoutHeight == lh
    {
      if i > 0 {
        assert r[i] == rest[i - 1] && ws[i] == ws[1..][i - 1];
      }
    }
    forall i, j | 0 <= i && j == i + 1 < |r|
      ensures r[j].x == r[i].x2 + Padding as real
    {
      if i > 0 {
        assert r[j] == rest[j - 1] && r[i] == rest[i - 1];
      } else {
        assert r[j] == rest[0];
      }
    }
    if |rest| > 0 {
      assert r[|r| - 1] == rest[|rest| - 1];
    }
  }

  /** `_offset`: move every widget of a bar by (dx, dy). */
  function Shift(ws: seq<Widget>, dx: real, dy: real): (r: seq<Widget>)
    ensures |r| == |ws|
    ensures forall i :: 0 <= i < |r| ==>
              r[i] == ws[i].(x := ws[i].x + dx, y := ws[i].y + dy, x2 := ws[i].x2 + dx, y2 := ws[i].y2 + dy)
  {
    seq(|ws|, i requires 0 <= i < |ws| =>
      ws[i].(x := ws[i].x + dx, y := ws[i].y + dy, x2 := ws[i].x2 + dx, y2 := ws[i].y2 + dy))
  }

  /** The horizontal shift of a bar whose packed row spans `total`. The middle
      bars use Python's true division, hence `real`. */
  function DeltaX(a: nat, total: int, width: int): real {
    if a == TopLeft || a == BottomLeft then Padding as real
    else if a == TopMiddle || a == BottomMiddle then (width as real) / 2.0 - (total as real) / 2.0
    else (width - total - Padding) as real
  }

  function DeltaY(a: nat, height: int): real {
    if IsBottom(a) then (height - BarHeight) as real else 0.0
  }

  /** Where `compute` puts the widgets `orig` of bar `a` in a `width` x
      `height` layout: every widget one bar high and as wide as declared,
      `Padding` between neighbours; left bars start at `Padding`, right bars
      end `Padding` before the right edge, middle bars are centred, bottom bars
      sit on the bottom edge. Nothing but the geometry changes. */
  ghost predicate BarPlaced(orig: seq<Widget>, a: nat, width: int, height: int, r: seq<Widget>) {
    && |r| == |orig|
    && (forall i :: 0 <= i < |r| ==>
          SameWidget(r[i], orig[i]) &&
          r[i].x2 - r[i].x == orig[i].width as real &&
          r[i].y2 - r[i].y == BarHeight as real &&
          r[i].y == (if IsBottom(a) then (height - BarHeight) as real else 0.0) &&
          r[i].layoutWidth == width && r[i].layoutHeight == height)
    && (forall i, j :: 0 <= i && j == i + 1 < |r| ==> r[j].x == r[i].x2 + Padding as real)
    && ((a == TopLeft || a == BottomLeft) && |r| > 0 ==> r[0].x == Padding as real)
    && ((a == TopRight || a == BottomRight) && |r| > 0 ==> r[|r| - 1].x2 == (width - Padding) as real)
    && ((a == TopMiddle || a == BottomMiddle) && |r| > 0 ==> r[0].x + r[|r| - 1].x2 == width as real)
  }

  /** `compute` for the widgets of one bar: pack them from 0, then shift
      the row into place. */
  function PlaceBar(orig: seq<Widget>, a: nat, width: int, height: int): seq<Widget> {
    Shift(Pack(orig, 0, width, height), DeltaX(a, Advance(orig) - Padding, width), DeltaY(a, height))
  }

  /** Packing a bar from 0 and shifting it as `compute` does places it. */
  lemma ShiftedPackPlaced(orig: seq<Widget>, a: nat, width: int, height: int)
    ensures BarPlaced(orig, a, width, height, PlaceBar(orig, a, width, height))
  {
    var total := Advance(orig) - Padding;
    var p := Pack(orig, 0, width, height);
    PackPlaced(orig, 0, width, height);
    var dx, dy := DeltaX(a, total, width), DeltaY(a, height);
    var r := PlaceBar(orig, a, width, height);
    assert r == Shift(p, dx, dy);
    forall i | 0 <= i < |r|
      ensures SameWidget(r[i], orig[i]) && r[i].x2 - r[i].x == orig[i].width as real
      ensures r[i].y2 - r[i].y == BarHeight as real && r[i].y == dy
      ensures r[i].layoutWidth == width && r[i].layoutHeight == height
    {
      assert r[i] == p[i].(x := p[i].x + dx, y := p[i].y + dy, x2 := p[i].x2 + dx, y2 := p[i].y2 + dy);
    }
    forall i, j | 0 <= i && j == i + 1 < |r|
      ensures r[j].x == r[i].x2 + Padding as real
    {
      assert p[j].x == p[i].x2 + Padding as real;
    }
    if |r| > 0 {
      assert r[0].x == dx && r[|r| - 1].x2 == total as real + dx;
    }
  }

  function ComputeBar(l: Layout, a: nat): (r: seq<Widget>)
    requires a < |l.widgets|
    ensures BarPlaced(l.widgets[a], a, l.width, l.height, r)
  {
    ShiftedPackPlaced(l.widgets[a], a, l.width, l.height);
    PlaceBar(l.widgets[a], a, l.width, l.height)
  }

  /** `compute()`: places every bar as `BarPlaced` describes. */
  function Compute(l: Layout): (r: Layout)
    requires Valid(l)
    ensures Valid(r) && r.width == l.width && r.height == l.height
    ensures forall a :: 0 <= a < Attachments ==> BarPlaced(l.widgets[a], a, l.width, l.height, r.widgets[a])
  {
    var r := l.(widgets := seq(Attachments, a requires 0 <= a < Attachments => ComputeBar(l, a)));
    assert forall a :: 0 <= a < Attachments ==> r.widgets[a] == ComputeBar(l, a);
    r
  }

  /** Widgets that differ only in geometry advance the offset alike. */
  lemma {:induction false} AdvanceIgnoresOldGeometry(ws: seq<Widget>, vs: seq<Widget>)
    requires |ws| == |vs|
    requires forall i :: 0 <= i < |ws| ==> SameWidget(ws[i], vs[i])
    ensures Advance(ws) == Advance(vs)
    decreases |ws|
  {
    if |ws| > 0 {
      assert SameWidget(ws[0], vs[0]);
      AdvanceIgnoresOldGeometry(ws[1..], vs[1..]);
    }
  }

  /** Packing looks only at widths, never at the old coordinates. */
  lemma {:induction false} PackIgnoresOldGeometry(ws: seq<Widget>, vs: seq<Widget>, offset: int, lw: int, lh: int)
    requires |ws| == |vs|
    requires forall i :: 0 <= i < |ws| ==> SameWidget(ws[i], vs[i])
    ensures Pack(ws, offset, lw, lh) == Pack(vs, offset, lw, lh)
    decreases |ws|
  {
    if |ws| > 0 {
      var next := offset + ws[0].width + Padding;
      assert SameWidget(ws[0], vs[0]);
      PackIgnoresOldGeometry(ws[1..], vs[1..], next, lw, lh);
      calc {
        Pack(ws, offset, lw, lh);
        [Place(ws[0], offset, lw, lh)] + Pack(ws[1..], next, lw, lh);
        [Place(vs[0], offset, lw, lh)] + Pack(vs[1..], next, lw, lh);
        Pack(vs, offset, lw, lh);
      }
    }
  }

  /** A bar placed by `compute` is placed the same way again. */
  lemma ComputeBarAgain(l: Layout, a: nat)
    requires Valid(l) && a < Attachments
    ensures ComputeBar(Compute(l), a) == ComputeBar(l, a)
  {
    var r := Compute(l);
    assert BarPlaced(l.widgets[a], a, l.width, l.height, r.widgets[a]);
    PackIgnoresOldGeometry(r.widgets[a], l.widgets[a], 0, l.width, l.height);
    AdvanceIgnoresOldGeometry(r.widgets[a], l.widgets[a]);
  }

  /** Running `compute()` again changes nothing. */
  lemma ComputeIdempotent(l: Layout)
    requires Valid(l)
    ensures Compute(Compute(l)) == Compute(l)
  {
    var r := Compute(l);
    var rr := Compute(r);
    forall a | 0 <= a < Attachments
      ensures rr.widgets[a] == r.widgets[a]
    {
      ComputeBarAgain(l, a);
    }
    assert rr.widgets == r.widgets;
  }

  /** Packing one more widget leaves the earlier ones where they were. */
  lemma {:induction false} PackAppend(ws: seq<Widget>, w: Widget, offset: int, lw: int, lh: int)
    ensures Pack(ws + [w], offset, lw, lh)[..|ws|] == Pack(ws, offset, lw, lh)
    decreases |ws|
  {
    if |ws| > 0 {
      var next := offset + ws[0].width + Padding;
      assert (ws + [w])[0] == ws[0] && (ws + [w])[1..] == ws[1..] + [w];
      PackAppend(ws[1..], w, next, lw, lh);
    }
  }

  /** A left bar's shift does not depend on its length, so appending a
      widget leaves the earlier ones where they were. */
  lemma PlaceBarAppendLeft(ws: seq<Widget>, w: Widget, a: nat, width: int, height: int)
    requires a == TopLeft || a == BottomLeft
    ensures |PlaceBar(ws + [w], a, width, height)| == |ws| + 1
    ensures PlaceBar(ws + [w], a, width, height)[..|ws|] == PlaceBar(ws, a, width, height)
  {
    PackAppend(ws, w, 0, width, height);
    var p1, p := Pack(ws + [w], 0, width, height), Pack(ws, 0, width, height);
    var dy := DeltaY(a, height);
    var r1, r := Shift(p1, Padding as real, dy), Shift(p, Padding as real, dy);
    assert PlaceBar(ws + [w], a, width, height) == r1;
    assert PlaceBar(ws, a, width, height) == r;
    forall i | 0 <= i < |ws| ensures r1[i] == r[i] {
      assert p1[i] == p[i];
    }
  }

  /** `compute` places each bar from that bar's own widgets. */
  lemma ComputeBarOf(l: Layout, b: nat)
    requires Valid(l) && b < Attachments
    ensures Compute(l).widgets[b] == PlaceBar(l.widgets[b], b, l.width, l.height)
  {
    assert Compute(l).widgets[b] == ComputeBar(l, b);
  }

  /** `add_widget` followed by `compute`: the new widget comes last in its
      bar, as wide as declared and one padding after its neighbour; a right
      bar now ends with it, a left bar keeps its earlier widgets where they
      were, and every other bar is placed as before. */
  lemma AddedWidgetPlaced(l: Layout, a: nat, w: Widget)
    requires Valid(l) && a < Attachments
    ensures var c := Compute(AddWidget(l, a, w).value).widgets;
            var n := |l.widgets[a]|;
            && |c[a]| == n + 1 && SameWidget(c[a][n], w) && c[a][n].x2 - c[a][n].x == w.width as real
            && (n > 0 ==> c[a][n].x == c[a][n - 1].x2 + Padding as real)
            && ((a == TopRight || a == BottomRight) ==> c[a][n].x2 == (l.width - Padding) as real)
            && ((a == TopLeft || a == BottomLeft) ==> c[a][..n] == Compute(l).widgets[a])
            && (forall b :: 0 <= b < Attachments && b != a ==> c[b] == Compute(l).widgets[b])
  {
    var l1 := AddWidget(l, a, w).value;
    var ws := l.widgets[a];
    var n := |ws|;
    var c := Compute(l1).widgets;
    assert l1.widgets[a] == ws + [w];
    assert BarPlaced(ws + [w], a, l.width, l.height, c[a]);
    assert (ws + [w])[n] == w;
    if n > 0 {
      assert c[a][n].x == c[a][n - 1].x2 + Padding as real;
    }
    if a == TopLeft || a == BottomLeft {
      ComputeBarOf(l1, a);
      ComputeBarOf(l, a);
      PlaceBarAppendLeft(ws, w, a, l.width, l.height);
    }
    forall b | 0 <= b < Attachments && b != a ensures c[b] == Compute(l).widgets[b] {
      ComputeBarOf(l1, b);
      ComputeBarOf(l, b);
    }
  }

  // ---------------------------------------------------------------- render

  /** All widgets in the order `render` and `tap` visit them. */
  function Flatten(bars: seq<seq<Widget>>): (r: seq<Widget>)
    ensures |bars| == 0 ==> r == []
  {
    if |bars| == 0 then [] else bars[0] + Flatten(bars[1..])
  }

  predicate StatesIn(ws: seq<Widget>, store: seq<StateNumber>) {
    forall i :: 0 <= i < |ws| ==> ws[i].state < |store|
  }

  /** Every widget of every bar refers to a state of the store. */
  predicate LayoutStatesIn(l: Layout, store: seq<StateNumber>) {
    forall a, i :: 0 <= a < |l.widgets| && 0 <= i < |l.widgets[a]| ==> l.widgets[a][i].state < |store|
  }

  predicate HoldsState(ws: seq<Widget>, k: nat) {
    exists j :: 0 <= j < |ws| && ws[j].state == k
  }

  /** Widget `i` repaints: its state reports a change and no widget before it
      holding the same `StateNumber` has consumed that change. */
  predicate Draws(ws: seq<Widget>, store: seq<StateNumber>, i: int)
    requires StatesIn(ws, store) && 0 <= i < |ws|
  {
    store[ws[i].state].changed && forall j :: 0 <= j < i ==> ws[j].state != ws[i].state
  }

  /** Render each widget in turn (`Button.render` / `Label.render`): each calls
      `once()` on its state and draws iff it returned true. Returns the store
      afterwards and the positions of the widgets that drew. */
  function RenderAll(ws: seq<Widget>, store: seq<StateNumber>): (r: (seq<StateNumber>, set<nat>))
    requires StatesIn(ws, store)
    ensures |r.0| == |store|
    ensures forall i: nat :: i in r.1 <==> i < |ws| && Draws(ws, store, i)
    ensures forall k :: 0 <= k < |store| ==>
              r.0[k].value == store[k].value && r.0[k].lastValue == store[k].lastValue &&
              (r.0[k].changed <==> store[k].changed && !HoldsState(ws, k))
    decreases |ws|
  {
    if |ws| == 0 then (store, {})
    else
      var (drew, s) := Once(store[ws[0].state]);
      var store1 := store[ws[0].state := s];
      var rest := RenderAll(ws[1..], store1);
      assert forall i :: 1 <= i < |ws| ==> (Draws(ws[1..], store1, i - 1) <==> Draws(ws, store, i)) by {
        forall i | 1 <= i < |ws|
          ensures Draws(ws[1..], store1, i - 1) <==> Draws(ws, store, i)
        {
          if Draws(ws, store, i) {
            assert ws[0].state != ws[i].state;
            forall j | 0 <= j < i - 1 ensures ws[1..][j].state != ws[1..][i - 1].state {
              assert ws[1..][j] == ws[j + 1];
            }
          }
          if Draws(ws[1..], store1, i - 1) {
            forall j | 0 <= j < i ensures ws[j].state != ws[i].state {
              if j > 0 { assert ws[j] == ws[1..][j - 1]; }
            }
          }
        }
      }
      assert forall k :: 0 <= k < |store| ==> (HoldsState(ws, k) <==> k == ws[0].state || HoldsState(ws[1..], k)) by {
        forall k | 0 <= k < |store|
          ensures HoldsState(ws, k) <==> k == ws[0].state || HoldsState(ws[1..], k)
        {
          if HoldsState(ws, k) {
            var j :| 0 <= j < |ws| && ws[j].state == k;
            if j > 0 { assert ws[1..][j - 1].state == k; }
          }
          if HoldsState(ws[1..], k) {
            var j :| 0 <= j < |ws[1..]| && ws[1..][j].state == k;
            assert ws[j + 1].state == k;
          }
        }
      }
      (rest.0, (if drew then {0} else {}) + set i: nat | i in rest.1 :: i + 1)
  }

  /** `Layout.render()`: renders every bar in order and returns the buffer
      (here: the positions, in `Flatten` order, of the widgets that repainted
      it) iff some widget drew, and `None` otherwise. */
  function Render(l: Layout, store: seq<StateNumber>): (r: (seq<StateNumber>, Option<set<nat>>))
    requires StatesIn(Flatten(l.widgets), store)
    ensures |r.0| == |store|
    ensures r.1.Some? <==> exists i :: 0 <= i < |Flatten(l.widgets)| && Draws(Flatten(l.widgets), store, i)
    ensures r.1.Some? ==> forall i: nat :: i in r.1.value <==> i < |Flatten(l.widgets)| && Draws(Flatten(l.widgets), store, i)
    ensures forall k :: 0 <= k < |store| ==>
              r.0[k].value == store[k].value && r.0[k].lastValue == store[k].lastValue &&
              (r.0[k].changed <==> store[k].changed && !HoldsState(Flatten(l.widgets), k))
  {
    var ws := Flatten(l.widgets);
    var (store', drawn) := RenderAll(ws, store);
    if drawn == {} then (store', None)
    else
      var i :| i in drawn;
      assert Draws(ws, store, i);
      (store', Some(drawn))
  }

  /** With no change pending in the store, a render draws nothing. */
  lemma RenderQuiet(l: Layout, store: seq<StateNumber>)
    requires StatesIn(Flatten(l.widgets), store)
    requires forall k :: 0 <= k < |store| ==> !store[k].changed
    ensures Render(l, store).1 == None
  {
  }

  /** Two renders in a row: the second draws nothing, because the first one
      consumed every change that any widget could see. */
  lemma RenderTwiceQuiet(l: Layout, store: seq<StateNumber>)
    requires StatesIn(Flatten(l.widgets), store)
    ensures Render(l, Render(l, store).0).1 == None
  {
  }

  // ---------------------------------------------------------------- tap

  /** The closed rectangle test of `Layout.tap`. */
  predicate Contains(w: Widget, x: int, y: int) {
    w.x <= x as real <= w.x2 && w.y <= y as real <= w.y2
  }

  predicate AnyContains(ws: seq<Widget>, x: int, y: int) {
    exists i :: 0 <= i < |ws| && Contains(ws[i], x, y)
  }

  predicate IsFirstHit(ws: seq<Widget>, x: int, y: int, i: int) {
    0 <= i < |ws| && Contains(ws[i], x, y) && forall j :: 0 <= j < i ==> !Contains(ws[j], x, y)
  }

  /** A call of a widget's handler with the argument `Button.tap` passes. */
  datatype HandlerCall = HandlerCall(handler: nat, arg: PyValue)

  /** `Button.tap()`: with a handler, calls it with the negated value when the
      state holds a bool and with `None` otherwise; without one, calls nothing. */
  function ButtonTap(w: Widget, store: seq<StateNumber>): (c: Option<HandlerCall>)
    requires w.state < |store|
    ensures c.Some? <==> w.handler.Some?
    ensures c.Some? ==> c.value.handler == w.handler.value
    ensures c.Some? && store[w.state].value.PyBool? ==> c.value.arg == PyBool(!store[w.state].value.b)
    ensures c.Some? && !store[w.state].value.PyBool? ==> c.value.arg == PyNone
  {
    match w.handler
    case None => None
    case Some(h) =>
      Some(HandlerCall(h, if store[w.state].value.PyBool? then PyBool(!store[w.state].value.b) else PyNone))
  }

  /** A toggle button whose handler stores its argument flips its value, and
      a second tap flips it back. */
  lemma ToggleTwiceRestores(w: Widget, store: seq<StateNumber>)
    requires w.state < |store| && w.handler.Some? && store[w.state].value.PyBool?
    ensures var s1 := Set(store[w.state], ButtonTap(w, store).value.arg);
            var store1 := store[w.state := s1];
            s1.value != store[w.state].value &&
            Set(s1, ButtonTap(w, store1).value.arg).value == store[w.state].value
  {
  }

  datatype Hit = Hit(attach: nat, index: nat, call: Option<HandlerCall>)

  /** The inner loop of `Layout.tap`: the position of the first widget of a
      bar whose rectangle contains the point, or `|ws|` when none does. */
  method FirstHit(ws: seq<Widget>, x: int, y: int) returns (i: nat)
    ensures i <= |ws|
    ensures i < |ws| ==> IsFirstHit(ws, x, y, i)
    ensures i == |ws| ==> !AnyContains(ws, x, y)
  {
    i := 0;
    while i < |ws|
      invariant i <= |ws|
      invariant forall j :: 0 <= j < i ==> !Contains(ws[j], x, y)
    {
      if Contains(ws[i], x, y) {
        return;
      }
      i := i + 1;
    }
  }

  /** `Layout.tap(x, y)`: in every bar, the first widget whose closed
      rectangle contains the point is tapped; `break` leaves only the inner
      loop, so one widget per bar can fire. Handlers are recorded, not run. */
  method Tap(l: Layout, store: seq<StateNumber>, x: int, y: int) returns (hits: seq<Hit>)
    requires Valid(l)
    requires LayoutStatesIn(l, store)
    ensures |hits| <= Attachments
    ensures forall k :: 0 <= k < |hits| ==>
              hits[k].attach < Attachments && IsFirstHit(l.widgets[hits[k].attach], x, y, hits[k].index) &&
              hits[k].call == ButtonTap(l.widgets[hits[k].attach][hits[k].index], store)
    ensures forall k, k' :: 0 <= k < k' < |hits| ==> hits[k].attach < hits[k'].attach
    ensures forall a :: 0 <= a < Attachments ==>
              (AnyContains(l.widgets[a], x, y) <==> exists k :: 0 <= k < |hits| && hits[k].attach == a)
  {
    hits := [];
    var a := 0;
    while a < Attachments
      invariant 0 <= a <= Attachments
      invariant |hits| <= a
      invariant forall k :: 0 <= k < |hits| ==>
                  hits[k].attach < a && IsFirstHit(l.widgets[hits[k].attach], x, y, hits[k].index) &&
                  hits[k].call == ButtonTap(l.widgets[hits[k].attach][hits[k].index], store)
      invariant forall k, k' :: 0 <= k < k' < |hits| ==> hits[k].attach < hits[k'].attach
      invariant forall b :: 0 <= b < a ==>
                  (AnyContains(l.widgets[b], x, y) <==> exists k :: 0 <= k < |hits| && hits[k].attach == b)
    {
      var ws := l.widgets[a];
      var i := FirstHit(ws, x, y);
      var old_hits := hits;
      if i < |ws| {
        assert ws[i].state < |store|;
        hits := hits + [Hit(a, i, ButtonTap(ws[i], store))];
        assert hits[|hits| - 1].attach == a;
      }
      assert forall k :: 0 <= k < |old_hits| ==> hits[k] == old_hits[k];
      a := a + 1;
    }
  }

  /** After `compute`, bars of non-negative widths hold disjoint rectangles,
      so a tap on a point inside a widget's rectangle reaches that widget. */
  lemma {:induction false} ComputedTapReachesWidget(l: Layout, a: nat, i: nat, x: int, y: int)
    requires Valid(l) && a < Attachments
    requires forall j :: 0 <= j < |l.widgets[a]| ==> l.widgets[a][j].width >= 0
    requires i < |Compute(l).widgets[a]| && Contains(Compute(l).widgets[a][i], x, y)
    ensures IsFirstHit(Compute(l).widgets[a], x, y, i)
  {
    var ws := Compute(l).widgets[a];
    assert BarPlaced(l.widgets[a], a, l.width, l.height, ws);
    forall j | 0 <= j < i ensures !Contains(ws[j], x, y) {
      BarIsIncreasing(ws, l.widgets[a], j, i);
    }
  }

  lemma {:induction false} BarIsIncreasing(ws: seq<Widget>, orig: seq<Widget>, j: nat, i: nat)
    requires |ws| == |orig|
    requires forall k :: 0 <= k < |ws| ==> ws[k].x2 - ws[k].x == orig[k].width as real && orig[k].width >= 0
    requires forall k, k' :: 0 <= k && k' == k + 1 < |ws| ==> ws[k'].x == ws[k].x2 + Padding as real
    requires j < i < |ws|
    ensures ws[j].x2 < ws[i].x
    decreases i - j
  {
    assert ws[j + 1].x == ws[j].x2 + Padding as real;
    if j + 1 < i {
      BarIsIncreasing(ws, orig, j + 1, i);
    }
  }
}

=== FILE: user_interface.dfy ===
/** The main status screen of mycam/user_interface.py: a fixed set of
    `StateNumber`s, redrawn region by region only when their `once()` reports
    a change, and fed from the camera's per-frame metadata. The pixels drawn
    are abstracted to the list of regions repainted, in drawing order. */
module UserInterface {
  import opened Common
  import opened StateNumbers

  datatype UI = UI(
    width: int, height: int, fps: int,
    shutter: StateNumber, gain: StateNumber, tc: StateNumber, cameraId: StateNumber,
    zebra: StateNumber, focusAssist: StateNumber, falseColor: StateNumber, guides: StateNumber)

  /** `UI(width, height)`: the toggles start with a value and so report a
      change on the first render; the metadata values start empty. */
  function NewUI(width: int, height: int): (ui: UI)
    ensures ui.width == width && ui.height == height && ui.fps == 60
    ensures ui.zebra.changed && ui.focusAssist.changed && ui.falseColor.changed && ui.guides.changed
    ensures !ui.shutter.changed && !ui.gain.changed && !ui.tc.changed && !ui.cameraId.changed
    ensures ui.zebra.value == ui.focusAssist.value == ui.falseColor.value == PyBool(false)
    ensures ui.guides.value == PyStr("thirds")
    ensures ui.shutter.value == ui.gain.value == ui.tc.value == ui.cameraId.value == PyNone
  {
    UI(width, height, 60,
       New(PyNone), New(PyNone), New(PyNone), New(PyNone),
       New(PyBool(false)), New(PyBool(false)), New(PyBool(false)), New(PyStr("thirds")))
  }

  /** A repainted region of the screen: `draw_value` (a heading over a value),
      `draw_button` (a label over an optionally highlighted fill) and the
      rule-of-thirds grid. For the guides button `caption` is the guides value,
      drawn title-cased. */
  datatype Region =
    | ValueBox(x: int, width: int, name: string, value: PyValue)
    | ButtonBox(x: int, width: int, caption: PyValue, active: bool)
    | ThirdsGrid

  function FpsBox(ui: UI): Region {
    ValueBox(10, 100, "FPS", PyInt(ui.fps))
  }

  function ShutterBox(ui: UI): Region {
    ValueBox(120, 100, "Shutter", ui.shutter.value)
  }

  function GainBox(ui: UI): Region {
    ValueBox(240, 100, "Gain", ui.gain.value)
  }

  function TcBox(ui: UI): Region {
    ValueBox(400, 200, "TC", ui.tc.value)
  }

  function CameraIdBox(ui: UI): Region {
    ValueBox(650, 100, "Camera ID", ui.cameraId.value)
  }

  function ZebraBox(ui: UI): Region {
    ButtonBox(10, 120, PyStr("Zebra"), Truthy(ui.zebra.value))
  }

  function FocusBox(ui: UI): Region {
    ButtonBox(140, 120, PyStr("Focus"), Truthy(ui.focusAssist.value))
  }

  function ExposureBox(ui: UI): Region {
    ButtonBox(270, 120, PyStr("Exposure"), Truthy(ui.falseColor.value))
  }

  /** The guides button is highlighted unless the guides value is "none". */
  function GuidesBox(ui: UI): Region {
    ButtonBox(400, 120, ui.guides.value, !PyEq(ui.guides.value, PyStr("none")))
  }

  /** `if s.once(): draw(region)`: the region drawn iff `s` reports a change. */
  function Gate(s: StateNumber, region: Region): seq<Region> {
    if s.changed then [region] else []
  }

  /** The regions `render_main_screen` draws, in order. */
  function Regions(ui: UI): seq<Region> {
    [FpsBox(ui)] + Gate(ui.shutter, ShutterBox(ui)) + Gate(ui.gain, GainBox(ui)) +
    Gate(ui.tc, TcBox(ui)) + Gate(ui.cameraId, CameraIdBox(ui)) +
    Gate(ui.zebra, ZebraBox(ui)) + Gate(ui.focusAssist, FocusBox(ui)) +
    Gate(ui.falseColor, ExposureBox(ui)) + Gate(ui.guides, GuidesBox(ui)) +
    (if ui.guides.changed && PyEq(ui.guides.value, PyStr("thirds")) then [ThirdsGrid] else [])
  }

  /** Every change flag cleared (each `once()` called), every value kept. */
  function ConsumeAll(ui: UI): UI {
    ui.(shutter := Once(ui.shutter).1, gain := Once(ui.gain).1, tc := Once(ui.tc).1,
        cameraId := Once(ui.cameraId).1, zebra := Once(ui.zebra).1,
        focusAssist := Once(ui.focusAssist).1, falseColor := Once(ui.falseColor).1,
        guides := Once(ui.guides).1)
  }

  /** No holder of the screen reports a change. */
  predicate Quiet(ui: UI) {
    && !ui.shutter.changed && !ui.gain.changed && !ui.tc.changed && !ui.cameraId.changed
    && !ui.zebra.changed && !ui.focusAssist.changed && !ui.falseColor.changed && !ui.guides.changed
  }

  /** `render_main_screen()`: the FPS value is always drawn first, so the
      screen is always handed to `paint_hook` (`painted`); afterwards no
      holder reports a change and every value is kept. Which other regions
      are drawn is stated by `RedrawnValues` and `RedrawnButtons`. */
  function RenderMainScreen(ui: UI): (r: (UI, seq<Region>, bool))
    ensures r.2
    ensures |r.1| >= 1 && r.1[0] == FpsBox(ui)
    ensures Quiet(r.0)
    ensures r.0.(shutter := ui.shutter, gain := ui.gain, tc := ui.tc, cameraId := ui.cameraId,
                 zebra := ui.zebra, focusAssist := ui.focusAssist, falseColor := ui.falseColor,
                 guides := ui.guides) == ui
    ensures r.0.shutter.value == ui.shutter.value && r.0.gain.value == ui.gain.value
    ensures r.0.tc.value == ui.tc.value && r.0.cameraId.value == ui.cameraId.value
    ensures r.0.zebra.value == ui.zebra.value && r.0.focusAssist.value == ui.focusAssist.value
    ensures r.0.falseColor.value == ui.falseColor.value && r.0.guides.value == ui.guides.value
  {
    (ConsumeAll(ui), Regions(ui), true)
  }

  lemma InGate(s: StateNumber, region: Region, g: Region)
    ensures g in Gate(s, region) <==> s.changed && g == region
  {
  }

  /** A region is drawn iff it is the FPS value or a region whose holder
      reports a change. */
  lemma InRegions(ui: UI, g: Region)
    ensures g in Regions(ui) <==>
      || g == FpsBox(ui)
      || (ui.shutter.changed && g == ShutterBox(ui)) || (ui.gain.changed && g == GainBox(ui))
      || (ui.tc.changed && g == TcBox(ui)) || (ui.cameraId.changed && g == CameraIdBox(ui))
      || (ui.zebra.changed && g == ZebraBox(ui)) || (ui.focusAssist.changed && g == FocusBox(ui))
      || (ui.falseColor.changed && g == ExposureBox(ui)) || (ui.guides.changed && g == GuidesBox(ui))
      || (ui.guides.changed && PyEq(ui.guides.value, PyStr("thirds")) && g == ThirdsGrid)
  {
    InGate(ui.shutter, ShutterBox(ui), g);
    InGate(ui.gain, GainBox(ui), g);
    InGate(ui.tc, TcBox(ui), g);
    InGate(ui.cameraId, CameraIdBox(ui), g);
    InGate(ui.zebra, ZebraBox(ui), g);
    InGate(ui.focusAssist, FocusBox(ui), g);
    InGate(ui.falseColor, ExposureBox(ui), g);
    InGate(ui.guides, GuidesBox(ui), g);
  }

  /** Each value region is redrawn exactly when its `once()` reports a change. */
  lemma RedrawnValues(ui: UI)
    ensures var regions := RenderMainScreen(ui).1;
            && (ShutterBox(ui) in regions <==> ui.shutter.changed)
            && (GainBox(ui) in regions <==> ui.gain.changed)
            && (TcBox(ui) in regions <==> ui.tc.changed)
            && (CameraIdBox(ui) in regions <==> ui.cameraId.changed)
  {
    InRegions(ui, ShutterBox(ui));
    InRegions(ui, GainBox(ui));
    InRegions(ui, TcBox(ui));
    InRegions(ui, CameraIdBox(ui));
  }

  /** Each button is redrawn exactly when its `once()` reports a change; the
      guides button is highlighted iff its value is not "none", and the thirds
      grid goes with a guides redraw whose value is "thirds". */
  lemma RedrawnButtons(ui: UI)
    ensures var regions := RenderMainScreen(ui).1;
            && (ZebraBox(ui) in regions <==> ui.zebra.changed)
            && (FocusBox(ui) in regions <==> ui.focusAssist.changed)
            && (ExposureBox(ui) in regions <==> ui.falseColor.changed)
            && (GuidesBox(ui) in regions <==> ui.guides.changed)
            && (ThirdsGrid in regions <==> ui.guides.changed && PyEq(ui.guides.value, PyStr("thirds")))
  {
    InRegions(ui, ZebraBox(ui));
    InRegions(ui, FocusBox(ui));
    InRegions(ui, ExposureBox(ui));
    InRegions(ui, GuidesBox(ui));
    InRegions(ui, ThirdsGrid);
  }

  /** `start()`. A fresh screen draws the FPS value, the three toggles (not
      highlighted), the guides button (highlighted) and the thirds grid. */
  lemma FirstRenderOfNewUI(width: int, height: int)
    ensures RenderMainScreen(NewUI(width, height)).1 ==
      [ValueBox(10, 100, "FPS", PyInt(60)),
       ButtonBox(10, 120, PyStr("Zebra"), false), ButtonBox(140, 120, PyStr("Focus"), false),
       ButtonBox(270, 120, PyStr("Exposure"), false), ButtonBox(400, 120, PyStr("thirds"), true),
       ThirdsGrid]
  {
  }

  /** `update_state(metadata)`: stores the timecode, the shutter as
      `int(1000000 / ExposureTime)` and the gain in dB, then renders. The
      timecode text and the gain in dB are computed by the caller (clock
      formatting and `log10`). An `ExposureTime` of 0 raises
      `ZeroDivisionError` (`None`). A value box is repainted iff its new
      value differs from the last one reported or a change was already
      pending; every other region as `RenderMainScreen` decides. */
  function UpdateState(ui: UI, exposureTime: int, tc: string, gainDb: int): (r: Option<(UI, seq<Region>)>)
    ensures r.None? <==> exposureTime == 0
    ensures r.Some? ==> r.value.0.shutter.value == PyInt(TruncDiv(1000000, exposureTime))
    ensures r.Some? && exposureTime > 0 ==> r.value.0.shutter.value == PyInt(1000000 / exposureTime)
    ensures r.Some? ==> r.value.0.tc.value == PyStr(tc) && r.value.0.gain.value == PyInt(gainDb)
    ensures r.Some? ==> !r.value.0.shutter.changed && !r.value.0.tc.changed && !r.value.0.gain.changed
    ensures r.Some? ==> |r.value.1| >= 1 && r.value.1[0] == FpsBox(ui) && Quiet(r.value.0)
    ensures r.Some? ==> var shutter := PyInt(TruncDiv(1000000, exposureTime));
              (ValueBox(120, 100, "Shutter", shutter) in r.value.1 <==> ui.shutter.changed || !PyEq(shutter, ui.shutter.lastValue))
    ensures r.Some? ==>
              (ValueBox(240, 100, "Gain", PyInt(gainDb)) in r.value.1 <==> ui.gain.changed || !PyEq(PyInt(gainDb), ui.gain.lastValue))
    ensures r.Some? ==>
              (ValueBox(400, 200, "TC", PyStr(tc)) in r.value.1 <==> ui.tc.changed || !PyEq(PyStr(tc), ui.tc.lastValue))
    ensures r.Some? ==> (CameraIdBox(ui) in r.value.1 <==> ui.cameraId.changed)
    ensures r.Some? ==> && (ZebraBox(ui) in r.value.1 <==> ui.zebra.changed)
                        && (FocusBox(ui) in r.value.1 <==> ui.focusAssist.changed)
                        && (ExposureBox(ui) in r.value.1 <==> ui.falseColor.changed)
                        && (GuidesBox(ui) in r.value.1 <==> ui.guides.changed)
  {
    if exposureTime == 0 then None
    else
      var ui1 := ui.(tc := Set(ui.tc, PyStr(tc)),
                     shutter := Set(ui.shutter, PyInt(TruncDiv(1000000, exposureTime))),
                     gain := Set(ui.gain, PyInt(gainDb)));
      RedrawnValues(ui1);
      RedrawnButtons(ui1);
      var (ui2, regions, _) := RenderMainScreen(ui1);
      Some((ui2, regions))
  }

  /** Feeding the same metadata twice: the second update repaints only the
      FPS value, because nothing it sets differs from what is shown. */
  lemma {:induction false} RepeatedMetadataRedrawsOnlyFps(ui: UI, exposureTime: int, tc: string, gainDb: int)
    requires exposureTime != 0
    ensures var ui1 := UpdateState(ui, exposureTime, tc, gainDb).value.0;
            UpdateState(ui1, exposureTime, tc, gainDb).value.1 == [FpsBox(ui1)]
  {
    var shutter := PyInt(TruncDiv(1000000, exposureTime));
    var ui1 := UpdateState(ui, exposureTime, tc, gainDb).value.0;
    SetIdempotent(ui.tc, PyStr(tc));
    SetIdempotent(ui.shutter, shutter);
    SetIdempotent(ui.gain, PyInt(gainDb));
    RepeatedSetNotReported(ui.tc, PyStr(tc));
    RepeatedSetNotReported(ui.shutter, shutter);
    RepeatedSetNotReported(ui.gain, PyInt(gainDb));
  }
}
